=== FILE: README.md ===
# ScheduleHAW timetable core in Dafny

ScheduleHAW is a timetable viewer for the Information Engineering programme
at HAW Hamburg. Every scheduled session is a `ScheduleBlockType` record. It
gives the weekday, the start and end time, the course code, the group, the
instructors and a compact week string such as `"42-51,2-4"`. This project
models the logic the viewer runs on those records:

- **Weeks** (`weeks.dfy`): `expandWeeks`, which turns a week string into the
  sorted, duplicate-free list of weeks it denotes.
- **Courses** (`courses.dfy`): `getModuleType` and `getFullName`. They strip the
  cohort prefix (`IE<n>-` or `E<n>-`) and the `/group` suffix from a course
  code. Then they classify the code by ordered substring tests, or look it up
  in the `moduleNames` table.
- **Conflicts** (`conflicts.dfy`): `detectConflicts`. It groups sessions by
  their exact (day, start, end) slot. It counts how often each week occurs in
  a group, and reports the groups in which some week occurs twice, with a
  "Lab vs Lecture" style label.
- **Civil** (`civil.dfy`): proleptic Gregorian dates as integer triples with
  day-count arithmetic, and `getDateFromWeek`. The latter places a week
  number and a weekday in the calendar, counting from the Monday of ISO 8601
  week 1.
- **Ics** (`ics.dfy`): the iCalendar export. It covers `formatICSDate`, the
  `YYYYMMDDTHHMM00` local DATE-TIME of section 3.3.5 of RFC 5545, and
  `generateUID`. It also covers `escapeICSText`, the TEXT escaping of section
  3.3.11 of RFC 5545. Finally, `generateICS` emits one VEVENT with a nested
  VALARM per session and week, with CRLF line ends.
- **Catalogue** (`catalogue.dfy`): the timetable page's `filteredBlocks` filter
  and its `allGroups`, `allInstructors` and `allCourses` option menus.
- **Filters** (`filters.dfy`): the filter panel's `toggleCourse`, its
  `semesterWeeks` menu and the export file name.
- **Grid** (`grid.dfy`): the week grid's `timeSlots` and `days` tables,
  `getBlockPosition` and `getBlocksForDayAndTime`.

The remaining files hold the JavaScript built-ins the code relies on:

- `text.dfy`: `split`, `trim`, `includes`, `startsWith`, `toLowerCase` and `join`;
- `numerals.dfy`: `parseInt`, `Number`, `String` and `padStart`;
- `sorting.dfy`: `new Set` followed by `sort`;
- `seqs.dfy`: `filter`, `map` and `flat`;
- `blocks.dfy`: the record itself.

JavaScript's `null`, `undefined` and `""` are all falsy, and the code only
tests them for truthiness. The model therefore writes an unset optional
string (a group, or a selected week, group or instructor) as `""`.

`Ics.GenerateIcs` takes a date rule. `AsWritten` dates the events with
`getDateFromWeek` as `generateICS` calls it, with no year, so the default 2025
applies. That is the export as written. `Semester` dates them with the
corrected rule `Civil.SemesterDateFromWeek`; the first row under "## Findings"
gives the reason. The two documents differ only in their DTSTART and DTEND
lines (`Ics.IcsRulesDiffer`). In every semester week those lines carry dates
exactly 364 days apart (`Ics.IcsStamps`, `Ics.EventDateShift`).

Two consequences of the code as written:

- Monday of week 41 is 2024-10-07 and Monday of week 1 is 2024-12-30, so
  week 1 falls less than three months after week 41, in the same calendar
  year (`Civil.Week41Monday`, `Civil.Week1Monday`).
- A session with no weeks is still listed in its slot's conflict, because the
  conflict's `blocks` is the whole slot group (`Conflicts.ConflictSound`).

## Model

| member | source | states |
|---|---|---|
| Weeks.ExpandWeeks | Entities/ScheduleBlock.ts:17-34 | the expansion is strictly ascending (sorted, no duplicates) and holds no negative week; the empty string gives the empty list; a week is in it exactly when some comma-separated token contributes it |
| Weeks.ExpandWeeksOfTokens | Entities/ScheduleBlock.ts:22-33 | for a week string written from numeric tokens, a week is in the expansion exactly when it equals a single token or lies within a range token's inclusive bounds |
| Weeks.SpanTokenMembership | Entities/ScheduleBlock.ts:23-27 | a range token `a-b` contributes exactly the weeks from a to b |
| Weeks.ReversedRangeIsEmpty | Entities/ScheduleBlock.ts:25 | a reversed range token `a-b` with a > b contributes no week |
| Weeks.TokenWeeksNonNegative | Entities/ScheduleBlock.ts:22-31 | no token contributes a negative week, because a sign is never part of a piece |
| Weeks.ExpandWeeksIdempotent | Entities/ScheduleBlock.ts:17-34 | expanding the comma-join of an expansion gives that expansion back |
| Weeks.ExpandWeeksExample | Entities/ScheduleBlock.ts:17-34 | the string `42-44,2` expands to 2, 42, 43, 44 |
| Weeks.ExpandWeeksDuplicates | Entities/ScheduleBlock.ts:33 | a week listed three times appears once |
| Courses.RemoveFirstMatch | Entities/ScheduleBlock.ts:99 | `replace(/IE\d+-/, '')` cuts out the leftmost match of the pattern, and leaves a string without a match unchanged |
| Courses.BaseCodeIgnoresGroup | Entities/ScheduleBlock.ts:99 | the base code ignores everything from the first `/` on |
| Courses.CohortBase | Entities/ScheduleBlock.ts:99 | the base code of `IE<n>-<rest>` is `rest` when `rest` holds no digit and no `/` |
| Courses.ModuleTypeFirstMatch | Entities/ScheduleBlock.ts:98-114 | the module type is the type of the first rule, in source order, that has a fragment occurring in the base code |
| Courses.ModuleTypeDefault | Entities/ScheduleBlock.ts:98-114 | the type is `default` exactly when no fragment of any rule occurs in the base code |
| Courses.DigitalSystemsIsDatabase | Entities/ScheduleBlock.ts:101-102 | a base code holding `DS` is `database` and never reaches the `digital` test |
| Courses.ModuleTypeIgnoresGroup | Entities/ScheduleBlock.ts:99 | appending `/group` to a code does not change its type |
| Courses.DigitalSystemsExample | Entities/ScheduleBlock.ts:98-114 | `IE4-DS` is classified `database` |
| Courses.SoftwareLabExample | Entities/ScheduleBlock.ts:98-114 | `IE4-SEL/01` is classified `electronics` |
| Courses.KeywordName | Entities/ScheduleBlock.ts:121-146 | the E7 keyword lookup fails exactly when no keyword occurs in the code, and otherwise gives the name of the first keyword that does |
| Courses.FullNameLookup | Entities/ScheduleBlock.ts:116-151 | outside the `E7-` cohort the name is the table entry of the base code when it has a non-empty one, and the base code itself when it has none |
| Courses.ElectiveFallback | Entities/ScheduleBlock.ts:121-147 | an `E7-` code matching no keyword is its own name |
| Courses.FullNameIgnoresGroup | Entities/ScheduleBlock.ts:116-151 | outside the `E7-` cohort, appending `/group` does not change the name |
| Courses.ElectiveLookupExample | Entities/ScheduleBlock.ts:116-151 | `E5-WP-Rust` is not in the `E7-` cohort and is named through the table entry of `WP-Rust` |
| Courses.WinzenickKeywordMisses | Entities/ScheduleBlock.ts:129 | the catalogue code `E7-WP13-Winzenick` does not hold the keyword `WP-Winzenick` |
| Conflicts.GroupBySlot | Components/schedule/ConflictDetector.tsx:24-32 | the groups' keys are the distinct slot keys in order of first occurrence, and each group holds exactly the sessions with its key, in input order |
| Conflicts.GroupingPartition | Components/schedule/ConflictDetector.tsx:26-32 | every session lies in exactly one group, the one for its own slot key |
| Conflicts.CountWeeks | Components/schedule/ConflictDetector.tsx:44-49 | the count of each week seen is its number of occurrences across the members' week lists, and only weeks seen are counted |
| Conflicts.OverlappingWeeks | Components/schedule/ConflictDetector.tsx:44-55 | the overlapping weeks are ascending and are exactly the weeks counted more than once |
| Conflicts.OverlapMeansShared | Components/schedule/ConflictDetector.tsx:44-55 | when no week list repeats a week, a week overlaps exactly when two different members hold it |
| Conflicts.DisjointWeeksNoOverlap | Components/schedule/ConflictDetector.tsx:51-57 | members with pairwise disjoint week lists give no overlapping week |
| Conflicts.ConflictTypeUniform | Components/schedule/ConflictDetector.tsx:59-70 | when every member has the same kind K, the label is `K vs K` |
| Conflicts.ConflictTypeMixed | Components/schedule/ConflictDetector.tsx:59-73 | when two members differ in kind, the label is all the members' kinds in order, joined by ` vs ` |
| Conflicts.KindIgnoresCase | Components/schedule/ConflictDetector.tsx:60-63 | the kind of a session does not depend on the letter case of its code |
| Conflicts.Reported | Components/schedule/ConflictDetector.tsx:35-57 | the reported groups keep their order, and a group is reported exactly when it has several members and some overlapping week |
| Conflicts.NoBlocksNoConflicts | Components/schedule/ConflictDetector.tsx:20-87 | no sessions give no conflicts |
| Conflicts.ConflictSound | Components/schedule/ConflictDetector.tsx:20-87 | every conflict lists all sessions of one slot, at least two of them, and an ascending, non-empty list of exactly the weeks that occur more than once among them |
| Conflicts.ConflictComplete | Components/schedule/ConflictDetector.tsx:20-87 | any two sessions at different positions with the same slot and a common week appear together in a reported conflict whose weeks include that week |
| Conflicts.ConflictMembersShareSlot | Components/schedule/ConflictDetector.tsx:26-32 | every session of a conflict is an input session with the conflict's slot key |
| Conflicts.ConflictsDisjoint | Components/schedule/ConflictDetector.tsx:35-84 | no session lies in two different conflicts |
| Conflicts.ConflictSlot | Components/schedule/ConflictDetector.tsx:37 | when day and times hold no `-`, a conflict's day and time are those of each of its sessions |
| Civil.AddDays | lib/icsGenerator.ts:14-15 | moving a date by n days gives a valid date n days later in the day count, which is what `setDate` with an out-of-month day does |
| Civil.WeekdayShift | lib/icsGenerator.ts:9-10 | the weekday of a date n days later is moved by n modulo 7 |
| Civil.MondayOffsetLandsOnMonday | lib/icsGenerator.ts:10 | the offset chosen from the weekday of 1 January moves by at most three days and lands on a Monday |
| Civil.FirstMonday | lib/icsGenerator.ts:9-11 | the first Monday is a valid Monday within three days of 1 January |
| Civil.FirstMondayRange | lib/icsGenerator.ts:9-11 | the first Monday falls between 29 December of the year before and 4 January |
| Civil.FirstMondayUnique | lib/icsGenerator.ts:9-11 | the first Monday is the only Monday whose Thursday lies in the first week of January, which makes it the Monday of ISO 8601 week 1 |
| Civil.DayOffset | lib/icsGenerator.ts:18-28 | the day offset is between 0 and 6 |
| Civil.DayOffsets | lib/icsGenerator.ts:18-28 | Monday to Sunday have day offsets 0 to 6 |
| Civil.DateFromWeek | lib/icsGenerator.ts:4-32 | the date is valid, and lies 7 × (week − 1) + the day offset days after the first Monday of 2024 for weeks from 41 on and of 2025 below |
| Civil.DateFromWeekIgnoresYear | lib/icsGenerator.ts:4-6 | the `year` argument has no effect |
| Civil.DateFromWeekWeekday | lib/icsGenerator.ts:14-29 | the date falls on the weekday its day offset names |
| Civil.NextWeekSevenDaysLater | lib/icsGenerator.ts:6-15 | except across the year switch at week 41, the next week's date is seven days later |
| Civil.Week41Monday | lib/icsGenerator.ts:4-32 | as written, Monday of week 41 is 2024-10-07 |
| Civil.Week1Monday | lib/icsGenerator.ts:4-32 | as written, Monday of week 1 is 2024-12-30 |
| Civil.AsWrittenYearEarly | lib/icsGenerator.ts:3-6 | for every semester week, the date as written is exactly 364 days before the date in the 2025/2026 semester |
| Civil.SemesterDateFromWeek | lib/icsGenerator.ts:3-32 | the date is valid, and lies 7 × (week − 1) + the day offset days after the first Monday of 2025 for weeks from 41 on and of 2026 below |
| Civil.SemesterDateWeekday | lib/icsGenerator.ts:14-29 | the corrected date falls on the weekday its day offset names |
| Civil.SemesterDatesInSemester | lib/icsGenerator.ts:3-32 | every date of a semester week lies between 2025-10-06 and 2026-01-25 |
| Civil.SemesterYearBoundary | lib/icsGenerator.ts:3-32 | week 1 comes exactly seven days after week 52 |
| Civil.SemesterWeek41Monday | lib/icsGenerator.ts:3-32 | Monday of week 41 in the semester is 2025-10-06 |
| Ics.Carry | lib/icsGenerator.ts:38 | `setHours` turns hours and minutes into a whole number of days plus an hour below 24 and a minute below 60 that count the same minutes |
| Ics.FormatIcsDate | lib/icsGenerator.ts:35-47 | the stamp is the `NaN` text exactly when the time does not parse into hours and minutes |
| Ics.FormatIcsDateInstant | lib/icsGenerator.ts:35-47 | a parsable time gives the stamp of a valid date, an hour below 24 and a minute below 60 that denote the same minute as the given date plus the given hours and minutes |
| Ics.FormatIcsDateOfClockText | lib/icsGenerator.ts:35-47 | an `HH:MM` time of day gives the stamp of that date and time, and the stamp reads back to them |
| Ics.StampRoundTrip | lib/icsGenerator.ts:40-46 | a stamp of a date with a non-negative year reads back to its date, hour and minute |
| Ics.StampWidth | lib/icsGenerator.ts:40-46 | for a four-digit year the stamp has exactly 15 characters, a `T` at position 8, and ends in `00` |
| Ics.UidShape | lib/icsGenerator.ts:50-52 | the UID starts with `code-day-` and ends in `@haw-schedule.local` |
| Ics.UidSeparatesWeeks | lib/icsGenerator.ts:50-52 | one session gets different UIDs in different weeks |
| Ics.UidKey | lib/icsGenerator.ts:50-52 | the UID depends only on code, day, week and start time |
| Ics.EscapeIcsText | lib/icsGenerator.ts:55-60 | escaped text holds no line feed |
| Ics.EscapeConcat | lib/icsGenerator.ts:55-60 | escaping works character by character: the escape of a concatenation is the concatenation of the escapes |
| Ics.EscapeRoundTrip | lib/icsGenerator.ts:55-60 | unescaping an escaped text gives it back, and a text unescapes to s exactly when it is the escape of s |
| Ics.CategoryName | lib/icsGenerator.ts:99-110 | the category is the mapped name of a known module type, and `Course` exactly when the type is not one of the nine known |
| Ics.DescriptionGroup | lib/icsGenerator.ts:91-96 | when the instructors hold no backslash or line feed, the description holds a `\nGroup: ` part exactly when the session has a group |
| Ics.DescriptionWithGroup | lib/icsGenerator.ts:92-94 | a session with a group always has a `\nGroup: ` part |
| Ics.EventsMembership | lib/icsGenerator.ts:75-77 | an event is emitted exactly for each session and each week in its week list |
| Ics.EventsAppend | lib/icsGenerator.ts:75-122 | the events of two lists of sessions are the events of the first followed by those of the second |
| Ics.EventLines | lib/icsGenerator.ts:78-120 | each event is exactly 14 lines, under either date rule |
| Ics.EventDate | lib/icsGenerator.ts:78 | the event's date is a valid calendar date; `AsWritten` is `getDateFromWeek(weekNum, block.day)` with the default year 2025 |
| Ics.EventWeekday | lib/icsGenerator.ts:17-31 | under either rule an event falls on the weekday its day name gives |
| Ics.EventDateShift | lib/icsGenerator.ts:6 | in a semester week (41–52 or 1–4) the corrected rule dates an event exactly 364 days after the rule as written |
| Ics.EventStamps | lib/icsGenerator.ts:79-86 | line 2 of an event is `DTSTART:` with the stamp of its date and start time, line 3 `DTEND:` with its end time |
| Ics.EventLinesByRule | lib/icsGenerator.ts:83-120 | every event line other than DTSTART and DTEND is the same under both date rules |
| Ics.AlarmLines | lib/icsGenerator.ts:114-118 | the alarm is five lines and opens with `BEGIN:VALARM` |
| Ics.GenerateIcs | lib/icsGenerator.ts:62-127 | under the rule `AsWritten` the method builds the document of `generateICS`: the header, the events' lines and the footer, joined by CRLF, 9 + 14 × (total weeks) lines; under `Semester` the same with corrected dates |
| Ics.IcsFrame | lib/icsGenerator.ts:63-72 | the document starts with `BEGIN:VCALENDAR` and ends with `END:VCALENDAR` |
| Ics.IcsLayout | lib/icsGenerator.ts:74-122 | under either rule, line 8 + 14k + j of the document is line j of the k-th event, in session-then-week order |
| Ics.IcsStamps | lib/icsGenerator.ts:78-86 | the k-th event's DTSTART and DTEND lines in the document carry the stamps of its date under the rule |
| Ics.IcsRulesDiffer | lib/icsGenerator.ts:78-86 | a line where the as-written and the corrected document differ lies among the events and is line 2 (DTSTART) or 3 (DTEND) of one |
| Ics.IcsEmpty | lib/icsGenerator.ts:63-126 | with no weeks at all the document is the eight header lines and the footer |
| Ics.IcsEventCount | lib/icsGenerator.ts:62-127 | under either rule, the document holds exactly one `BEGIN:VEVENT` and one `BEGIN:VALARM` line per session and week |
| Numerals.ParseInt | Entities/ScheduleBlock.ts:24 | `parseInt` fails exactly when no decimal digit follows the leading white space and optional sign; otherwise it gives the value of that digit run, negated after a `-`, so text without a minus gives a non-negative value |
| Numerals.ParseIntOfNatToString | Pages/Schedule.tsx:33 | the numeral of a natural number parses back to it |
| Numerals.ParseNumber | lib/icsGenerator.ts:36 | the model's `Number` succeeds exactly when the trimmed text is a run of decimal digits, whose exact value it gives, and gives 0 for blank text; every other text gives `NaN` |
| Numerals.PadTwo | lib/icsGenerator.ts:41-44 | `padStart(2, '0')` gives two digits with the value for numbers below 100, and the plain numeral otherwise |
| Numerals.IntToStringInjective | lib/icsGenerator.ts:51 | different numbers have different numerals |
| Seqs.Distinct | Components/schedule/ConflictDetector.tsx:66 | `[...new Set(s)]` holds each value of s exactly once, and two values appear in the order of their first occurrences in s |
| Sorting.SortUniqueInts | Entities/ScheduleBlock.ts:33 | `Array.from(new Set(weeks)).sort((a, b) => a - b)` is ascending without duplicates and holds exactly the input's values |
| Sorting.SortUniqueStrings | Pages/Schedule.tsx:56 | `[...new Set(xs)].sort()` is ascending without duplicates and holds exactly the input's values |
| Sorting.AscendingStringsUnique | Pages/Schedule.tsx:56-65 | two ascending string lists with the same values are equal |
| Text.ContainsLower | Pages/Schedule.tsx:41 | a substring stays a substring after lower-casing both texts |
| Catalogue.FilteredBlocks | Pages/Schedule.tsx:30-54 | the shown sessions are an order-preserving subsequence of the sessions, with the chosen semester and group |
| Catalogue.FilteredMembers | Pages/Schedule.tsx:30-54 | a session is shown exactly when it passes all five tests: semester unless `ALL`, the typed week in its weeks, its group, the instructor text ignoring case, and its base code among the chosen courses |
| Catalogue.InitialShowsAll | Pages/Schedule.tsx:13-17 | the opening state shows every session, in order |
| Catalogue.WeekSelection | Pages/Schedule.tsx:33-35 | typing a plain week number shows exactly the sessions held in that week |
| Catalogue.InstructorIgnoresCase | Pages/Schedule.tsx:41-43 | lower-casing the typed instructor does not change the outcome |
| Catalogue.Groups | Pages/Schedule.tsx:56 | the group menu is sorted, without duplicates, and holds exactly the non-empty groups of the sessions |
| Catalogue.Instructors | Pages/Schedule.tsx:57-62 | the instructor menu is sorted, without duplicates, and holds exactly the non-empty trimmed comma-separated names of the sessions |
| Catalogue.Courses | Pages/Schedule.tsx:65 | the course menu is sorted, without duplicates, and holds exactly the sessions' codes before the first `/` |
| Catalogue.MenusDetermined | Pages/Schedule.tsx:56-65 | each menu is the only sorted duplicate-free list of its values |
| Catalogue.GroupOptionShows | Pages/Schedule.tsx:37-39 | choosing a group from the menu shows at least one session |
| Catalogue.InstructorOptionShows | Pages/Schedule.tsx:41-43 | choosing an instructor from the menu shows at least one session |
| Catalogue.CourseOptionShows | Pages/Schedule.tsx:46-51 | choosing a course from the menu shows at least one session |
| Catalogue.AllCoursesShowAll | Pages/Schedule.tsx:46-51 | choosing every course of the menu shows every session |
| Filters.ToggleCourse | Components/schedule/ScheduleFilters.tsx:49-55 | the toggled code is in the result exactly when it was not selected, every other code keeps its number of copies, and removing keeps the rest in order |
| Filters.TogglePresent | Components/schedule/ScheduleFilters.tsx:50-51 | toggling a selected code removes every copy and shortens the list by their number |
| Filters.ToggleFlips | Components/schedule/ScheduleFilters.tsx:49-55 | a toggle flips the toggled code's membership and no other code's |
| Filters.ToggleTwiceAbsent | Components/schedule/ScheduleFilters.tsx:49-55 | toggling an unselected code twice restores the list |
| Filters.ToggleKeepsDistinct | Components/schedule/ScheduleFilters.tsx:49-55 | a toggle keeps a duplicate-free selection duplicate-free |
| Filters.TogglesDistinct | Components/schedule/ScheduleFilters.tsx:49-55 | from the empty selection, no sequence of toggles selects a code twice |
| Filters.TogglesParity | Components/schedule/ScheduleFilters.tsx:49-55 | from the empty selection, a code is selected exactly when it was toggled an odd number of times |
| Filters.SemesterWeeksShape | Components/schedule/ScheduleFilters.tsx:43-46 | the week menu is 41 to 52 and then 1 to 4, sixteen different weeks |
| Filters.ExportFilename | Components/schedule/ScheduleFilters.tsx:57-62 | the file name starts with `HAW_Schedule` and ends with `.ics` |
| Filters.ExportFilenameSemester | Components/schedule/ScheduleFilters.tsx:58-60 | the plain name is used exactly for `ALL`, and any other semester reads back from the name |
| Filters.ExportFilenameInjective | Components/schedule/ScheduleFilters.tsx:58-60 | different semesters export to different file names |
| Grid.TableShape | Components/schedule/ScheduleGrid.tsx:6-22 | there are 13 `HH:MM-HH:MM` slots, each ending where the next begins, and 6 days |
| Grid.PositionIn | Components/schedule/ScheduleGrid.tsx:25-29 | the start is the first slot starting with the start time (−1 if none), and start + span is one past the first slot holding the end time (0 if none) |
| Grid.PositionOf | Components/schedule/ScheduleGrid.tsx:25-29 | first matches at rows i and j give the position (i, j + 1 − i) |
| Grid.MorningDoubleLesson | Components/schedule/ScheduleGrid.tsx:25-29 | a session from 08:10 to 11:25 starts at row 1 and spans 3 rows |
| Grid.BlocksForDayAndTime | Components/schedule/ScheduleGrid.tsx:31-36 | the sessions of a cell are an order-preserving subsequence of the sessions, all on that day |
| Grid.CellMembers | Components/schedule/ScheduleGrid.tsx:31-36 | a session is in a cell exactly when it is on that day and its rows include that row |
| Grid.EmptySpanNowhere | Components/schedule/ScheduleGrid.tsx:34 | a session whose span is not positive is in no cell |

## Left out

- Weeks.TokenWeeks: a token without digits (`""` from `","`, or `"x"`) contributes nothing. In JavaScript it pushes `NaN`, which the `Set` keeps and the numeric sort leaves in no fixed place. No catalogue week string has such a token. A filter on a typed week never matches `NaN` either, because the model's `parseInt` of such text fails.
- Numerals.ParseInt: the hexadecimal prefix is not modelled. `"0x10"` parses as 0 here and as 16 in JavaScript. Nor is double rounding: JavaScript rounds a long digit run to the nearest double (`parseInt("9007199254740993")` is 9007199254740992), while the model keeps the exact integer. Week strings are short and decimal.
- Numerals.ParseNumber: `Number` also accepts a sign, a fraction and an exponent (`"+8"`, `"-1"`, `"8.5"`, `"1e1"`), the prefixes `"0x10"`, `"0o7"` and `"0b1"`, and `"Infinity"`. The model returns `NaN` for all of these. It also keeps the exact integer where JavaScript rounds to the nearest double (`Number("9007199254740993")` is 9007199254740992). `formatICSDate` only sees the catalogue's `HH:MM` times.
- Civil.DayOffset: inherited object keys such as `"constructor"` or `"toString"` are not modelled. In JavaScript `dayMap[dayName] || 0` returns a function for them, which gives an invalid date. Here they give offset 0, like any unknown day name.
- Ics.CategoryName: inherited object keys are not modelled either. For them JavaScript prints the inherited function's source text; here they give `Course`.
- Courses.NamedBase: for an inherited key such as `"constructor"`, `moduleNames[baseCode] || baseCode` returns a function in JavaScript. Here the base code is returned.
- Text.Lower: `toLowerCase` is modelled only for ASCII and Latin-1 capitals. Other scripts, and multi-character lower-case forms, are not.
- Civil.AddDays: dates are calendar triples in one time zone. The local time zone, daylight saving time and the range limit of JavaScript `Date` play no part.
- Sorting.LexLess: strings are ordered by code point. JavaScript's default `sort` compares UTF-16 code units, and the two orders differ only above U+FFFF.
- Conflicts.OverlappingWeeks: `NaN` weeks are not modelled, because no week list holds one (see Weeks.TokenWeeks). The model assumes the order in which `Object.entries` lists conflict groups is key insertion order. That holds because every key contains `-`, so no key looks like an array index.
- `downloadICS`: creating the Blob and clicking a link is browser I/O.
- RFC 5545 line folding: the code does not fold long lines, so no folding property is stated.
- `ScheduleBlock.list`: the timer delay and the `realSchedule` data table are data and asynchronous loading, not logic. The `moduleNames` table is modelled as `Courses.ModuleNames`.
- React state, hooks, the `isBreak` styling test, and all JSX and styling are left out. This includes `ScheduleBlock.tsx`, `WeekTimeline.tsx` and `layout.tsx`. The filter and toggle logic is modelled as functions of explicit arguments. The unused constant `currentWeek` is left out.

## Findings

| source | as written | input that shows it | evidently intended | confidence | as-written member | corrected member |
|---|---|---|---|---|---|---|
| lib/icsGenerator.ts:6 | weeks from 41 on are placed in 2024 and weeks below 41 in 2025 | week 41, Monday: 2024-10-07, a year before the 2025/2026 semester named by line 3, the week menu comment (Components/schedule/ScheduleFilters.tsx:42) and the page banner "WINTER SEMESTER 2025/26 … Weeks 41-52 (2025) … Weeks 1-4 (2026)" (Pages/Schedule.tsx:96-98); against this, the comment at line 5 and Components/schedule/WeekTimeline.tsx:6 say 2024/2025 | weeks 41–52 in 2025 and weeks 1–4 in 2026: week 41 Monday is 2025-10-06 | high; not executed | Civil.DateFromWeek and Ics.GenerateIcs with `AsWritten` (shown by Civil.Week41Monday, Civil.AsWrittenYearEarly and Ics.EventDateShift) | Civil.SemesterDateFromWeek and Ics.GenerateIcs with `Semester` (proved by Civil.SemesterDatesInSemester, Civil.SemesterYearBoundary, Civil.SemesterWeek41Monday and Ics.IcsRulesDiffer) |

Notes that have no corrected member, because the intended behaviour cannot be
read from the code:

- `getModuleType` (Entities/ScheduleBlock.ts:98-114) disagrees with the
  catalogue's own `module_type` fields. `IE4-DS` (Digital Systems) is
  classified `database`, because the `DS` test comes first
  (`Courses.DigitalSystemsExample`). The catalogue records it as `digital`.
  `IE4-SEL/01` is classified `electronics`, because `SEL` holds `EL`
  (`Courses.SoftwareLabExample`). The catalogue records it as `software`.
- The `E7-` keywords of `getFullName` (Entities/ScheduleBlock.ts:121-145) do
  not match the catalogue's `E7-` codes. Those codes carry a course number
  between `WP` and the name, so `E7-WP13-Winzenick` does not hold
  `WP-Winzenick` (`Courses.WinzenickKeywordMisses`), and such a code falls
  back to itself as its name.
- Neither `getModuleType` nor `getFullName` is exported from or called in
  Entities/ScheduleBlock.ts, whose only exports are at lines 1 and 669. The records carry their own `module_type` and `full_name`, so
  neither mismatch reaches the page or the calendar export.

=== FILE: blocks.dfy ===
/** The session record of the timetable (`ScheduleBlockType`). */
module Blocks {

  /** One scheduled session pattern: when it meets, what it is, and the
      academic weeks it is active in. `group` is `""` when the record has
      none: JavaScript treats a missing and an empty group alike. */
  datatype Block = Block(
    semester: string,
    day: string,
    startTime: string,
    endTime: string,
    code: string,
    fullName: string,
    location: string,
    instructors: string,
    weeks: string,
    weeksArray: seq<int>,
    moduleType: string,
    group: string)
}

=== FILE: catalogue.dfy ===
/** The timetable page (`Schedule`): which sessions the current filter
    selection keeps, and the sorted option lists of the group, instructor
    and course menus. */
module Catalogue {
  import opened Blocks
  import opened Seqs
  import opened Text
  import opened Numerals
  import opened Sorting

  /** The page's filter state. An empty string is an unset selection (the
      page holds `null` there, and `""` tests false alike); `semester` is
      "ALL" when no semester is chosen. */
  datatype Selection = Selection(
    semester: string,
    week: string,
    group: string,
    instructor: string,
    courses: seq<string>)

  /** The state the page opens with. */
  const Initial := Selection("ALL", "", "", "", [])

  /** `block.code.split('/')[0]`: the course code without its group. */
  function BaseCourse(b: Block): string {
    Before(b.code, '/')
  }

  /** The filter callback of `filteredBlocks`, its tests in source order:
      the first failing test drops the session. */
  predicate Keeps(sel: Selection, b: Block) {
    if sel.semester != "ALL" && b.semester != sel.semester then false
    else if sel.week != "" && !(ParseInt(sel.week).Some? && ParseInt(sel.week).value in b.weeksArray) then false
    else if sel.group != "" && b.group != sel.group then false
    else if sel.instructor != "" && !Contains(Lower(b.instructors), Lower(sel.instructor)) then false
    else if |sel.courses| > 0 && BaseCourse(b) !in sel.courses then false
    else true
  }

  /** `Keeps` as a function value, for `Filter`. */
  function Kept(sel: Selection): Block -> bool {
    b => Keeps(sel, b)
  }

  /** `filteredBlocks`: the sessions the selection keeps, in the order the
      data source delivered them. */
  function FilteredBlocks(blocks: seq<Block>, sel: Selection): (r: seq<Block>)
    ensures IsSubsequence(r, blocks)
    ensures forall i :: 0 <= i < |r| ==> sel.semester == "ALL" || r[i].semester == sel.semester
    ensures forall i :: 0 <= i < |r| ==> sel.group == "" || r[i].group == sel.group
  {
    Filter(blocks, Kept(sel))
  }

  /** A session is shown exactly when it is one of the sessions and passes
      all five tests: semester, week, group, instructor and course. */
  lemma FilteredMembers(blocks: seq<Block>, sel: Selection, b: Block)
    ensures b in FilteredBlocks(blocks, sel)
        <==> b in blocks
             && (sel.semester == "ALL" || b.semester == sel.semester)
             && (sel.week == "" || (ParseInt(sel.week).Some? && ParseInt(sel.week).value in b.weeksArray))
             && (sel.group == "" || b.group == sel.group)
             && (sel.instructor == "" || Contains(Lower(b.instructors), Lower(sel.instructor)))
             && (|sel.courses| == 0 || BaseCourse(b) in sel.courses)
  {
    FilterMembership(blocks, Kept(sel), b);
  }

  /** The opening state shows every session. */
  lemma InitialShowsAll(blocks: seq<Block>)
    ensures FilteredBlocks(blocks, Initial) == blocks
  {
    FilterAll(blocks, Kept(Initial));
  }

  /** A week typed as a plain number selects the sessions held in that
      week. */
  lemma WeekSelection(blocks: seq<Block>, n: nat, b: Block)
    ensures b in FilteredBlocks(blocks, Initial.(week := NatToString(n))) <==> b in blocks && n in b.weeksArray
  {
    ParseIntOfNatToString(n);
    FilteredMembers(blocks, Initial.(week := NatToString(n)), b);
  }

  /** The instructor test ignores letter case in what was typed. */
  lemma InstructorIgnoresCase(sel: Selection, b: Block)
    ensures Keeps(sel.(instructor := Lower(sel.instructor)), b) == Keeps(sel, b)
  {
    LowerIdempotent(sel.instructor);
  }

  /** `allGroups`: the distinct non-empty groups, sorted. */
  function Groups(blocks: seq<Block>): (r: seq<string>)
    ensures AscendingStrings(r)
    ensures forall g :: g in r <==> g != "" && exists b :: b in blocks && b.group == g
  {
    var withGroup := Filter(blocks, (b: Block) => b.group != "");
    var groups := Map(withGroup, (b: Block) => b.group);
    forall g
      ensures g in groups <==> g != "" && exists b :: b in blocks && b.group == g
    {
      MapMembership(withGroup, (b: Block) => b.group, g);
      if b :| b in blocks && b.group == g && g != "" {
        FilterMembership(blocks, (b: Block) => b.group != "", b);
      }
    }
    SortUniqueStrings(groups)
  }

  /** The instructor names a session lists: its `instructors` split at
      commas, each name trimmed. */
  function Names(b: Block): seq<string> {
    Map(Split(b.instructors, ','), Trim)
  }

  /** `allInstructors`: the distinct non-empty names over all sessions,
      sorted. */
  function Instructors(blocks: seq<Block>): (r: seq<string>)
    ensures AscendingStrings(r)
    ensures forall n :: n in r <==> n != "" && exists b :: b in blocks && n in Names(b)
  {
    var all := Flatten(Map(blocks, Names));
    var names := Filter(all, (n: string) => n != "");
    forall n
      ensures n in names <==> n != "" && exists b :: b in blocks && n in Names(b)
    {
      FilterMembership(all, (n: string) => n != "", n);
      NamesMembership(blocks, n);
    }
    SortUniqueStrings(names)
  }

  /** A name occurs in the flattened name lists exactly when some session
      lists it. */
  lemma NamesMembership(blocks: seq<Block>, n: string)
    ensures n in Flatten(Map(blocks, Names)) <==> exists b :: b in blocks && n in Names(b)
  {
    var lists := Map(blocks, Names);
    FlattenMembership(lists, n);
    if i :| 0 <= i < |lists| && n in lists[i] {
      assert blocks[i] in blocks;
    }
    if b :| b in blocks && n in Names(b) {
      var i :| 0 <= i < |blocks| && blocks[i] == b;
      assert n in lists[i];
    }
  }

  /** `allCourses`: the distinct base course codes, sorted. */
  function Courses(blocks: seq<Block>): (r: seq<string>)
    ensures AscendingStrings(r)
    ensures forall c :: c in r <==> exists b :: b in blocks && BaseCourse(b) == c
  {
    var codes := Map(blocks, BaseCourse);
    forall c
      ensures c in codes <==> exists b :: b in blocks && BaseCourse(b) == c
    {
      MapMembership(blocks, BaseCourse, c);
    }
    SortUniqueStrings(codes)
  }

  /** Each menu is THE sorted list of its values: any ascending list with
      the same values is that menu. */
  lemma MenusDetermined(blocks: seq<Block>, groups: seq<string>, names: seq<string>, courses: seq<string>)
    requires AscendingStrings(groups) && AscendingStrings(names) && AscendingStrings(courses)
    requires forall g :: g in groups <==> g != "" && exists b :: b in blocks && b.group == g
    requires forall n :: n in names <==> n != "" && exists b :: b in blocks && n in Names(b)
    requires forall c :: c in courses <==> exists b :: b in blocks && BaseCourse(b) == c
    ensures groups == Groups(blocks) && names == Instructors(blocks) && courses == Courses(blocks)
  {
    AscendingStringsUnique(groups, Groups(blocks));
    AscendingStringsUnique(names, Instructors(blocks));
    AscendingStringsUnique(courses, Courses(blocks));
  }

  /** Choosing a group from its menu shows at least one session. */
  lemma GroupOptionShows(blocks: seq<Block>, g: string)
    requires g in Groups(blocks)
    ensures |FilteredBlocks(blocks, Initial.(group := g))| > 0
  {
    var b :| b in blocks && b.group == g;
    FilteredMembers(blocks, Initial.(group := g), b);
  }

  /** Choosing a course from its menu shows at least one session. */
  lemma CourseOptionShows(blocks: seq<Block>, c: string)
    requires c in Courses(blocks)
    ensures |FilteredBlocks(blocks, Initial.(courses := [c]))| > 0
  {
    var b :| b in blocks && BaseCourse(b) == c;
    FilteredMembers(blocks, Initial.(courses := [c]), b);
  }

  /** Choosing an instructor from its menu shows at least one session: a
      listed name is part of the session's instructor text, whatever its
      letter case. */
  lemma InstructorOptionShows(blocks: seq<Block>, n: string)
    requires n in Instructors(blocks)
    ensures |FilteredBlocks(blocks, Initial.(instructor := n))| > 0
  {
    var b :| b in blocks && n in Names(b);
    NameInText(b, n);
    FilteredMembers(blocks, Initial.(instructor := n), b);
  }

  /** A name a session lists occurs in its instructor text, also after
      lower-casing both. */
  lemma NameInText(b: Block, n: string)
    requires n in Names(b)
    ensures Contains(Lower(b.instructors), Lower(n))
  {
    var parts := Split(b.instructors, ',');
    var k :| 0 <= k < |parts| && Trim(parts[k]) == n;
    SplitPiecesContained(b.instructors, ',');
    TrimContained(parts[k]);
    ContainsTrans(b.instructors, parts[k], n);
    ContainsLower(b.instructors, n);
  }

  /** Choosing every course of the menu shows the same as choosing none. */
  lemma AllCoursesShowAll(blocks: seq<Block>)
    ensures FilteredBlocks(blocks, Initial.(courses := Courses(blocks))) == blocks
  {
    var sel := Initial.(courses := Courses(blocks));
    forall i | 0 <= i < |blocks|
      ensures Keeps(sel, blocks[i])
    {
      assert blocks[i] in blocks;
    }
    FilterAll(blocks, Kept(sel));
  }
}

=== FILE: civil.dfy ===
/** Civil dates of the proleptic Gregorian calendar with day-count
    arithmetic, and the week-number-to-date rule of the calendar export
    (`getDateFromWeek`). JavaScript `Date` objects are replaced by plain
    year/month/day triples; time zones and daylight saving play no part. */
module Civil {

  /** A calendar date; months and days count from 1. */
  datatype Date = Date(year: int, month: int, day: int)

  predicate IsLeap(y: int) {
    y % 4 == 0 && (y % 100 != 0 || y % 400 == 0)
  }

  function YearLength(y: int): int {
    if IsLeap(y) then 366 else 365
  }

  function DaysInMonth(y: int, m: int): int
    requires 1 <= m <= 12
  {
    if m == 2 then (if IsLeap(y) then 29 else 28)
    else if m == 4 || m == 6 || m == 9 || m == 11 then 30
    else 31
  }

  /** A date that exists in the calendar. */
  predicate Valid(d: Date) {
    1 <= d.month <= 12 && 1 <= d.day <= DaysInMonth(d.year, d.month)
  }

  /** Days of year `y` before the first of month `m` (`m == 13` gives the
      whole year). */
  function DaysBeforeMonth(y: int, m: int): int
    requires 1 <= m <= 13
    decreases m
  {
    if m == 1 then 0 else DaysBeforeMonth(y, m - 1) + DaysInMonth(y, m - 1)
  }

  /** Days from 2024-01-01, the start of the semester year, to January 1
      of year `y` (negative before 2024). */
  function DaysBeforeYear(y: int): int
    decreases if y < 2024 then 2024 - y else y - 2024
  {
    if y == 2024 then 0
    else if y > 2024 then DaysBeforeYear(y - 1) + YearLength(y - 1)
    else DaysBeforeYear(y + 1) - YearLength(y)
  }

  /** Days from 2024-01-01 to `d` (negative before it). */
  function DayNumber(d: Date): int
    requires Valid(d)
  {
    DaysBeforeYear(d.year) + DaysBeforeMonth(d.year, d.month) + d.day - 1
  }

  /** `getDay()`: 0 for Sunday up to 6 for Saturday; 2024-01-01 was a Monday. */
  function Weekday(d: Date): int
    requires Valid(d)
  {
    (DayNumber(d) + 1) % 7
  }

  /** The months of a year add up to its length. */
  lemma MonthsFillYear(y: int)
    ensures DaysBeforeMonth(y, 13) == YearLength(y)
    ensures DaysBeforeMonth(y, 12) == YearLength(y) - 31
  {
  }

  /** Consecutive years start `YearLength` days apart. */
  lemma YearStep(y: int)
    ensures DaysBeforeYear(y + 1) == DaysBeforeYear(y) + YearLength(y)
  {
  }

  /** A later year starts later. */
  lemma {:induction false} YearsIncrease(a: int, b: int)
    requires a < b
    ensures DaysBeforeYear(a) + YearLength(a) <= DaysBeforeYear(b)
    decreases b - a
  {
    YearStep(a);
    if a + 1 < b {
      YearsIncrease(a + 1, b);
    }
  }

  /** A later month of the same year starts later. */
  lemma {:induction false} MonthsIncrease(y: int, a: int, b: int)
    requires 1 <= a < b <= 13
    ensures DaysBeforeMonth(y, a) + DaysInMonth(y, a) <= DaysBeforeMonth(y, b)
    decreases b - a
  {
    if a + 1 < b {
      MonthsIncrease(y, a + 1, b);
    }
  }

  /** A valid date lies inside its year's block of day numbers. */
  lemma DayNumberInYear(d: Date)
    requires Valid(d)
    ensures DaysBeforeYear(d.year) <= DayNumber(d) < DaysBeforeYear(d.year) + YearLength(d.year)
  {
    MonthsFillYear(d.year);
    if d.month < 12 {
      MonthsIncrease(d.year, d.month, 13);
    }
  }

  /** Different valid dates have different day numbers. */
  lemma DayNumberInjective(a: Date, b: Date)
    requires Valid(a) && Valid(b) && DayNumber(a) == DayNumber(b)
    ensures a == b
  {
    DayNumberInYear(a);
    DayNumberInYear(b);
    if a.year < b.year {
      YearsIncrease(a.year, b.year);
    } else if b.year < a.year {
      YearsIncrease(b.year, a.year);
    }
    assert a.year == b.year;
    if a.month < b.month {
      MonthsIncrease(a.year, a.month, b.month);
    } else if b.month < a.month {
      MonthsIncrease(a.year, b.month, a.month);
    }
  }

  /** The day after `d`. */
  function NextDay(d: Date): (r: Date)
    requires Valid(d)
    ensures Valid(r) && DayNumber(r) == DayNumber(d) + 1
  {
    if d.day < DaysInMonth(d.year, d.month) then Date(d.year, d.month, d.day + 1)
    else if d.month < 12 then
      assert DaysBeforeMonth(d.year, d.month + 1)
          == DaysBeforeMonth(d.year, d.month) + DaysInMonth(d.year, d.month);
      Date(d.year, d.month + 1, 1)
    else
      YearStep(d.year);
      MonthsFillYear(d.year);
      assert DayNumber(d) == DaysBeforeYear(d.year) + YearLength(d.year) - 1;
      Date(d.year + 1, 1, 1)
  }

  /** The day before `d`. */
  function PrevDay(d: Date): (r: Date)
    requires Valid(d)
    ensures Valid(r) && DayNumber(r) == DayNumber(d) - 1
  {
    if d.day > 1 then Date(d.year, d.month, d.day - 1)
    else if d.month > 1 then Date(d.year, d.month - 1, DaysInMonth(d.year, d.month - 1))
    else
      YearStep(d.year - 1);
      MonthsFillYear(d.year - 1);
      Date(d.year - 1, 12, 31)
  }

  /** `setDate(getDate() + n)`: the date `n` days after `d` (before it for
      negative `n`), with month and year carried over as `Date` does. */
  function AddDays(d: Date, n: int): (r: Date)
    requires Valid(d)
    ensures Valid(r) && DayNumber(r) == DayNumber(d) + n
    decreases if n < 0 then -n else n
  {
    if n == 0 then d
    else if n > 0 then AddDays(NextDay(d), n - 1)
    else AddDays(PrevDay(d), n + 1)
  }

  /** Adding to a number shifts its remainder modulo 7 the same way. */
  lemma ShiftMod7(a: int, n: int)
    ensures (a + n) % 7 == (a % 7 + n) % 7
  {
    var q := a / 7;
    assert a == 7 * q + a % 7;
    assert (a + n) - (a % 7 + n) == 7 * q;
  }

  /** Whole weeks do not change a remainder modulo 7. */
  lemma AddWeeksMod7(a: int, k: int)
    ensures (a + 7 * k) % 7 == a % 7
  {
    var q := a / 7;
    assert a == 7 * q + a % 7;
    assert a + 7 * k == 7 * (q + k) + a % 7;
  }

  /** Two numbers less than a week apart with the same remainder modulo 7
      are equal. */
  lemma SameWeekdayClose(a: int, b: int)
    requires a % 7 == b % 7 && -7 < a - b < 7
    ensures a == b
  {
    var qa, qb := a / 7, b / 7;
    assert a == 7 * qa + a % 7 && b == 7 * qb + b % 7;
    assert a - b == 7 * (qa - qb);
  }

  /** Moving `n` days moves the weekday by `n` modulo 7. */
  lemma WeekdayShift(d: Date, n: int)
    requires Valid(d)
    ensures Weekday(AddDays(d, n)) == (Weekday(d) + n) % 7
  {
    WeekdayAfter(d, AddDays(d, n), n);
  }

  /** The offset `daysOffset` from January 1 to the Monday of week 1. */
  function MondayOffset(weekdayOfJan1: int): int {
    if weekdayOfJan1 <= 4 then 1 - weekdayOfJan1 else 8 - weekdayOfJan1
  }

  /** The offset moves by at most three days and always lands on a Monday. */
  lemma MondayOffsetLandsOnMonday(wd: int)
    requires 0 <= wd < 7
    ensures -3 <= MondayOffset(wd) <= 3
    ensures (wd + MondayOffset(wd)) % 7 == 1
  {
  }

  /** `firstMonday`: January 1 of `y` moved by `MondayOffset` days, a Monday
      at most three days away from January 1 whose Thursday falls in the
      first seven days of January (week 1 in the sense of ISO 8601). */
  function FirstMonday(y: int): (r: Date)
    ensures Valid(r) && Weekday(r) == 1
    ensures DayNumber(Date(y, 1, 1)) - 3 <= DayNumber(r) <= DayNumber(Date(y, 1, 1)) + 3
  {
    var jan1 := Date(y, 1, 1);
    var wd := Weekday(jan1);
    var r := AddDays(jan1, MondayOffset(wd));
    MondayOffsetLandsOnMonday(wd);
    WeekdayShift(jan1, MondayOffset(wd));
    r
  }

  /** The Monday of week 1 falls between December 29 of the year before and
      January 4, and its Thursday between January 1 and January 7. */
  lemma FirstMondayRange(y: int)
    ensures DayNumber(Date(y - 1, 12, 29)) <= DayNumber(FirstMonday(y)) <= DayNumber(Date(y, 1, 4))
    ensures DayNumber(Date(y, 1, 1)) <= DayNumber(FirstMonday(y)) + 3 <= DayNumber(Date(y, 1, 7))
  {
    DecemberEnd(y);
    JanuaryDays(y);
  }

  lemma JanuaryDays(y: int)
    ensures DayNumber(Date(y, 1, 4)) == DayNumber(Date(y, 1, 1)) + 3
    ensures DayNumber(Date(y, 1, 7)) == DayNumber(Date(y, 1, 1)) + 6
  {
  }

  /** December 29 of the year before lies three days before January 1. */
  lemma DecemberEnd(y: int)
    ensures DayNumber(Date(y - 1, 12, 29)) == DayNumber(Date(y, 1, 1)) - 3
  {
    YearStep(y - 1);
    MonthsFillYear(y - 1);
  }

  /** The ISO rule fixes the Monday: any Monday whose Thursday lies in the
      first seven days of January is `FirstMonday`. */
  lemma FirstMondayUnique(y: int, m: Date)
    requires Valid(m) && Weekday(m) == 1
    requires DayNumber(Date(y, 1, 1)) <= DayNumber(m) + 3 <= DayNumber(Date(y, 1, 7))
    ensures m == FirstMonday(y)
  {
    JanuaryDays(y);
    MondaysClose(m, FirstMonday(y), DayNumber(Date(y, 1, 1)));
  }

  /** Two Mondays within three days of the same day are the same day. */
  lemma MondaysClose(m: Date, f: Date, j: int)
    requires Valid(m) && Weekday(m) == 1 && j - 3 <= DayNumber(m) <= j + 3
    requires Valid(f) && Weekday(f) == 1 && j - 3 <= DayNumber(f) <= j + 3
    ensures m == f
  {
    var a, b := DayNumber(m), DayNumber(f);
    assert (a + 1) % 7 == 1;
    assert (b + 1) % 7 == 1;
    SameWeekdayClose(a + 1, b + 1);
    DayNumberInjective(m, f);
  }

  /** `dayMap[dayName] || 0`: Monday 0 up to Sunday 6, anything else 0. */
  function DayOffset(dayName: string): (k: int)
    ensures 0 <= k <= 6
  {
    if dayName == "Monday" then 0
    else if dayName == "Tuesday" then 1
    else if dayName == "Wednesday" then 2
    else if dayName == "Thursday" then 3
    else if dayName == "Friday" then 4
    else if dayName == "Saturday" then 5
    else if dayName == "Sunday" then 6
    else 0
  }

  /** The calendar year a semester week falls in: weeks 41 and later in
      2024, all others in 2025. */
  function WeekYear(week: int): (y: int)
    ensures y == if week >= 41 then 2024 else 2025
  {
    2024 + (if week >= 41 then 0 else 1)
  }

  /** The date of `dayName` in week `week`, counted from the week-1 Monday
      of calendar year `y`: the computation of `getDateFromWeek` once its
      year is chosen. */
  function WeekDate(y: int, week: int, dayName: string): (r: Date)
    ensures Valid(r)
    ensures DayNumber(r) == DayNumber(FirstMonday(y)) + 7 * (week - 1) + DayOffset(dayName)
  {
    AddDays(AddDays(FirstMonday(y), 7 * (week - 1)), DayOffset(dayName))
  }

  /** `getDateFromWeek(week, dayName, year)` as written: weeks from 41 on
      in 2024, the others in 2025. The `year` argument is not consulted. */
  function DateFromWeek(week: int, dayName: string, year: int): (r: Date)
    ensures Valid(r)
    ensures DayNumber(r) == DayNumber(FirstMonday(WeekYear(week))) + 7 * (week - 1) + DayOffset(dayName)
  {
    WeekDate(WeekYear(week), week, dayName)
  }

  /** The calendar year a week of the 2025/2026 winter semester falls in:
      weeks 41 and later in 2025, all others in 2026. */
  function SemesterWeekYear(week: int): int {
    if week >= 41 then 2025 else 2026
  }

  /** `getDateFromWeek` with the weeks placed in the 2025/2026 semester that
      its own comment and the semester menu name. */
  function SemesterDateFromWeek(week: int, dayName: string): (r: Date)
    ensures Valid(r)
    ensures DayNumber(r) == DayNumber(FirstMonday(SemesterWeekYear(week))) + 7 * (week - 1) + DayOffset(dayName)
  {
    WeekDate(SemesterWeekYear(week), week, dayName)
  }

  /** Every date of a menu week (41 to 52, then 1 to 4) lies in the
      2025/2026 lecture period: from Monday 2025-10-06, the start of week
      41, to Sunday 2026-01-25, the end of week 4. */
  lemma SemesterDatesInSemester(week: int, dayName: string)
    requires 41 <= week <= 52 || 1 <= week <= 4
    ensures DayNumber(Date(2025, 10, 6)) <= DayNumber(SemesterDateFromWeek(week, dayName)) <= DayNumber(Date(2026, 1, 25))
  {
    FirstMonday2025();
    FirstMonday2026();
    October6Of2025();
    January25Of2026();
  }

  /** Across the year boundary the semester runs on without a gap: week 1
      begins seven days after week 52. */
  lemma SemesterYearBoundary(dayName: string)
    ensures DayNumber(SemesterDateFromWeek(1, dayName)) == DayNumber(SemesterDateFromWeek(52, dayName)) + 7
  {
    FirstMonday2025();
    FirstMonday2026();
  }

  /** As written, every menu week is dated exactly 52 weeks (364 days)
      before its date in the 2025/2026 semester. */
  lemma AsWrittenYearEarly(week: int, dayName: string, year: int)
    requires 41 <= week <= 52 || 1 <= week <= 4
    ensures DayNumber(DateFromWeek(week, dayName, year)) + 364 == DayNumber(SemesterDateFromWeek(week, dayName))
  {
    FirstMonday2024();
    FirstMonday2025();
    FirstMonday2026();
  }

  /** The date falls on the weekday its day name says: Monday (offset 0)
      on weekday 1, up to Sunday (offset 6) on weekday 0. */
  lemma DateFromWeekWeekday(week: int, dayName: string, year: int)
    ensures Weekday(DateFromWeek(week, dayName, year)) == (1 + DayOffset(dayName)) % 7
  {
    MondayPlus(FirstMonday(WeekYear(week)), week, DayOffset(dayName));
  }

  /** The corrected rule keeps the weekday of the day name as well. */
  lemma SemesterDateWeekday(week: int, dayName: string)
    ensures Weekday(SemesterDateFromWeek(week, dayName)) == (1 + DayOffset(dayName)) % 7
  {
    MondayPlus(FirstMonday(SemesterWeekYear(week)), week, DayOffset(dayName));
  }

  /** From a Monday, whole weeks and then `off` days reach weekday `1 + off`. */
  lemma MondayPlus(first: Date, week: int, off: int)
    requires Valid(first) && Weekday(first) == 1
    ensures Weekday(AddDays(AddDays(first, 7 * (week - 1)), off)) == (1 + off) % 7
  {
    var r := AddDays(AddDays(first, 7 * (week - 1)), off);
    var k := 7 * (week - 1) + off;
    WeekdayAfter(first, r, k);
    AddWeeksMod7(1 + off, week - 1);
  }

  /** A date `k` days after `d` falls `k` weekdays later, modulo 7. */
  lemma WeekdayAfter(d: Date, r: Date, k: int)
    requires Valid(d) && Valid(r) && DayNumber(r) == DayNumber(d) + k
    ensures Weekday(r) == (Weekday(d) + k) % 7
  {
    ShiftMod7(DayNumber(d) + 1, k);
  }

  /** The year argument makes no difference. */
  lemma DateFromWeekIgnoresYear(week: int, dayName: string, y1: int, y2: int)
    ensures DateFromWeek(week, dayName, y1) == DateFromWeek(week, dayName, y2)
  {
    DayNumberInjective(DateFromWeek(week, dayName, y1), DateFromWeek(week, dayName, y2));
  }

  /** Within one calendar year's weeks, the next week is seven days later. */
  lemma NextWeekSevenDaysLater(week: int, dayName: string, year: int)
    requires week != 40
    ensures DayNumber(DateFromWeek(week + 1, dayName, year))
         == DayNumber(DateFromWeek(week, dayName, year)) + 7
  {
  }

  /** The day names `dayMap` knows, Monday first. */
  const DayNames: seq<string> := ["Monday", "Tuesday", "Wednesday", "Thursday", "Friday", "Saturday", "Sunday"]

  /** `dayMap` sends the `i`-th day name to offset `i`. */
  lemma DayOffsets(i: nat)
    requires i < 7
    ensures DayOffset(DayNames[i]) == i
  {
  }

  /** Each day name lands on its own weekday: Monday on a Monday, ...,
      Sunday on a Sunday. */
  lemma DayNameWeekday(week: int, year: int, i: nat)
    requires i < 7
    ensures Weekday(DateFromWeek(week, DayNames[i], year)) == (i + 1) % 7
  {
    DayOffsets(i);
    DateFromWeekWeekday(week, DayNames[i], year);
  }

  /** The date of a week and day name is the valid date at the right
      distance from the week-1 Monday. */
  lemma DateFromWeekIs(week: int, dayName: string, year: int, target: Date, first: int)
    requires Valid(target)
    requires DayNumber(FirstMonday(WeekYear(week))) == first
    requires DayNumber(target) == first + 7 * (week - 1) + DayOffset(dayName)
    ensures DateFromWeek(week, dayName, year) == target
  {
    DayNumberInjective(DateFromWeek(week, dayName, year), target);
  }

  /** As written, week 41 starts on Monday 2024-10-07, a year before the
      semester's first Monday. */
  lemma Week41Monday()
    ensures DateFromWeek(41, "Monday", 2025) == Date(2024, 10, 7)
  {
    FirstMonday2024();
    October7();
    DateFromWeekIs(41, "Monday", 2025, Date(2024, 10, 7), 0);
  }

  /** As written, week 1 starts on Monday 2024-12-30, in the same calendar
      year as week 41. */
  lemma Week1Monday()
    ensures DateFromWeek(1, "Monday", 2025) == Date(2024, 12, 30)
  {
    FirstMonday2025();
    December30();
    DateFromWeekIs(1, "Monday", 2025, Date(2024, 12, 30), 364);
  }

  /** In the 2025/2026 semester, week 41 starts on Monday 2025-10-06. */
  lemma SemesterWeek41Monday()
    ensures SemesterDateFromWeek(41, "Monday") == Date(2025, 10, 6)
  {
    FirstMonday2025();
    October6Of2025();
    SemesterDateIs(41, "Monday", Date(2025, 10, 6), 364);
  }

  /** The corrected date is the valid date at the right distance from the
      week-1 Monday of its semester year. */
  lemma SemesterDateIs(week: int, dayName: string, target: Date, first: int)
    requires Valid(target)
    requires DayNumber(FirstMonday(SemesterWeekYear(week))) == first
    requires DayNumber(target) == first + 7 * (week - 1) + DayOffset(dayName)
    ensures SemesterDateFromWeek(week, dayName) == target
  {
    DayNumberInjective(SemesterDateFromWeek(week, dayName), target);
  }

  /** 2024 began on a Monday, which is therefore its week-1 Monday. */
  lemma FirstMonday2024()
    ensures DayNumber(FirstMonday(2024)) == 0
  {
    var jan1 := Date(2024, 1, 1);
    assert DayNumber(jan1) == 0;
    FirstMondayUnique(2024, jan1);
  }

  /** 2025 began on a Wednesday; its week-1 Monday is 2024-12-30. */
  lemma FirstMonday2025()
    ensures DayNumber(FirstMonday(2025)) == 364
  {
    var m := Date(2024, 12, 30);
    December30();
    assert DayNumber(Date(2025, 1, 1)) == 366;
    FirstMondayUnique(2025, m);
  }

  /** 2026 begins on a Thursday; its week-1 Monday is 2025-12-29. */
  lemma FirstMonday2026()
    ensures DayNumber(FirstMonday(2026)) == 728
  {
    var m := Date(2025, 12, 29);
    assert DaysBeforeMonth(2025, 12) == 334;
    assert DayNumber(m) == 728;
    assert DayNumber(Date(2026, 1, 1)) == 731;
    FirstMondayUnique(2026, m);
  }

  lemma October7()
    ensures DayNumber(Date(2024, 10, 7)) == 280
  {
    assert DaysBeforeMonth(2024, 10) == 274;
  }

  lemma October6Of2025()
    ensures DayNumber(Date(2025, 10, 6)) == 644
  {
    assert DaysBeforeMonth(2025, 10) == 273;
  }

  lemma January25Of2026()
    ensures DayNumber(Date(2026, 1, 25)) == 755
  {
    assert DaysBeforeYear(2026) == 731;
  }

  lemma December30()
    ensures DayNumber(Date(2024, 12, 30)) == 364
  {
    assert DaysBeforeMonth(2024, 12) == 335;
  }
}

=== FILE: conflicts.dfy ===
/** Conflict detection (`detectConflicts`): sessions that meet on the same
    day at the same start and end time are grouped, and a group whose
    sessions share an academic week is reported as a conflict. */
module Conflicts {
  import opened Text
  import opened Sorting
  import opened Seqs
  import opened Blocks
  import opened Weeks

  /** The grouping key `${day}-${start_time}-${end_time}`. */
  function SlotKey(b: Block): string {
    b.day + "-" + b.startTime + "-" + b.endTime
  }

  /** The test "has slot key `key`", named so that every use of it denotes
      the same predicate. */
  function KeyIs(key: string): Block -> bool {
    b => SlotKey(b) == key
  }

  /** The slot keys of `blocks`, in order. */
  function SlotKeys(blocks: seq<Block>): (r: seq<string>)
    ensures |r| == |blocks|
    ensures forall i :: 0 <= i < |blocks| ==> r[i] == SlotKey(blocks[i])
  {
    seq(|blocks|, i requires 0 <= i < |blocks| => SlotKey(blocks[i]))
  }

  /** One entry of the `grouped` object: a key and the sessions pushed
      under it. */
  datatype Group = Group(key: string, members: seq<Block>)

  /** The keys of `groups`, in order. */
  function Keys(groups: seq<Group>): (r: seq<string>)
    ensures |r| == |groups|
    ensures forall i :: 0 <= i < |groups| ==> r[i] == groups[i].key
  {
    seq(|groups|, i requires 0 <= i < |groups| => groups[i].key)
  }

  /** The position of `key` among the keys of `groups`. */
  function KeyIndex(groups: seq<Group>, key: string): (i: nat)
    requires key in Keys(groups)
    ensures i < |groups| && groups[i].key == key
    ensures forall j :: 0 <= j < i ==> groups[j].key != key
    decreases |groups|
  {
    if groups[0].key == key then 0
    else
      assert Keys(groups) == [groups[0].key] + Keys(groups[1..]);
      1 + KeyIndex(groups[1..], key)
  }

  /** `grouped[key].push(block)`, creating the entry (at the end, in
      insertion order) when the key is new. */
  function AddToGroups(groups: seq<Group>, b: Block): (r: seq<Group>)
    ensures Keys(r) == if SlotKey(b) in Keys(groups) then Keys(groups) else Keys(groups) + [SlotKey(b)]
    ensures forall i :: 0 <= i < |groups| && groups[i].key != SlotKey(b) ==> r[i] == groups[i]
    ensures SlotKey(b) in Keys(groups) ==> var i := KeyIndex(groups, SlotKey(b));
              r[i].members == groups[i].members + [b]
    ensures SlotKey(b) !in Keys(groups) ==> r[|groups|].members == [b]
  {
    var key := SlotKey(b);
    if key in Keys(groups) then
      var i := KeyIndex(groups, key);
      var r := groups[i := Group(key, groups[i].members + [b])];
      assert Keys(r) == Keys(groups);
      r
    else
      var r := groups + [Group(key, [b])];
      assert Keys(r) == Keys(groups) + [key];
      r
  }

  /** The `grouped` object after `blocks.forEach`: one group per distinct
      slot key, in order of first occurrence, holding the sessions with
      that key in input order. */
  function GroupBySlot(blocks: seq<Block>): (r: seq<Group>)
    ensures Keys(r) == Distinct(SlotKeys(blocks))
    ensures forall i :: 0 <= i < |r| ==> r[i].members == Filter(blocks, KeyIs(r[i].key))
    decreases |blocks|
  {
    if |blocks| == 0 then []
    else
      var g := GroupBySlot(blocks[..|blocks| - 1]);
      AddKeepsKeys(blocks, g);
      AddKeepsMembers(blocks, g, blocks[|blocks| - 1]);
      AddToGroups(g, blocks[|blocks| - 1])
  }

  /** Adding a session keeps the keys the first-occurrence order of the
      slot keys seen so far. */
  lemma AddKeepsKeys(blocks: seq<Block>, g: seq<Group>)
    requires |blocks| > 0
    requires Keys(g) == Distinct(SlotKeys(blocks[..|blocks| - 1]))
    ensures Keys(AddToGroups(g, blocks[|blocks| - 1])) == Distinct(SlotKeys(blocks))
  {
    var init, b := blocks[..|blocks| - 1], blocks[|blocks| - 1];
    var s := SlotKeys(blocks);
    assert s[..|s| - 1] == SlotKeys(init);
    assert s[|s| - 1] == SlotKey(b);
    assert SlotKey(b) in SlotKeys(init) <==> SlotKey(b) in Distinct(SlotKeys(init));
  }

  /** Adding a session keeps every group's members the sessions seen so far
      with its key, in order. */
  lemma AddKeepsMembers(blocks: seq<Block>, g: seq<Group>, b: Block)
    requires |blocks| > 0 && b == blocks[|blocks| - 1]
    requires Keys(g) == Distinct(SlotKeys(blocks[..|blocks| - 1]))
    requires forall i :: 0 <= i < |g| ==> g[i].members == Filter(blocks[..|blocks| - 1], KeyIs(g[i].key))
    ensures forall i :: 0 <= i < |AddToGroups(g, b)| ==>
              AddToGroups(g, b)[i].members == Filter(blocks, KeyIs(AddToGroups(g, b)[i].key))
  {
    forall i | 0 <= i < |AddToGroups(g, b)|
      ensures AddToGroups(g, b)[i].members == Filter(blocks, KeyIs(AddToGroups(g, b)[i].key))
    {
      AddKeepsMember(blocks, g, i);
    }
  }

  /** One group after adding a session: its members are the sessions so far
      with its key. */
  lemma AddKeepsMember(blocks: seq<Block>, g: seq<Group>, i: nat)
    requires |blocks| > 0
    requires Keys(g) == Distinct(SlotKeys(blocks[..|blocks| - 1]))
    requires i < |g| ==> g[i].members == Filter(blocks[..|blocks| - 1], KeyIs(g[i].key))
    requires i < |AddToGroups(g, blocks[|blocks| - 1])|
    ensures AddToGroups(g, blocks[|blocks| - 1])[i].members
              == Filter(blocks, KeyIs(AddToGroups(g, blocks[|blocks| - 1])[i].key))
  {
    var init, b := blocks[..|blocks| - 1], blocks[|blocks| - 1];
    assert blocks == init + [b];
    if i < |g| {
      if g[i].key == SlotKey(b) {
        AddToOwnGroup(init, b, g, i);
      } else {
        AddToOtherGroup(init, b, g, i);
      }
    } else {
      AddNewGroup(init, b, g, i);
    }
  }

  /** The group whose key the new session has gains it at the end. */
  lemma AddToOwnGroup(init: seq<Block>, b: Block, g: seq<Group>, i: nat)
    requires Keys(g) == Distinct(SlotKeys(init))
    requires i < |g| && g[i].key == SlotKey(b)
    requires g[i].members == Filter(init, KeyIs(SlotKey(b)))
    ensures i < |AddToGroups(g, b)|
    ensures AddToGroups(g, b)[i].members == Filter(init + [b], KeyIs(AddToGroups(g, b)[i].key))
  {
    assert forall j, k :: 0 <= j < k < |g| ==> Keys(g)[j] != Keys(g)[k];
    DistinctKeysIndex(g, i, SlotKey(b));
    assert AddToGroups(g, b)[i].key == SlotKey(b);
    FilterAppend(init, [b], KeyIs(SlotKey(b)));
    assert Filter([b], KeyIs(SlotKey(b))) == [b];
  }

  /** A group with another key is left as it was. */
  lemma AddToOtherGroup(init: seq<Block>, b: Block, g: seq<Group>, i: nat)
    requires i < |g| && g[i].key != SlotKey(b)
    requires g[i].members == Filter(init, KeyIs(g[i].key))
    ensures i < |AddToGroups(g, b)| && AddToGroups(g, b)[i].key == g[i].key
    ensures AddToGroups(g, b)[i].members == Filter(init + [b], KeyIs(AddToGroups(g, b)[i].key))
  {
    FilterAppend(init, [b], KeyIs(g[i].key));
    assert Filter([b], KeyIs(g[i].key)) == [];
  }

  /** A session with a key not seen before opens a group of its own. */
  lemma AddNewGroup(init: seq<Block>, b: Block, g: seq<Group>, i: nat)
    requires Keys(g) == Distinct(SlotKeys(init))
    requires |g| <= i < |AddToGroups(g, b)|
    ensures AddToGroups(g, b)[i].members == Filter(init + [b], KeyIs(AddToGroups(g, b)[i].key))
  {
    var r := AddToGroups(g, b);
    assert |Keys(r)| == |r|;
    assert SlotKey(b) !in Keys(g);
    assert i == |g| && Keys(r)[|g|] == SlotKey(b);
    forall j | 0 <= j < |init|
      ensures !KeyIs(SlotKey(b))(init[j])
    {
      assert SlotKeys(init)[j] in SlotKeys(init);
    }
    FilterNone(init, KeyIs(SlotKey(b)));
    FilterAppend(init, [b], KeyIs(SlotKey(b)));
    assert Filter([b], KeyIs(SlotKey(b))) == [b];
  }

  /** With distinct keys, the group holding `key` is the one `KeyIndex` finds. */
  lemma DistinctKeysIndex(groups: seq<Group>, i: nat, key: string)
    requires forall j, k :: 0 <= j < k < |groups| ==> groups[j].key != groups[k].key
    requires i < |groups| && groups[i].key == key
    ensures key in Keys(groups) && KeyIndex(groups, key) == i
  {
    assert Keys(groups)[i] == key;
  }

  /* ---- Overlapping weeks ---- */

  /** `blockGroup.map(b => b.weeks_array)`. */
  function WeekArrays(members: seq<Block>): (r: seq<seq<int>>)
    ensures |r| == |members|
    ensures forall i :: 0 <= i < |members| ==> r[i] == members[i].weeksArray
  {
    seq(|members|, i requires 0 <= i < |members| => members[i].weeksArray)
  }

  /** Every week of every member, in order, repetitions kept. */
  function AllWeeks(members: seq<Block>): seq<int> {
    Flatten(WeekArrays(members))
  }

  /** The `weekCounts` object: for each week seen, how often it occurs. */
  function CountWeeks(ws: seq<int>): (counts: map<int, nat>)
    ensures forall w :: w in counts <==> w in ws
    ensures forall w :: w in counts ==> counts[w] == multiset(ws)[w]
    decreases |ws|
  {
    if |ws| == 0 then map[]
    else
      var init := ws[..|ws| - 1];
      var w := ws[|ws| - 1];
      var counts := CountWeeks(init);
      assert ws == init + [w];
      counts[w := (if w in counts then counts[w] else 0) + 1]
  }

  /** The test `count > 1` on an entry of `counts`. */
  function Repeated(counts: map<int, nat>): int -> bool {
    w => w in counts && counts[w] > 1
  }

  /** `overlappingWeeks` after `sort((a, b) => a - b)`: the weeks counted
      more than once across the members, ascending, each once. */
  function OverlappingWeeks(members: seq<Block>): (r: seq<int>)
    ensures Ascending(r)
    ensures forall w :: w in r <==> multiset(AllWeeks(members))[w] > 1
  {
    var all := AllWeeks(members);
    var repeated := Filter(all, Repeated(CountWeeks(all)));
    RepeatedMembership(all);
    SortUniqueInts(repeated)
  }

  lemma RepeatedMembership(all: seq<int>)
    ensures forall w :: w in Filter(all, Repeated(CountWeeks(all))) <==> multiset(all)[w] > 1
  {
    forall w
      ensures w in Filter(all, Repeated(CountWeeks(all))) <==> multiset(all)[w] > 1
    {
      FilterMembership(all, Repeated(CountWeeks(all)), w);
    }
  }

  /** No week listed twice. */
  predicate NoRepeats(ws: seq<int>) {
    forall i, j :: 0 <= i < j < |ws| ==> ws[i] != ws[j]
  }

  lemma {:induction false} NoRepeatsCount(ws: seq<int>, w: int)
    requires NoRepeats(ws)
    ensures multiset(ws)[w] == if w in ws then 1 else 0
    decreases |ws|
  {
    if |ws| > 0 {
      NoRepeatsCount(ws[1..], w);
      assert ws == [ws[0]] + ws[1..];
    }
  }

  /** Two arrays that both hold `w` make it occur at least twice in the
      flattening. */
  lemma {:induction false} SharedTwice(ss: seq<seq<int>>, p: nat, q: nat, w: int)
    requires p < q < |ss| && w in ss[p] && w in ss[q]
    ensures multiset(Flatten(ss))[w] > 1
    decreases |ss|
  {
    assert Flatten(ss) == ss[0] + Flatten(ss[1..]);
    if p == 0 {
      assert w in ss[1..][q - 1];
      FlattenMembership(ss[1..], w);
    } else {
      assert ss[1..][p - 1] == ss[p] && ss[1..][q - 1] == ss[q];
      SharedTwice(ss[1..], p - 1, q - 1, w);
    }
  }

  /** When no array lists a week twice, a week occurs more than once in the
      flattening exactly when two different arrays hold it. */
  lemma {:induction false} RepeatedIffShared(ss: seq<seq<int>>, w: int)
    requires forall k :: 0 <= k < |ss| ==> NoRepeats(ss[k])
    ensures multiset(Flatten(ss))[w] > 1
        <==> exists p, q :: 0 <= p < q < |ss| && w in ss[p] && w in ss[q]
    decreases |ss|
  {
    if |ss| > 0 {
      var rest := ss[1..];
      assert Flatten(ss) == ss[0] + Flatten(rest);
      RepeatedIffShared(rest, w);
      FlattenMembership(rest, w);
      NoRepeatsCount(ss[0], w);
      if multiset(Flatten(ss))[w] > 1 {
        if w in ss[0] {
          var k :| 0 <= k < |rest| && w in rest[k];
          assert w in ss[k + 1];
        } else {
          var p, q :| 0 <= p < q < |rest| && w in rest[p] && w in rest[q];
          assert w in ss[p + 1] && w in ss[q + 1];
        }
      }
      if exists p, q :: 0 <= p < q < |ss| && w in ss[p] && w in ss[q] {
        var p, q :| 0 <= p < q < |ss| && w in ss[p] && w in ss[q];
        SharedTwice(ss, p, q, w);
      }
    }
  }

  /** For members whose week arrays list no week twice (as `ExpandWeeks`
      guarantees), a week is overlapping exactly when two different members
      meet in it. */
  lemma OverlapMeansShared(members: seq<Block>, w: int)
    requires forall k :: 0 <= k < |members| ==> NoRepeats(members[k].weeksArray)
    ensures w in OverlappingWeeks(members)
        <==> exists p, q :: 0 <= p < q < |members| && w in members[p].weeksArray && w in members[q].weeksArray
  {
    var ss := WeekArrays(members);
    RepeatedIffShared(ss, w);
  }

  /** An expanded week list never lists a week twice. */
  lemma ExpandedHasNoRepeats(spec: string)
    ensures NoRepeats(ExpandWeeks(spec))
  {
  }

  /* ---- Conflict type ---- */

  /** The kind of session a course code names. */
  datatype Kind = Lab | Exercise | Lecture

  /** The classification of one session by its lower-cased code. */
  function KindOf(code: string): Kind {
    var c := Lower(code);
    if Contains(c, "l/") || Contains(c, "lab") then Lab
    else if Contains(c, "e/") || Contains(c, "exercise") then Exercise
    else Lecture
  }

  function KindName(k: Kind): string {
    match k
    case Lab => "Lab"
    case Exercise => "Exercise"
    case Lecture => "Lecture"
  }

  /** `types`: the kind names of the members, in order. */
  function KindNames(members: seq<Block>): (r: seq<string>)
    ensures |r| == |members|
    ensures forall i :: 0 <= i < |members| ==> r[i] == KindName(KindOf(members[i].code))
  {
    seq(|members|, i requires 0 <= i < |members| => KindName(KindOf(members[i].code)))
  }

  /** `conflictType`: one kind named twice when all members share it,
      otherwise every member's kind in order. */
  function ConflictType(members: seq<Block>): string {
    var types := KindNames(members);
    var unique := Distinct(types);
    if |unique| == 1 then unique[0] + " vs " + unique[0] else Join(types, " vs ")
  }

  /** The kind does not depend on letter case. */
  lemma KindIgnoresCase(code: string)
    ensures KindOf(Lower(code)) == KindOf(code)
  {
    LowerIdempotent(code);
  }

  /** Members all of one kind are labelled with that kind twice, however
      many there are. */
  lemma ConflictTypeUniform(members: seq<Block>, k: Kind)
    requires |members| > 0
    requires forall i :: 0 <= i < |members| ==> KindOf(members[i].code) == k
    ensures ConflictType(members) == KindName(k) + " vs " + KindName(k)
  {
    var types := KindNames(members);
    DistinctSingleton(types);
    assert types[0] in Distinct(types);
  }

  /** Members of different kinds are labelled with every member's kind, in order. */
  lemma ConflictTypeMixed(members: seq<Block>, i: nat, j: nat)
    requires i < |members| && j < |members|
    requires KindOf(members[i].code) != KindOf(members[j].code)
    ensures ConflictType(members) == Join(KindNames(members), " vs ")
  {
    var types := KindNames(members);
    DistinctSingleton(types);
    assert types[i] != types[j];
  }

  /* ---- Conflicts ---- */

  /** One entry of the result of `detectConflicts`. */
  datatype Conflict = Conflict(day: string, time: string, blocks: seq<Block>,
                               conflictWeeks: seq<int>, conflictType: string)

  /** Element `i` of a destructured array, read as text; a missing element
      is JavaScript's `undefined`. */
  function Part(parts: seq<string>, i: nat): string {
    if i < |parts| then parts[i] else "undefined"
  }

  /** The conflict reported for a group: day and times read back from the
      key by `key.split('-')`. */
  function MakeConflict(g: Group): Conflict {
    var parts := Split(g.key, '-');
    Conflict(Part(parts, 0), Part(parts, 1) + " - " + Part(parts, 2), g.members,
             OverlappingWeeks(g.members), ConflictType(g.members))
  }

  /** A group is reported when it has several members and some week
      occurs in more than one of their week arrays. */
  predicate Qualifies(g: Group) {
    |g.members| > 1 && |OverlappingWeeks(g.members)| > 0
  }

  /** The groups that are reported, in key insertion order. */
  function Reported(blocks: seq<Block>): (r: seq<Group>)
    ensures IsSubsequence(r, GroupBySlot(blocks))
    ensures forall g :: g in r <==> g in GroupBySlot(blocks) && Qualifies(g)
  {
    var gs := GroupBySlot(blocks);
    QualifiesMembership(gs);
    Filter(gs, Qualifies)
  }

  lemma QualifiesMembership(gs: seq<Group>)
    ensures forall g :: g in Filter(gs, Qualifies) <==> g in gs && Qualifies(g)
  {
    forall g
      ensures g in Filter(gs, Qualifies) <==> g in gs && Qualifies(g)
    {
      FilterMembership(gs, Qualifies, g);
    }
  }

  /** `detectConflicts()`. */
  function DetectConflicts(blocks: seq<Block>): (r: seq<Conflict>)
    ensures |r| == |Reported(blocks)|
    ensures forall k :: 0 <= k < |r| ==> r[k] == MakeConflict(Reported(blocks)[k])
  {
    Map(Reported(blocks), MakeConflict)
  }

  /** No sessions, no conflicts. */
  lemma NoBlocksNoConflicts()
    ensures DetectConflicts([]) == []
  {
  }

  /** A reported group's members are all the sessions with its key, and the
      key is one of the input's slot keys. */
  lemma ReportedGroup(blocks: seq<Block>, k: nat)
    requires k < |Reported(blocks)|
    ensures Reported(blocks)[k].key in SlotKeys(blocks)
    ensures Reported(blocks)[k].members == Filter(blocks, KeyIs(Reported(blocks)[k].key))
    ensures Qualifies(Reported(blocks)[k])
  {
    var g := Reported(blocks)[k];
    assert g in Reported(blocks);
    GroupFacts(blocks, g);
  }

  /** A group of the input holds all the sessions with its key, and the key
      is one of the input's slot keys. */
  lemma GroupFacts(blocks: seq<Block>, g: Group)
    requires g in GroupBySlot(blocks)
    ensures g.key in SlotKeys(blocks)
    ensures g.members == Filter(blocks, KeyIs(g.key))
  {
    var gs := GroupBySlot(blocks);
    var i :| 0 <= i < |gs| && gs[i] == g;
    assert Keys(gs)[i] == g.key;
  }

  /** Soundness: every reported conflict gathers all the sessions of one
      slot of the input, more than one of them, and lists, ascending, the
      weeks that occur more than once across their week arrays, of which
      there is at least one. */
  lemma ConflictSound(blocks: seq<Block>, k: nat)
    requires k < |DetectConflicts(blocks)|
    ensures var c := DetectConflicts(blocks)[k];
      && |c.blocks| > 1
      && (exists key :: key in SlotKeys(blocks) && c.blocks == Filter(blocks, KeyIs(key)))
      && |c.conflictWeeks| > 0 && Ascending(c.conflictWeeks)
      && (forall w :: w in c.conflictWeeks <==> multiset(AllWeeks(c.blocks))[w] > 1)
  {
    ReportedGroup(blocks, k);
  }

  /** Every session of a conflict has the conflict's slot key. */
  lemma ConflictMembersShareSlot(blocks: seq<Block>, k: nat, b: Block)
    requires k < |DetectConflicts(blocks)|
    requires b in DetectConflicts(blocks)[k].blocks
    ensures b in blocks
    ensures SlotKey(b) == Reported(blocks)[k].key
  {
    ReportedGroup(blocks, k);
    var key := Reported(blocks)[k].key;
    FilterMembership(blocks, KeyIs(key), b);
  }

  /** Completeness: any two sessions of the input, at different positions,
      in the same slot and sharing a week end up in one reported conflict
      that lists the week. Two records that are equal field for field are
      still two sessions here, as two objects are in the source. */
  lemma ConflictComplete(blocks: seq<Block>, p: int, q: int, w: int)
    requires 0 <= p < q < |blocks|
    requires SlotKey(blocks[p]) == SlotKey(blocks[q])
    requires w in blocks[p].weeksArray && w in blocks[q].weeksArray
    ensures exists k :: 0 <= k < |DetectConflicts(blocks)|
              && blocks[p] in DetectConflicts(blocks)[k].blocks
              && blocks[q] in DetectConflicts(blocks)[k].blocks
              && w in DetectConflicts(blocks)[k].conflictWeeks
  {
    var g := GroupOf(blocks, blocks[p]);
    var i, j := FilterKeepsPair(blocks, KeyIs(g.key), p, q);
    SharedWeekQualifies(g, i, j, w);
    var k := ReportedIndex(blocks, g);
    assert g.members[i] in DetectConflicts(blocks)[k].blocks;
    assert g.members[j] in DetectConflicts(blocks)[k].blocks;
  }

  /** The group a session of the input falls into. */
  lemma GroupOf(blocks: seq<Block>, b: Block) returns (g: Group)
    requires b in blocks
    ensures g in GroupBySlot(blocks) && g.key == SlotKey(b)
    ensures g.members == Filter(blocks, KeyIs(SlotKey(b)))
  {
    var gs := GroupBySlot(blocks);
    var i :| 0 <= i < |blocks| && blocks[i] == b;
    assert SlotKeys(blocks)[i] == SlotKey(b);
    assert SlotKey(b) in Keys(gs);
    var gi :| 0 <= gi < |gs| && Keys(gs)[gi] == SlotKey(b);
    g := gs[gi];
  }

  /** Two members at different positions sharing a week make a group
      reportable, with that week among its overlapping weeks. */
  lemma SharedWeekQualifies(g: Group, i: nat, j: nat, w: int)
    requires i < j < |g.members|
    requires w in g.members[i].weeksArray && w in g.members[j].weeksArray
    ensures Qualifies(g) && w in OverlappingWeeks(g.members)
  {
    SharedTwice(WeekArrays(g.members), i, j, w);
  }

  /** A reportable group of the input is reported. */
  lemma ReportedIndex(blocks: seq<Block>, g: Group) returns (k: nat)
    requires g in GroupBySlot(blocks) && Qualifies(g)
    ensures k < |DetectConflicts(blocks)| && DetectConflicts(blocks)[k] == MakeConflict(g)
  {
    assert g in Reported(blocks);
    k :| 0 <= k < |Reported(blocks)| && Reported(blocks)[k] == g;
  }

  /** The key of a group, as a function value. */
  function KeyOf(g: Group): string {
    g.key
  }

  /** Reported groups have pairwise different keys. */
  lemma ReportedKeysDistinct(blocks: seq<Block>)
    ensures forall x, y :: 0 <= x < y < |Reported(blocks)| ==> KeyOf(Reported(blocks)[x]) != KeyOf(Reported(blocks)[y])
  {
    var gs := GroupBySlot(blocks);
    assert forall x, y :: 0 <= x < y < |gs| ==> KeyOf(gs[x]) != KeyOf(gs[y]) by {
      assert forall x, y :: 0 <= x < y < |gs| ==> Keys(gs)[x] != Keys(gs)[y];
    }
    SubsequenceInjective(Reported(blocks), gs, KeyOf);
  }

  /** No session is part of two reported conflicts. */
  lemma ConflictsDisjoint(blocks: seq<Block>, i: nat, j: nat, b: Block)
    requires i < j < |DetectConflicts(blocks)|
    requires b in DetectConflicts(blocks)[i].blocks
    ensures b !in DetectConflicts(blocks)[j].blocks
  {
    ReportedKeysDistinct(blocks);
    ConflictMembersShareSlot(blocks, i, b);
    if b in DetectConflicts(blocks)[j].blocks {
      ConflictMembersShareSlot(blocks, j, b);
    }
  }

  /** The key a session's slot is written under splits back into its day
      and times when none of them holds a `-`, so a conflict reports the
      day and the time span of its sessions. */
  lemma ConflictSlot(blocks: seq<Block>, k: nat, b: Block)
    requires k < |DetectConflicts(blocks)|
    requires b in DetectConflicts(blocks)[k].blocks
    requires '-' !in b.day && '-' !in b.startTime && '-' !in b.endTime
    ensures DetectConflicts(blocks)[k].day == b.day
    ensures DetectConflicts(blocks)[k].time == b.startTime + " - " + b.endTime
  {
    ConflictMembersShareSlot(blocks, k, b);
    SlotKeySplits(b);
  }

  lemma SlotKeySplits(b: Block)
    requires '-' !in b.day && '-' !in b.startTime && '-' !in b.endTime
    ensures Split(SlotKey(b), '-') == [b.day, b.startTime, b.endTime]
  {
    var parts := [b.day, b.startTime, b.endTime];
    assert Join(parts, "-") == SlotKey(b) by {
      assert parts[1..][1..] == [b.endTime];
      assert Join(parts[1..], "-") == b.startTime + "-" + b.endTime;
      assert Join(parts, "-") == b.day + "-" + (b.startTime + "-" + b.endTime);
    }
    SplitJoin(parts, '-');
  }

  /** Every slot key has at least three `-`-separated pieces, so the
      destructuring never reads past the end. */
  lemma SlotKeyHasThreeParts(b: Block)
    ensures |Split(SlotKey(b), '-')| >= 3
  {
    SplitCount(SlotKey(b), '-');
    assert multiset(SlotKey(b))['-'] >= 2;
  }

  /** Grouping partitions the input: a session of the input lies in the
      group of its own slot key, which exists, and in no other group. */
  lemma GroupingPartition(blocks: seq<Block>, b: Block)
    requires b in blocks
    ensures SlotKey(b) in Keys(GroupBySlot(blocks))
    ensures forall i :: 0 <= i < |GroupBySlot(blocks)| ==>
              (b in GroupBySlot(blocks)[i].members <==> GroupBySlot(blocks)[i].key == SlotKey(b))
  {
    var gs := GroupBySlot(blocks);
    var g := GroupOf(blocks, b);
    forall i | 0 <= i < |gs|
      ensures b in gs[i].members <==> gs[i].key == SlotKey(b)
    {
      FilterMembership(blocks, KeyIs(gs[i].key), b);
    }
  }

  /** Members whose week arrays are pairwise disjoint (and list no week
      twice) have no overlapping week, so their group is not reported. */
  lemma DisjointWeeksNoOverlap(members: seq<Block>)
    requires forall k :: 0 <= k < |members| ==> NoRepeats(members[k].weeksArray)
    requires forall p, q, w :: 0 <= p < q < |members| && w in members[p].weeksArray ==> w !in members[q].weeksArray
    ensures OverlappingWeeks(members) == []
  {
    var r := OverlappingWeeks(members);
    if |r| > 0 {
      OverlapMeansShared(members, r[0]);
    }
  }
}

=== FILE: courses.dfy ===
/** Course codes such as `"IE4-DSL/02"`: the cohort prefix, the base code
    and the `/group` suffix, and the two classifications the catalogue
    module defines on them, `getModuleType` and `getFullName`. */
module Courses {
  import opened Text
  import opened Numerals

  /** The pattern `lit\d+-` occupies `s[p..e]`: the literal, one or more
      digits, then a hyphen. */
  ghost predicate PatternAt(s: string, lit: string, p: int, e: int) {
    && 0 <= p && p + |lit| + 2 <= e <= |s|
    && s[p..p + |lit|] == lit
    && AllDigits(s[p + |lit|..e - 1])
    && s[e - 1] == '-'
  }

  /** `s[p..e]` is the leftmost occurrence of the pattern. */
  ghost predicate LeftmostAt(s: string, lit: string, p: int, e: int) {
    && PatternAt(s, lit, p, e)
    && forall q, k :: 0 <= q < p ==> !PatternAt(s, lit, q, k)
  }

  /** Where a match of `lit\d+-` that starts at `p` ends, if one does. */
  function MatchEnd(s: string, lit: string, p: nat): (e: Option<nat>)
    requires p <= |s|
    ensures e.Some? ==> PatternAt(s, lit, p, e.value)
    ensures e.None? ==> forall k :: !PatternAt(s, lit, p, k)
  {
    if StartsWith(s[p..], lit) then
      var t := s[p + |lit|..];
      var d := DigitPrefix(t);
      var k := p + |lit| + |d|;
      if |d| > 0 && k < |s| && s[k] == '-' then
        assert s[p + |lit|..k] == d;
        Some(k + 1)
      else
        NoHyphenAfterDigits(s, lit, p, d);
        None
    else
      None
  }

  /** When the digit run after the literal is empty or not followed by a
      hyphen, no match starts at `p`. */
  lemma NoHyphenAfterDigits(s: string, lit: string, p: nat, d: string)
    requires p + |lit| <= |s| && d == DigitPrefix(s[p + |lit|..])
    requires !(|d| > 0 && p + |lit| + |d| < |s| && s[p + |lit| + |d|] == '-')
    ensures forall k :: !PatternAt(s, lit, p, k)
  {
    var t := s[p + |lit|..];
    forall e | PatternAt(s, lit, p, e)
      ensures false
    {
      var n := e - 1 - p - |lit|;
      assert t[..n] == s[p + |lit|..e - 1];
      assert t[n] == s[e - 1];
      DigitRunBeforeHyphen(t, n);
    }
  }

  /** A run of `n` digits followed by a hyphen is the whole digit prefix. */
  lemma DigitRunBeforeHyphen(t: string, n: nat)
    requires n < |t| && AllDigits(t[..n]) && t[n] == '-'
    ensures DigitPrefix(t) == t[..n]
  {
    var d := DigitPrefix(t);
    assert t[0..n] == t[..n] && t[0..|d|] == d;
    DigitsBetween(t, 0, n);
    DigitsBetween(t, 0, |d|);
  }

  /** The first position at or after `p` where the pattern starts. */
  function FirstMatchFrom(s: string, lit: string, p: nat): (r: Option<nat>)
    requires p <= |s|
    ensures r.Some? ==> p <= r.value <= |s| && MatchEnd(s, lit, r.value).Some?
    ensures r.Some? ==> forall q :: p <= q < r.value ==> MatchEnd(s, lit, q).None?
    ensures r.None? ==> forall q :: p <= q <= |s| ==> MatchEnd(s, lit, q).None?
    decreases |s| - p
  {
    if MatchEnd(s, lit, p).Some? then Some(p)
    else if p == |s| then None
    else FirstMatchFrom(s, lit, p + 1)
  }

  /** `s.replace(/<lit>\d+-/, '')`: the leftmost match of the pattern is
      cut out; a string without a match is returned unchanged. */
  function RemoveFirstMatch(s: string, lit: string): (r: string)
    ensures (forall p, e :: !PatternAt(s, lit, p, e)) ==> r == s
    ensures forall p, e :: LeftmostAt(s, lit, p, e) ==> r == s[..p] + s[e..]
    ensures forall c :: c in r ==> c in s
  {
    match FirstMatchFrom(s, lit, 0)
    case None =>
      NoMatchAnywhere(s, lit);
      s
    case Some(p) =>
      var e := MatchEnd(s, lit, p).value;
      FirstIsLeftmost(s, lit, p, e);
      CutInside(s, p, e);
      s[..p] + s[e..]
  }

  /** No start position with a match means no match at all. */
  lemma NoMatchAnywhere(s: string, lit: string)
    requires forall q :: 0 <= q <= |s| ==> MatchEnd(s, lit, q).None?
    ensures forall p, e :: !PatternAt(s, lit, p, e)
  {
    forall p, e
      ensures !PatternAt(s, lit, p, e)
    {
      if 0 <= p <= |s| {
        assert MatchEnd(s, lit, p).None?;
      }
    }
  }

  /** The first start position with a match holds the one leftmost match. */
  lemma FirstIsLeftmost(s: string, lit: string, p: nat, e: int)
    requires p <= |s| && PatternAt(s, lit, p, e)
    requires forall q :: 0 <= q < p ==> MatchEnd(s, lit, q).None?
    ensures forall q, k :: LeftmostAt(s, lit, q, k) ==> q == p && k == e
  {
    forall q, k
      ensures LeftmostAt(s, lit, q, k) ==> q == p && k == e
    {
      if 0 <= q < p {
        assert MatchEnd(s, lit, q).None?;
      }
      if q == p && PatternAt(s, lit, q, k) {
        MatchEndUnique(s, lit, q, k, e);
      }
    }
  }

  /** Cutting a slice out of a string keeps only characters of the string. */
  lemma CutInside(s: string, p: int, e: int)
    requires 0 <= p <= e <= |s|
    ensures forall c :: c in s[..p] + s[e..] ==> c in s
  {
    var r := s[..p] + s[e..];
    forall c | c in r
      ensures c in s
    {
      var i :| 0 <= i < |r| && r[i] == c;
      if i < p {
        assert s[i] == c;
      } else {
        assert s[e + i - p] == c;
      }
    }
  }

  /** A match that starts at `p` has only one possible end: the hyphen
      ending one match cannot sit among the digits of another. */
  lemma MatchEndUnique(s: string, lit: string, p: int, e1: int, e2: int)
    requires PatternAt(s, lit, p, e1) && PatternAt(s, lit, p, e2)
    ensures e1 == e2
  {
    DigitsBetween(s, p + |lit|, e1 - 1);
    DigitsBetween(s, p + |lit|, e2 - 1);
  }

  lemma DigitsBetween(s: string, i: int, j: int)
    requires 0 <= i <= j <= |s| && AllDigits(s[i..j])
    ensures forall k :: i <= k < j ==> IsDigit(s[k])
  {
    forall k | i <= k < j
      ensures IsDigit(s[k])
    {
      assert s[i..j][k - i] == s[k];
    }
  }

  /** The base code: the part before the first `/`, with the first
      `IE<n>-` and then the first `E<n>-` removed. */
  function BaseCode(code: string): (r: string)
    ensures '/' !in r
  {
    RemoveFirstMatch(RemoveFirstMatch(Before(code, '/'), "IE"), "E")
  }

  /** The `/group` suffix of a code never affects its base code. */
  lemma BaseCodeIgnoresGroup(prefix: string, suffix: string)
    requires '/' !in prefix
    ensures BaseCode(prefix + "/" + suffix) == BaseCode(prefix)
  {
    SplitCons(prefix, suffix, '/');
    SplitNoSep(prefix, '/');
  }

  /** The classification rules of `getModuleType`, in the order they are
      tried: a base code containing any fragment of a rule gets its type. */
  const TypeRules: seq<(seq<string>, string)> := [
    (["DB", "DS"], "database"),
    (["DI", "DC"], "digital"),
    (["MC"], "microcontroller"),
    (["SS", "DP"], "signals"),
    (["EL", "EE"], "electronics"),
    (["SE", "SO", "OS"], "software"),
    (["MA"], "math"),
    (["EM", "IC"], "economics"),
    (["AD"], "software"),
    (["BU"], "electronics"),
    (["GE", "LS", "SP", "PRO", "WP"], "intercultural")
  ]

  /** `base` contains one of `fragments`. */
  predicate ContainsAny(base: string, fragments: seq<string>)
    decreases |fragments|
  {
    |fragments| > 0 && (Contains(base, fragments[0]) || ContainsAny(base, fragments[1..]))
  }

  /** First-match classification over a rule table, `"default"` when no
      rule applies. */
  function Classify(rules: seq<(seq<string>, string)>, base: string): (r: string)
    ensures (forall i :: 0 <= i < |rules| ==> !ContainsAny(base, rules[i].0)) ==> r == "default"
    ensures forall i ::
              (0 <= i < |rules| && ContainsAny(base, rules[i].0) && forall j :: 0 <= j < i ==> !ContainsAny(base, rules[j].0))
              ==> r == rules[i].1
    decreases |rules|
  {
    if |rules| == 0 then "default"
    else if ContainsAny(base, rules[0].0) then rules[0].1
    else
      var r := Classify(rules[1..], base);
      assert forall i :: 1 <= i < |rules| ==> rules[i] == rules[1..][i - 1];
      r
  }

  /** `getModuleType(code)`: ordered substring tests on the base code. */
  function ModuleType(code: string): string {
    TypeOfBase(BaseCode(code))
  }

  /** The chain of substring tests `getModuleType` applies to a base code. */
  function TypeOfBase(b: string): string {
    if Contains(b, "DB") || Contains(b, "DS") then "database"
    else if Contains(b, "DI") || Contains(b, "DC") then "digital"
    else if Contains(b, "MC") then "microcontroller"
    else if Contains(b, "SS") || Contains(b, "DP") then "signals"
    else if Contains(b, "EL") || Contains(b, "EE") then "electronics"
    else if Contains(b, "SE") || Contains(b, "SO") || Contains(b, "OS") then "software"
    else if Contains(b, "MA") then "math"
    else if Contains(b, "EM") || Contains(b, "IC") then "economics"
    else if Contains(b, "AD") then "software"
    else if Contains(b, "BU") then "electronics"
    else if Contains(b, "GE") || Contains(b, "LS") || Contains(b, "SP") || Contains(b, "PRO") || Contains(b, "WP") then "intercultural"
    else "default"
  }

  /** The chain of tests is first-match classification by `TypeRules`. */
  lemma TypeOfBaseByRules(b: string)
    ensures TypeOfBase(b) == Classify(TypeRules, b)
  {
    LeadingRules(b);
    TrailingRules(b);
  }

  /** The first five rules of `TypeRules`, unrolled. */
  lemma LeadingRules(b: string)
    ensures Classify(TypeRules, b)
         == if Contains(b, "DB") || Contains(b, "DS") then "database"
            else if Contains(b, "DI") || Contains(b, "DC") then "digital"
            else if Contains(b, "MC") then "microcontroller"
            else if Contains(b, "SS") || Contains(b, "DP") then "signals"
            else if Contains(b, "EL") || Contains(b, "EE") then "electronics"
            else Classify(TypeRules[5..], b)
  {
    var t := TypeRules;
    assert ContainsAny(b, t[0].0) <==> Contains(b, "DB") || Contains(b, "DS");
    assert ContainsAny(b, t[1].0) <==> Contains(b, "DI") || Contains(b, "DC");
    assert ContainsAny(b, t[2].0) <==> Contains(b, "MC");
    assert ContainsAny(b, t[3].0) <==> Contains(b, "SS") || Contains(b, "DP");
    assert ContainsAny(b, t[4].0) <==> Contains(b, "EL") || Contains(b, "EE");
    ClassifyStep(t, b);
    ClassifyStep(t[1..], b);
    ClassifyStep(t[2..], b);
    ClassifyStep(t[3..], b);
    ClassifyStep(t[4..], b);
    assert t[4..][1..] == t[5..];
  }

  /** The last six rules of `TypeRules`, unrolled. */
  lemma TrailingRules(b: string)
    ensures Classify(TypeRules[5..], b)
         == if Contains(b, "SE") || Contains(b, "SO") || Contains(b, "OS") then "software"
            else if Contains(b, "MA") then "math"
            else if Contains(b, "EM") || Contains(b, "IC") then "economics"
            else if Contains(b, "AD") then "software"
            else if Contains(b, "BU") then "electronics"
            else if Contains(b, "GE") || Contains(b, "LS") || Contains(b, "SP") || Contains(b, "PRO") || Contains(b, "WP") then "intercultural"
            else "default"
  {
    var t := TypeRules[5..];
    assert ContainsAny(b, t[0].0) <==> Contains(b, "SE") || Contains(b, "SO") || Contains(b, "OS");
    assert ContainsAny(b, t[1].0) <==> Contains(b, "MA");
    assert ContainsAny(b, t[2].0) <==> Contains(b, "EM") || Contains(b, "IC");
    assert ContainsAny(b, t[3].0) <==> Contains(b, "AD");
    assert ContainsAny(b, t[4].0) <==> Contains(b, "BU");
    assert ContainsAny(b, t[5].0) <==> Contains(b, "GE") || Contains(b, "LS") || Contains(b, "SP") || Contains(b, "PRO") || Contains(b, "WP");
    ClassifyStep(t, b);
    ClassifyStep(t[1..], b);
    ClassifyStep(t[2..], b);
    ClassifyStep(t[3..], b);
    ClassifyStep(t[4..], b);
    ClassifyStep(t[5..], b);
  }

  /** One step of `Classify`: the head rule decides, or the rest do. */
  lemma ClassifyStep(rules: seq<(seq<string>, string)>, base: string)
    requires |rules| > 0
    ensures Classify(rules, base) == if ContainsAny(base, rules[0].0) then rules[0].1 else Classify(rules[1..], base)
  {
  }

  /** No rule of `getModuleType` yields `"default"`. */
  lemma TypeRulesNeverDefault()
    ensures forall i :: 0 <= i < |TypeRules| ==> TypeRules[i].1 != "default"
  {
  }

  /** `getModuleType` returns `"default"` exactly when the base code holds
      none of the listed fragments. */
  lemma ModuleTypeDefault(code: string)
    ensures ModuleType(code) == "default"
            <==> forall i :: 0 <= i < |TypeRules| ==> !ContainsAny(BaseCode(code), TypeRules[i].0)
  {
    TypeOfBaseByRules(BaseCode(code));
    TypeRulesNeverDefault();
    ClassifyDefault(TypeRules, BaseCode(code));
  }

  /** With no rule yielding `"default"`, `Classify` yields it exactly when no
      rule applies. */
  lemma {:induction false} ClassifyDefault(rules: seq<(seq<string>, string)>, base: string)
    requires forall i :: 0 <= i < |rules| ==> rules[i].1 != "default"
    ensures Classify(rules, base) == "default" <==> forall i :: 0 <= i < |rules| ==> !ContainsAny(base, rules[i].0)
    decreases |rules|
  {
    if |rules| > 0 {
      assert forall i :: 1 <= i < |rules| ==> rules[i] == rules[1..][i - 1];
      ClassifyDefault(rules[1..], base);
    }
  }

  /** The first rule whose fragment occurs decides the type; later rules
      are never consulted. */
  lemma ModuleTypeFirstMatch(code: string, i: nat)
    requires i < |TypeRules| && ContainsAny(BaseCode(code), TypeRules[i].0)
    requires forall j :: 0 <= j < i ==> !ContainsAny(BaseCode(code), TypeRules[j].0)
    ensures ModuleType(code) == TypeRules[i].1
  {
    TypeOfBaseByRules(BaseCode(code));
  }

  /** A base code containing `DS` is a database course, even though the
      `digital` rule would also have matched it. */
  lemma DigitalSystemsIsDatabase(code: string)
    requires Contains(BaseCode(code), "DS")
    ensures ModuleType(code) == "database"
  {
    ModuleTypeFirstMatch(code, 0);
  }

  /** The type of a code does not depend on its `/group` suffix. */
  lemma ModuleTypeIgnoresGroup(prefix: string, suffix: string)
    requires '/' !in prefix
    ensures ModuleType(prefix + "/" + suffix) == ModuleType(prefix)
  {
    BaseCodeIgnoresGroup(prefix, suffix);
  }

  /** A string without the literal's first character holds no match. */
  lemma NoMatchWithoutHead(s: string, lit: string)
    requires |lit| > 0 && lit[0] !in s
    ensures forall p, e :: !PatternAt(s, lit, p, e)
  {
    forall p, e
      ensures !PatternAt(s, lit, p, e)
    {
      if 0 <= p && p + |lit| <= |s| {
        assert s[p..p + |lit|][0] == s[p];
      }
    }
  }

  /** A string without digits holds no match. */
  lemma NoMatchWithoutDigits(s: string, lit: string)
    requires forall i :: 0 <= i < |s| ==> !IsDigit(s[i])
    ensures forall p, e :: !PatternAt(s, lit, p, e)
  {
    forall p, e
      ensures !PatternAt(s, lit, p, e)
    {
      if 0 <= p && p + |lit| < e - 1 <= |s| {
        assert s[p + |lit|..e - 1][0] == s[p + |lit|];
      }
    }
  }

  /** A pattern match at the very start is the leftmost one and is cut off. */
  lemma RemoveLeadingMatch(lit: string, n: nat, rest: string)
    ensures RemoveFirstMatch(lit + NatToString(n) + "-" + rest, lit) == rest
  {
    var d := NatToString(n);
    var s := lit + d + "-" + rest;
    var e := |lit| + |d| + 1;
    assert s[..|lit|] == lit && s[|lit|..e - 1] == d && s[e - 1] == '-';
    assert PatternAt(s, lit, 0, e);
    assert LeftmostAt(s, lit, 0, e);
    assert s[e..] == rest;
  }

  /** The base code of `IE<n>-<rest>` is `rest` when `rest` holds neither a
      digit nor a `/`. */
  lemma CohortBase(n: nat, rest: string)
    requires '/' !in rest
    requires forall i :: 0 <= i < |rest| ==> !IsDigit(rest[i])
    ensures BaseCode("IE" + NatToString(n) + "-" + rest) == rest
  {
    var s := "IE" + NatToString(n) + "-" + rest;
    assert '/' !in s by {
      assert forall c :: c in NatToString(n) ==> IsDigit(c);
    }
    assert Before(s, '/') == s by {
      SplitNoSep(s, '/');
    }
    assert RemoveFirstMatch(s, "IE") == rest by {
      RemoveLeadingMatch("IE", n, rest);
    }
    NoMatchWithoutDigits(rest, "E");
  }

  /** `getModuleType('IE4-DS')` is `'database'`; the catalogue entry for this
      course records `'digital'`. */
  lemma DigitalSystemsExample()
    ensures ModuleType("IE4-DS") == "database"
  {
    var code := "IE4-DS";
    assert NatToString(4) == "4";
    assert code == "IE" + NatToString(4) + "-" + "DS";
    assert BaseCode(code) == "DS" by {
      CohortBase(4, "DS");
    }
    assert Contains("DS", "DS") by {
      assert StartsWith("DS", "DS");
    }
    DigitalSystemsIsDatabase(code);
  }

  /** `getModuleType('IE4-SEL/01')` is `'electronics'` (its base code holds
      `EL`); the catalogue entry records `'software'`. */
  lemma SoftwareLabExample()
    ensures ModuleType("IE4-SEL/01") == "electronics"
  {
    var code := "IE4-SEL/01";
    assert NatToString(4) == "4";
    assert code == "IE" + NatToString(4) + "-" + "SEL" + "/" + "01";
    GroupedCohortType(4, "SEL", "01", code);
    SelIsElectronics();
  }

  /** The type of `IE<n>-<rest>/<group>` is the type of `rest` when `rest`
      holds neither a digit nor a `/`. */
  lemma GroupedCohortType(n: nat, rest: string, group: string, code: string)
    requires '/' !in rest
    requires forall i :: 0 <= i < |rest| ==> !IsDigit(rest[i])
    requires code == "IE" + NatToString(n) + "-" + rest + "/" + group
    ensures ModuleType(code) == TypeOfBase(rest)
  {
    var prefix := "IE" + NatToString(n) + "-" + rest;
    assert '/' !in prefix by {
      assert forall c :: c in NatToString(n) ==> IsDigit(c);
    }
    assert code == prefix + "/" + group;
    ModuleTypeIgnoresGroup(prefix, group);
    CohortBase(n, rest);
  }

  /** The base code `SEL` fails the first four tests and passes the
      `EL` test. */
  lemma SelIsElectronics()
    ensures TypeOfBase("SEL") == "electronics"
  {
    var b := "SEL";
    NotContainsByPair(b, "DB");
    NotContainsByPair(b, "DS");
    NotContainsByPair(b, "DI");
    NotContainsByPair(b, "DC");
    NotContainsByPair(b, "MC");
    NotContainsByPair(b, "SS");
    NotContainsByPair(b, "DP");
    assert Contains(b, "EL") by {
      assert StartsWith(b[1..], "EL");
    }
  }

  /** The `moduleNames` table: base code to course name. */
  const ModuleNames: map<string, string> := map[
    "DB" := "Databases",
    "DBL" := "Databases Lab",
    "MC" := "Microcontrollers",
    "MCL" := "Microcontrollers Lab",
    "SE" := "Software Engineering",
    "SEL" := "Software Engineering Lab",
    "DS" := "Digital Systems",
    "DSL" := "Digital Systems Lab",
    "SS2" := "Signals and Systems 2",
    "SSL2" := "Signals and Systems 2 Lab",
    "AD" := "Algorithms and Data Structures",
    "ADL" := "Algorithms and Data Structures Lab",
    "EME" := "Economics and Management Exercises",
    "DI" := "Digital Circuits",
    "EL2" := "Electronics 2",
    "ELL2" := "Electronics 2 Lab",
    "SS1" := "Signals and Systems 1",
    "SSL1" := "Signals and Systems 1 Lab",
    "EM" := "Economics and Management",
    "DIL" := "Digital Circuits Lab",
    "EL1" := "Electronics 1",
    "ELL1" := "Electronics 1 Lab",
    "EE2" := "Electrical Engineering 2",
    "EEL2" := "Electrical Engineering 2 Lab",
    "SO2" := "Software Construction 2",
    "SOL2" := "Software Construction 2 Lab",
    "MA2" := "Mathematics 2",
    "MAE2" := "Mathematics 2 Exercises",
    "IC" := "Intercultural Competence",
    "LSL" := "Learning and Study Methods",
    "LP" := "Lab Practice",
    "GE" := "German",
    "EE1" := "Electrical Engineering 1",
    "EEL1" := "Electrical Engineering 1 Lab",
    "LSE" := "Learning and Study Methods Exercises",
    "MA1" := "Mathematics 1",
    "MAE1" := "Mathematics 1 Exercises",
    "SO1" := "Software Construction 1",
    "SOL1" := "Software Construction 1 Lab",
    "SP" := "Scientific and Project Work",
    "OS" := "Operating Systems",
    "OSL" := "Operating Systems Lab",
    "BU" := "Bus Systems and Sensors",
    "BUL" := "Bus Systems and Sensors Lab",
    "DP" := "Digital Signal Processing",
    "DPL" := "Digital Signal Processing Lab",
    "DC" := "Digital Communication Systems",
    "DCL" := "Digital Communication Systems Lab",
    "WP-Rust" := "Elective: Architectures of Digital Signal Processing",
    "WP-Titova" := "Elective: Solar Energy",
    "WP-Winzenick" := "Elective: Electrical Energy Systems",
    "WP-Schulz" := "Elective: Embedded Systems Verification and Test",
    "WP-Neumann" := "Elective: Introduction to Cryptography",
    "WP-Noack" := "Elective: LED Technology",
    "WP-Buczek" := "Elective: BCZ",
    "WP-Radt" := "Elective: Peer Leaders",
    "PRO" := "Project"
  ]

  /** The keyword tests `getFullName` applies to `E7-` codes, in order: the
      first keyword the whole code contains gives the name. */
  const ElectiveNames: seq<(string, string)> := [
    ("WP-Rust", "Elective: Architectures of Digital Signal Processing"),
    ("Architekturen", "Architectures of Digital Signal Processing Lab"),
    ("WP-Titova", "Elective: Solar Energy"),
    ("Solar Energy", "Solar Energy Lab"),
    ("Automatic Code", "Automatic Code Generation using MATLAB/Simulink"),
    ("PRO-Meiners", "Project: Meiners"),
    ("PRO-Trivedi", "Project: Trivedi"),
    ("WP-Winzenick", "Elective: Electrical Energy Systems"),
    ("Elektroenergie", "Electrical Energy Systems Lab"),
    ("WP-Schulz", "Elective: Embedded Systems Verification"),
    ("Embedded Systems", "Embedded Systems Verification and Test Lab"),
    ("Partysimulation", "Development of a Party Simulation"),
    ("PRO-Conjeti", "Project: Conjeti"),
    ("Hydroponik", "Hydroponics"),
    ("WP-Neumann", "Elective: Introduction to Cryptography"),
    ("Introduction to Cryptography", "Introduction to Cryptography Lab"),
    ("WP-Noack", "Elective: LED Technology"),
    ("LED Technik", "LED Technology Lab"),
    ("WP-Buczek", "Elective: Advanced Topics"),
    ("WPP-BCZ", "Advanced Topics Lab"),
    ("One World", "One World Engineering"),
    ("WP-Radt", "Elective: Peer Leaders"),
    ("Peer Leaders", "Peer Leaders Lab"),
    ("Raspberry Pi", "Raspberry Pi")
  ]

  /** The name the first keyword contained in `code` gives, if any. */
  function KeywordName(code: string, table: seq<(string, string)>): (r: Option<string>)
    ensures r.None? <==> forall i :: 0 <= i < |table| ==> !Contains(code, table[i].0)
    ensures forall i ::
              (0 <= i < |table| && Contains(code, table[i].0) && forall j :: 0 <= j < i ==> !Contains(code, table[j].0))
              ==> r == Some(table[i].1)
    decreases |table|
  {
    if |table| == 0 then None
    else if Contains(code, table[0].0) then Some(table[0].1)
    else
      var r := KeywordName(code, table[1..]);
      assert forall i :: 1 <= i < |table| ==> table[i] == table[1..][i - 1];
      r
  }

  /** `getFullName(code)`. A code starting with `E7-` is named by the first
      keyword it contains, or is its own name. Any other code is looked up
      by its base code in `moduleNames`; JavaScript's `||` falls back to the
      base code when the entry is missing or empty. */
  function FullName(code: string): string {
    if StartsWith(code, "E7-") then
      match KeywordName(code, ElectiveNames)
      case Some(name) => name
      case None => code
    else
      NamedBase(BaseCode(code))
  }

  /** Outside the `E7-` cohort the name is the table entry of the base code
      when there is a non-empty one, and the base code itself when the base
      code has no entry. */
  lemma FullNameLookup(code: string)
    requires !StartsWith(code, "E7-")
    ensures BaseCode(code) in ModuleNames && ModuleNames[BaseCode(code)] != ""
            ==> FullName(code) == ModuleNames[BaseCode(code)]
    ensures BaseCode(code) !in ModuleNames ==> FullName(code) == BaseCode(code)
  {
  }

  /** An `E7-` code containing none of the keywords is its own name. */
  lemma ElectiveFallback(code: string)
    requires StartsWith(code, "E7-")
    requires forall i :: 0 <= i < |ElectiveNames| ==> !Contains(code, ElectiveNames[i].0)
    ensures FullName(code) == code
  {
  }

  /** Outside the `E7-` cohort the `/group` suffix does not affect the name. */
  lemma FullNameIgnoresGroup(prefix: string, suffix: string)
    requires '/' !in prefix && !StartsWith(prefix, "E7-")
    ensures FullName(prefix + "/" + suffix) == FullName(prefix)
  {
    var code := prefix + "/" + suffix;
    BaseCodeIgnoresGroup(prefix, suffix);
    GroupKeepsCohort(prefix, suffix);
    assert FullName(code) == NamedBase(BaseCode(code));
    assert FullName(prefix) == NamedBase(BaseCode(prefix));
  }

  /** The name a base code gets from the `moduleNames` table. */
  function NamedBase(b: string): string {
    if b in ModuleNames && ModuleNames[b] != "" then ModuleNames[b] else b
  }

  /** Appending `/group` to a code outside the `E7-` cohort keeps it outside. */
  lemma GroupKeepsCohort(prefix: string, suffix: string)
    requires '/' !in prefix && !StartsWith(prefix, "E7-")
    ensures !StartsWith(prefix + "/" + suffix, "E7-")
  {
    var code := prefix + "/" + suffix;
    if |prefix| < 3 {
      assert code[|prefix|] == '/';
    } else {
      assert code[..3] == prefix[..3];
    }
  }

  /** `getFullName('E5-WP-Rust')`: the `E5-` cohort prefix is removed and
      the rest is looked up in `moduleNames`. */
  lemma ElectiveLookupExample()
    ensures FullName("E5-WP-Rust") == "Elective: Architectures of Digital Signal Processing"
  {
    RustBase();
    OutsideElectiveCohort("E5-WP-Rust");
    RustEntry();
  }

  lemma RustBase()
    ensures !StartsWith("E5-WP-Rust", "E7-") && BaseCode("E5-WP-Rust") == "WP-Rust"
  {
    var code := "E5-WP-Rust";
    assert code[1] != '7';
    assert code == "E" + NatToString(5) + "-" + "WP-Rust";
    ElectiveCohortBase(5, "WP-Rust");
  }

  lemma RustEntry()
    ensures NamedBase("WP-Rust") == "Elective: Architectures of Digital Signal Processing"
  {
  }

  /** Outside the `E7-` cohort the name depends on the base code alone. */
  lemma OutsideElectiveCohort(code: string)
    requires !StartsWith(code, "E7-")
    ensures FullName(code) == NamedBase(BaseCode(code))
  {
  }

  /** The base code of `E<n>-<rest>` is `rest` when `rest` holds neither
      `I` nor `/`. */
  lemma ElectiveCohortBase(n: nat, rest: string)
    requires '/' !in rest && 'I' !in rest
    ensures BaseCode("E" + NatToString(n) + "-" + rest) == rest
  {
    var s := "E" + NatToString(n) + "-" + rest;
    assert '/' !in s && 'I' !in s by {
      assert forall c :: c in NatToString(n) ==> IsDigit(c);
    }
    assert Before(s, '/') == s by {
      SplitNoSep(s, '/');
    }
    assert RemoveFirstMatch(s, "IE") == s by {
      NoMatchWithoutHead(s, "IE");
    }
    RemoveLeadingMatch("E", n, rest);
  }

  /** The catalogue code `E7-WP13-Winzenick` lacks the keyword
      `WP-Winzenick`: the catalogue's `E7-` codes carry a course number
      between `WP` and the name, so the keyword tests meant for them fail. */
  lemma WinzenickKeywordMisses()
    ensures !Contains("E7-WP13-Winzenick", "WP-Winzenick")
  {
    var code := "E7-WP13-Winzenick";
    var t := "WP-Winzenick";
    forall i | 0 <= i && i + 3 <= |code|
      ensures !(code[i] == t[0] && code[i + 1] == t[1] && code[i + 2] == t[2])
    {
    }
    NotContainsByPrefix(code, t);
  }
}

=== FILE: filters.dfy ===
/** The filter panel's own logic (`ScheduleFilters`): the course-selection
    toggle, the fixed list of semester weeks offered in the week menu, and
    the name of the exported calendar file. */
module Filters {
  import opened Seqs
  import opened Text

  /** The test `c !== courseCode` of the toggle's filter. */
  function Other(code: string): string -> bool {
    c => c != code
  }

  /** No value occurs twice. */
  predicate NoDuplicates(s: seq<string>) {
    forall i, j :: 0 <= i < j < |s| ==> s[i] != s[j]
  }

  /** `toggleCourse(courseCode)`: a selected code is removed, every copy of
      it; any other code is appended at the end. */
  function ToggleCourse(selected: seq<string>, code: string): (r: seq<string>)
    ensures code in r <==> code !in selected
    ensures forall c :: c != code ==> multiset(r)[c] == multiset(selected)[c]
    ensures code in selected ==> IsSubsequence(r, selected)
  {
    if code in selected then
      FilterMembership(selected, Other(code), code);
      Filter(selected, Other(code))
    else
      assert multiset(selected + [code]) == multiset(selected) + multiset{code};
      selected + [code]
  }

  /** Toggling an absent code appends it and leaves the rest as it was. */
  lemma ToggleAbsent(selected: seq<string>, code: string)
    requires code !in selected
    ensures |ToggleCourse(selected, code)| == |selected| + 1
    ensures ToggleCourse(selected, code)[..|selected|] == selected
    ensures ToggleCourse(selected, code)[|selected|] == code
  {
  }

  /** Toggling a present code keeps every other code, in order and as often
      as it occurred. */
  lemma TogglePresent(selected: seq<string>, code: string)
    requires code in selected
    ensures ToggleCourse(selected, code) == Filter(selected, Other(code))
    ensures |ToggleCourse(selected, code)| == |selected| - multiset(selected)[code]
  {
    FilterSize(selected, code);
  }

  /** Removing every copy of `code` shortens a list by their number. */
  lemma {:induction false} FilterSize(s: seq<string>, code: string)
    ensures |Filter(s, Other(code))| == |s| - multiset(s)[code]
    decreases |s|
  {
    if |s| > 0 {
      FilterSize(s[1..], code);
      assert s == [s[0]] + s[1..];
    }
  }

  /** A toggle flips whether the toggled code is selected and changes no
      other code's membership. */
  lemma ToggleFlips(selected: seq<string>, code: string, c: string)
    ensures c in ToggleCourse(selected, code) <==> if c == code then c !in selected else c in selected
  {
    var r := ToggleCourse(selected, code);
    if c != code {
      assert multiset(r)[c] == multiset(selected)[c];
      assert c in r <==> multiset(r)[c] > 0;
      assert c in selected <==> multiset(selected)[c] > 0;
    }
  }

  /** Toggling an absent code twice gives the original list back. */
  lemma ToggleTwiceAbsent(selected: seq<string>, code: string)
    requires code !in selected
    ensures ToggleCourse(ToggleCourse(selected, code), code) == selected
  {
    var once := selected + [code];
    assert code in once;
    FilterAppend(selected, [code], Other(code));
    FilterAll(selected, Other(code));
    assert Filter([code], Other(code)) == [];
  }

  /** Toggling a present code twice moves it to the end: the list is not
      restored when the code was not last, or occurred twice. */
  lemma ToggleTwicePresent(selected: seq<string>, code: string)
    requires code in selected
    ensures ToggleCourse(ToggleCourse(selected, code), code) == Filter(selected, Other(code)) + [code]
  {
  }

  /** A toggle keeps a duplicate-free selection duplicate-free. */
  lemma ToggleKeepsDistinct(selected: seq<string>, code: string)
    requires NoDuplicates(selected)
    ensures NoDuplicates(ToggleCourse(selected, code))
  {
    if code in selected {
      SubsequenceInjective(ToggleCourse(selected, code), selected, (c: string) => c);
    } else {
      var r := selected + [code];
      forall i, j | 0 <= i < j < |r|
        ensures r[i] != r[j]
      {
        if j == |selected| {
          assert r[i] == selected[i];
        }
      }
    }
  }

  /** The selection after the user has toggled `clicks` in turn, starting
      from the empty selection. */
  function Toggles(clicks: seq<string>): seq<string>
    decreases |clicks|
  {
    if |clicks| == 0 then []
    else ToggleCourse(Toggles(clicks[..|clicks| - 1]), clicks[|clicks| - 1])
  }

  /** Starting from nothing, the selection never holds a code twice. */
  lemma {:induction false} TogglesDistinct(clicks: seq<string>)
    ensures NoDuplicates(Toggles(clicks))
    decreases |clicks|
  {
    if |clicks| > 0 {
      TogglesDistinct(clicks[..|clicks| - 1]);
      ToggleKeepsDistinct(Toggles(clicks[..|clicks| - 1]), clicks[|clicks| - 1]);
    }
  }

  /** Starting from nothing, a code is selected exactly when it was toggled
      an odd number of times. */
  lemma {:induction false} TogglesParity(clicks: seq<string>)
    ensures forall c :: c in Toggles(clicks) <==> multiset(clicks)[c] % 2 == 1
    decreases |clicks|
  {
    if |clicks| > 0 {
      var init, last := clicks[..|clicks| - 1], clicks[|clicks| - 1];
      TogglesParity(init);
      assert clicks == init + [last];
      forall c
        ensures c in Toggles(init + [last]) <==> multiset(init + [last])[c] % 2 == 1
      {
        ParityAt(init, last, c);
      }
    }
  }

  /** The parity rule for one code, carried over one more click. */
  lemma ParityAt(init: seq<string>, last: string, c: string)
    requires c in Toggles(init) <==> multiset(init)[c] % 2 == 1
    ensures c in Toggles(init + [last]) <==> multiset(init + [last])[c] % 2 == 1
  {
    assert (init + [last])[..|init|] == init;
    ToggleFlips(Toggles(init), last, c);
    ParityStep(init, last, c);
  }

  /** One more click on `last` changes the count of `last` alone, by one. */
  lemma ParityStep(init: seq<string>, last: string, c: string)
    ensures multiset(init + [last])[c] % 2 == 1
        <==> if c == last then multiset(init)[c] % 2 == 0 else multiset(init)[c] % 2 == 1
  {
    assert multiset(init + [last]) == multiset(init) + multiset{last};
  }

  /** `semesterWeeks`: weeks 41 to 52, then weeks 1 to 4. */
  const SemesterWeeks: seq<int> := seq(12, i => i + 41) + seq(4, i => i + 1)

  /** Sixteen weeks in menu order: 41 to 52 first, then 1 to 4, none twice. */
  lemma SemesterWeeksShape()
    ensures |SemesterWeeks| == 16
    ensures forall i :: 0 <= i < 12 ==> SemesterWeeks[i] == 41 + i
    ensures forall i :: 12 <= i < 16 ==> SemesterWeeks[i] == i - 11
    ensures forall i, j :: 0 <= i < j < 16 ==> SemesterWeeks[i] != SemesterWeeks[j]
    ensures forall w :: w in SemesterWeeks <==> 41 <= w <= 52 || 1 <= w <= 4
  {
    var s := SemesterWeeks;
    forall w | 41 <= w <= 52 || 1 <= w <= 4
      ensures w in s
    {
      if w >= 41 {
        assert s[w - 41] == w;
      } else {
        assert s[w + 11] == w;
      }
    }
  }

  /** The file name of the calendar export: the semester is named unless
      all semesters are shown. */
  function ExportFilename(semester: string): (r: string)
    ensures StartsWith(r, "HAW_Schedule") && EndsWith(r, ".ics")
  {
    if semester != "ALL" then "HAW_Schedule_" + semester + ".ics" else "HAW_Schedule.ics"
  }

  /** The plain name `HAW_Schedule.ics` is used exactly for "ALL"; any
      other semester can be read back from between `HAW_Schedule_` and
      `.ics`, so different semesters get different files. */
  lemma ExportFilenameSemester(semester: string)
    ensures ExportFilename(semester) == "HAW_Schedule.ics" <==> semester == "ALL"
    ensures semester != "ALL" ==> ExportFilename(semester)[13..|ExportFilename(semester)| - 4] == semester
  {
    var r := ExportFilename(semester);
    if semester != "ALL" {
      assert |r| == 17 + |semester|;
      assert r[13..|r| - 4] == semester;
    }
  }

  /** Different semesters export to different file names. */
  lemma ExportFilenameInjective(a: string, b: string)
    requires ExportFilename(a) == ExportFilename(b)
    ensures a == b
  {
    ExportFilenameSemester(a);
    ExportFilenameSemester(b);
  }
}

=== FILE: grid.dfy ===
/** The weekly grid (`ScheduleGrid`): the fixed table of time slots and
    week days, the cell a session starts in and how many slots it spans,
    and which sessions cover a given cell. */
module Grid {
  import opened Blocks
  import opened Seqs
  import opened Text

  /** `timeSlots`: the thirteen rows of the grid, lessons and breaks alike. */
  const TimeSlots: seq<string> := [
    "08:00-08:10", "08:10-09:40", "09:40-09:55", "09:55-11:25",
    "11:25-12:10", "12:10-13:40", "13:40-14:10", "14:10-15:40",
    "15:40-15:55", "15:55-17:25", "17:25-17:40", "17:40-18:00",
    "18:00-19:10"]

  /** `days`: the six columns of the grid. */
  const Days: seq<string> := ["Monday", "Tuesday", "Wednesday", "Thursday", "Friday", "Saturday"]

  /** The shape `HH:MM-HH:MM` of a slot label. */
  predicate SlotShaped(slot: string) {
    |slot| == 11 && slot[2] == ':' && slot[5] == '-' && slot[8] == ':'
  }

  /** Thirteen slots of the form `HH:MM-HH:MM`, each ending where the next
      begins, and six days. */
  lemma TableShape()
    ensures |TimeSlots| == 13 && |Days| == 6
    ensures forall i :: 0 <= i < 13 ==> SlotShaped(TimeSlots[i])
    ensures forall i :: 0 <= i < 12 ==> TimeSlots[i][6..] == TimeSlots[i + 1][..5]
  {
  }

  /** The cell a session starts in and the number of rows it spans. */
  datatype Position = Position(start: int, span: int)

  /** The test `slot.startsWith(time)`. */
  function StartsAt(time: string): string -> bool {
    slot => StartsWith(slot, time)
  }

  /** The test `slot.includes(time)`. */
  function Mentions(time: string): string -> bool {
    slot => Contains(slot, time)
  }

  /** `getBlockPosition` over any slot table: the first slot whose label
      starts with `startTime` (-1 if none), and one past the first slot
      whose label holds `endTime` (0 if none); the span is the difference. */
  function PositionIn(slots: seq<string>, startTime: string, endTime: string): (pos: Position)
    ensures -1 <= pos.start < |slots|
    ensures pos.start == -1 <==> forall k :: 0 <= k < |slots| ==> !StartsWith(slots[k], startTime)
    ensures 0 <= pos.start ==> StartsWith(slots[pos.start], startTime)
    ensures forall k :: 0 <= k < pos.start ==> !StartsWith(slots[k], startTime)
    ensures 0 <= pos.start + pos.span <= |slots|
    ensures pos.start + pos.span == 0 <==> forall k :: 0 <= k < |slots| ==> !Contains(slots[k], endTime)
    ensures 0 < pos.start + pos.span ==> Contains(slots[pos.start + pos.span - 1], endTime)
    ensures forall k :: 0 <= k < pos.start + pos.span - 1 ==> !Contains(slots[k], endTime)
  {
    var start := FindIndex(slots, StartsAt(startTime));
    var end := FindIndex(slots, Mentions(endTime)) + 1;
    Position(start, end - start)
  }

  /** `getBlockPosition(block)` on the grid's own slots. */
  function BlockPosition(b: Block): Position {
    PositionIn(TimeSlots, b.startTime, b.endTime)
  }

  /** The test of `getBlocksForDayAndTime`: the session is on `day` and
      its rows include row `timeIndex`. */
  predicate Covers(b: Block, day: string, timeIndex: int) {
    var pos := BlockPosition(b);
    b.day == day && pos.start <= timeIndex < pos.start + pos.span
  }

  /** `Covers` as a function value, for `Filter`. */
  function CoversCell(day: string, timeIndex: int): Block -> bool {
    b => Covers(b, day, timeIndex)
  }

  /** `getBlocksForDayAndTime(day, timeIndex)`: the sessions covering that
      cell, in their original order. */
  function BlocksForDayAndTime(blocks: seq<Block>, day: string, timeIndex: int): (r: seq<Block>)
    ensures IsSubsequence(r, blocks)
    ensures forall i :: 0 <= i < |r| ==> r[i].day == day
  {
    Filter(blocks, CoversCell(day, timeIndex))
  }

  /** A session is in a cell's list exactly when it is one of the sessions,
      it is on that day, and the row lies in `[start, start + span)`. */
  lemma CellMembers(blocks: seq<Block>, day: string, timeIndex: int, b: Block)
    ensures b in BlocksForDayAndTime(blocks, day, timeIndex)
        <==> b in blocks && b.day == day
             && BlockPosition(b).start <= timeIndex < BlockPosition(b).start + BlockPosition(b).span
  {
    FilterMembership(blocks, CoversCell(day, timeIndex), b);
  }

  /** A session whose span is not positive, such as one whose end time
      lies in no slot at or after its start row, appears in no cell. */
  lemma EmptySpanNowhere(blocks: seq<Block>, b: Block, day: string, timeIndex: int)
    requires BlockPosition(b).span <= 0
    ensures b !in BlocksForDayAndTime(blocks, day, timeIndex)
  {
    CellMembers(blocks, day, timeIndex, b);
  }

  /** The position is read off the first slot starting with the start time
      and the first slot holding the end time. */
  lemma PositionOf(slots: seq<string>, startTime: string, endTime: string, i: int, j: int)
    requires 0 <= i < |slots| && 0 <= j < |slots|
    requires StartsWith(slots[i], startTime)
    requires forall k :: 0 <= k < i ==> !StartsWith(slots[k], startTime)
    requires Contains(slots[j], endTime)
    requires forall k :: 0 <= k < j ==> !Contains(slots[k], endTime)
    ensures PositionIn(slots, startTime, endTime) == Position(i, j + 1 - i)
  {
  }

  /** Row 1, `08:10-09:40`, is the first to start at 08:10. */
  lemma StartsAtRowOne()
    ensures StartsWith(TimeSlots[1], "08:10")
    ensures forall k :: 0 <= k < 1 ==> !StartsWith(TimeSlots[k], "08:10")
  {
    assert TimeSlots[0][..5][3] == '0';
  }

  /** Row 3, `09:55-11:25`, is the first to mention 11:25: the rows
      before it hold at most one digit 1. */
  lemma MentionsAtRowThree()
    ensures Contains(TimeSlots[3], "11:25")
    ensures forall k :: 0 <= k < 3 ==> !Contains(TimeSlots[k], "11:25")
  {
    EndsInLabel(TimeSlots[3], "11:25");
    forall k | 0 <= k < 3
      ensures !Contains(TimeSlots[k], "11:25")
    {
      if k == 0 {
        assert TimeSlots[k] == "08:00-08:10";
        NoElevenInRowZero();
      } else if k == 1 {
        assert TimeSlots[k] == "08:10-09:40";
        NoElevenInRowOne();
      } else {
        assert TimeSlots[k] == "09:40-09:55";
        NoElevenInRowTwo();
      }
    }
  }

  /** `08:00-08:10` holds a single digit 1. */
  lemma NoElevenInRowZero()
    ensures !Contains("08:00-08:10", "11:25")
  {
    NotContainsByCount("08:00-08:10", "11:25", '1');
  }

  /** `08:10-09:40` holds a single digit 1. */
  lemma NoElevenInRowOne()
    ensures !Contains("08:10-09:40", "11:25")
  {
    NotContainsByCount("08:10-09:40", "11:25", '1');
  }

  /** `09:40-09:55` holds no digit 1. */
  lemma NoElevenInRowTwo()
    ensures !Contains("09:40-09:55", "11:25")
  {
    NotContainsByCount("09:40-09:55", "11:25", '1');
  }

  /** A label ending in `t` mentions `t`. */
  lemma EndsInLabel(slot: string, t: string)
    requires EndsWith(slot, t)
    ensures Contains(slot, t)
  {
    assert StartsWith(slot[|slot| - |t|..], t);
    ContainsAt(slot, t);
  }

  /** A session from 08:10 to 11:25 starts in row 1 and spans three rows:
      11:25 is first found in the label `09:55-11:25`. */
  lemma MorningDoubleLesson(b: Block)
    requires b.startTime == "08:10" && b.endTime == "11:25"
    ensures BlockPosition(b) == Position(1, 3)
  {
    StartsAtRowOne();
    MentionsAtRowThree();
    PositionOf(TimeSlots, "08:10", "11:25", 1, 3);
  }
}

=== FILE: ics.dfy ===
/** The iCalendar export of `lib/icsGenerator.ts`: local DATE-TIME stamps,
    event UIDs, text escaping, and the VCALENDAR document with one VEVENT
    (carrying one VALARM) per session and active week. */
module Ics {
  import opened Text
  import opened Numerals
  import opened Seqs
  import opened Blocks
  import opened Civil

  // ---------------------------------------------------------------------
  // Date-time stamps (`formatICSDate`)
  // ---------------------------------------------------------------------

  /** What `formatICSDate` prints once `setHours` met a `NaN`: every field of
      an invalid `Date` prints as `NaN`. */
  const NaNStamp := "NaNNaNNaNTNaNNaN00"

  /** A clock time as `time.split(':').map(Number)` reads it. */
  datatype Clock = Clock(hours: nat, minutes: nat)

  /** A calendar instant to the minute, as a stamp prints it. */
  datatype Moment = Moment(date: Date, hour: int, minute: int)

  /** The first two `:`-separated fields of `time` read with `Number`;
      `None` when either is `NaN` or the minutes field is missing. */
  function ParseClock(time: string): (c: Option<Clock>)
    ensures c.Some? ==> ':' in time
  {
    var parts := Split(time, ':');
    if |parts| < 2 then None
    else
      match (ParseNumber(parts[0]), ParseNumber(parts[1]))
      case (Some(h), Some(m)) =>
        SplitCount(time, ':');
        Some(Clock(h, m))
      case _ => None
  }

  /** `${year}${MM}${DD}T${HH}${mm}00`. */
  function Stamp(d: Date, hour: nat, minute: nat): string
    requires Valid(d)
  {
    IntToString(d.year) + StampTail(d.month, d.day, hour, minute)
  }

  /** `${MM}${DD}T${HH}${mm}00`: what a stamp prints after the year. */
  function StampTail(month: nat, day: nat, hour: nat, minute: nat): string {
    PadTwo(month) + PadTwo(day) + "T" + PadTwo(hour) + PadTwo(minute) + "00"
  }

  /** The day carry, hour and minute that `setHours(hours, minutes)`
      settles on: minutes past 59 carry into hours and hours past 23 into
      days, so that the same number of minutes is counted. */
  function Carry(c: Clock): (r: Clock)
    ensures r.hours < 24 && r.minutes < 60
    ensures CarryDays(c) * 1440 + r.hours * 60 + r.minutes == c.hours * 60 + c.minutes
  {
    var total := c.hours * 60 + c.minutes;
    SplitMinutes(total);
    Clock((total % 1440) / 60, total % 60)
  }

  /** Whole days that `setHours(hours, minutes)` moves the date forward. */
  function CarryDays(c: Clock): nat {
    (c.hours * 60 + c.minutes) / 1440
  }

  /** `formatICSDate(date, time)`: the clock time is set on the day with
      `setHours(h, m, 0, 0)`, which carries minutes past 59 into hours and
      hours past 23 into the following days. */
  function FormatIcsDate(date: Date, time: string): (r: string)
    requires Valid(date)
    ensures ParseClock(time).None? <==> r == NaNStamp
  {
    match ParseClock(time)
    case None => NaNStamp
    case Some(c) =>
      var d := AddDays(date, CarryDays(c));
      var r := Stamp(d, Carry(c).hours, Carry(c).minutes);
      assert r[0] != 'N' by { DigitsOrMinus(d.year); }
      r
  }

  lemma DigitsOrMinus(y: int)
    ensures IntToString(y)[0] != 'N'
  {
    if y >= 0 {
      assert IsDigit(IntToString(y)[0]);
    }
  }

  /** Minutes since midnight, split back into whole days, hours below 24 and
      minutes below 60. */
  lemma SplitMinutes(total: nat)
    ensures (total / 1440) * 1440 + ((total % 1440) / 60) * 60 + total % 60 == total
    ensures (total % 1440) / 60 < 24 && total % 60 < 60
  {
    var d := total / 1440;
    var r := total % 1440;
    assert total == d * 1440 + r;
    assert r == (r / 60) * 60 + r % 60;
    assert total % 60 == r % 60 by {
      assert total == (d * 24) * 60 + r;
    }
  }

  /** A time of day needs no carry. */
  lemma CarryTimeOfDay(c: Clock)
    requires c.hours < 24 && c.minutes < 60
    ensures CarryDays(c) == 0 && Carry(c) == c
  {
    var k := Carry(c);
    assert CarryDays(c) == 0;
    assert k.hours * 60 + k.minutes == c.hours * 60 + c.minutes;
  }

  /** A parsed clock time lands on the instant `hours:minutes` after the
      start of `date`, normalised to a valid date, an hour below 24 and a
      minute below 60. */
  lemma FormatIcsDateInstant(date: Date, time: string, c: Clock)
    requires Valid(date) && ParseClock(time) == Some(c)
    ensures exists e: Date, h: nat, m: nat ::
      Valid(e) && h < 24 && m < 60 && FormatIcsDate(date, time) == Stamp(e, h, m) &&
      DayNumber(e) * 1440 + h * 60 + m == DayNumber(date) * 1440 + c.hours * 60 + c.minutes
  {
    var e := AddDays(date, CarryDays(c));
    var k := Carry(c);
    assert FormatIcsDate(date, time) == Stamp(e, k.hours, k.minutes);
    MinutesShift(DayNumber(e), DayNumber(date), CarryDays(c), k.hours * 60 + k.minutes, c.hours * 60 + c.minutes);
    assert DayNumber(e) * 1440 + k.hours * 60 + k.minutes == DayNumber(date) * 1440 + c.hours * 60 + c.minutes;
  }

  /** Moving `carry` whole days forward absorbs `carry * 1440` minutes. */
  lemma MinutesShift(later: int, day: int, carry: int, rest: int, minutes: int)
    requires later == day + carry && carry * 1440 + rest == minutes
    ensures later * 1440 + rest == day * 1440 + minutes
  {
  }

  /** The fields of a stamp read back: the year is everything before the
      last eleven characters, which hold two digits each of month and day,
      `T`, two digits each of hour and minute, then `00`. */
  function ReadStamp(s: string): (r: Option<Moment>)
    ensures r.Some? ==> |s| >= 12 && s[|s| - 7] == 'T' && EndsWith(s, "00")
  {
    if |s| < 12 || !AllDigits(s[..|s| - 11]) then None
    else
      match ReadTail(s[|s| - 11..])
      case None => None
      case Some(f) =>
        assert s[|s| - 11..][9..] == s[|s| - 2..];
        Some(Moment(Date(DigitsValue(s[..|s| - 11]), f.0, f.1), f.2, f.3))
  }

  /** Month, day, hour and minute read from the eleven characters after a
      stamp's year. */
  function ReadTail(t: string): (r: Option<(int, int, int, int)>)
    ensures r.Some? ==> |t| == 11 && t[4] == 'T' && t[9..] == "00"
  {
    if |t| == 11 && AllDigits(t[0..2]) && AllDigits(t[2..4]) && t[4] == 'T'
       && AllDigits(t[5..7]) && AllDigits(t[7..9]) && t[9..] == "00"
    then Some((DigitsValue(t[0..2]), DigitsValue(t[2..4]), DigitsValue(t[5..7]), DigitsValue(t[7..9])))
    else None
  }

  /** A stamp of a date with a non-negative year reads back as the date,
      hour and minute it was printed from. */
  lemma StampRoundTrip(d: Date, hour: nat, minute: nat)
    requires Valid(d) && d.year >= 0 && hour < 24 && minute < 60
    ensures ReadStamp(Stamp(d, hour, minute)) == Some(Moment(d, hour, minute))
  {
    var y := IntToString(d.year);
    var t := StampTail(d.month, d.day, hour, minute);
    var s := Stamp(d, hour, minute);
    assert s[..|s| - 11] == y && s[|s| - 11..] == t by {
      TailRoundTrip(d.month, d.day, hour, minute);
    }
    TailRoundTrip(d.month, d.day, hour, minute);
  }

  /** The tail of a stamp reads back as the fields it was printed from. */
  lemma TailRoundTrip(month: nat, day: nat, hour: nat, minute: nat)
    requires month < 100 && day < 100 && hour < 100 && minute < 100
    ensures ReadTail(StampTail(month, day, hour, minute)) == Some((month, day, hour, minute))
  {
    TailFields(PadTwo(month), PadTwo(day), PadTwo(hour), PadTwo(minute));
  }

  /** Where the four two-character fields sit in a stamp's tail. */
  lemma TailFields(a: string, b: string, c: string, e: string)
    requires |a| == 2 && |b| == 2 && |c| == 2 && |e| == 2
    ensures var t := a + b + "T" + c + e + "00";
      |t| == 11 && t[0..2] == a && t[2..4] == b && t[4] == 'T' && t[5..7] == c && t[7..9] == e && t[9..] == "00"
  {
  }

  /** With a four-digit year, a stamp is the fifteen characters
      `YYYYMMDDTHHMM00`, its `T` at index 8. */
  lemma StampWidth(d: Date, hour: nat, minute: nat)
    requires Valid(d) && 1000 <= d.year <= 9999 && hour < 24 && minute < 60
    ensures |Stamp(d, hour, minute)| == 15
    ensures Stamp(d, hour, minute)[8] == 'T' && EndsWith(Stamp(d, hour, minute), "00")
  {
    StampRoundTrip(d, hour, minute);
    assert |IntToString(d.year)| == 4;
  }

  /** An `HH:MM` time of day is printed on the same date, and the stamp
      reads back as that date and time. */
  lemma FormatIcsDateOfClockText(date: Date, hour: nat, minute: nat)
    requires Valid(date) && date.year >= 0 && hour < 24 && minute < 60
    ensures FormatIcsDate(date, PadTwo(hour) + ":" + PadTwo(minute)) == Stamp(date, hour, minute)
    ensures ReadStamp(FormatIcsDate(date, PadTwo(hour) + ":" + PadTwo(minute))) == Some(Moment(date, hour, minute))
  {
    var hh := PadTwo(hour);
    var mm := PadTwo(minute);
    var time := hh + ":" + mm;
    assert time == hh + [':'] + mm;
    assert ':' !in hh && ':' !in mm by {
      assert forall x :: 0 <= x < |hh| ==> IsDigit(hh[x]);
      assert forall x :: 0 <= x < |mm| ==> IsDigit(mm[x]);
    }
    SplitCons(hh, mm, ':');
    SplitNoSep(mm, ':');
    ParseNumberOfPadTwo(hour);
    ParseNumberOfPadTwo(minute);
    assert ParseClock(time) == Some(Clock(hour, minute));
    CarryTimeOfDay(Clock(hour, minute));
    StampRoundTrip(date, hour, minute);
  }

  // ---------------------------------------------------------------------
  // UIDs (`generateUID`)
  // ---------------------------------------------------------------------

  const UidDomain := "@haw-schedule.local"

  /** `generateUID(block, weekNum)`. */
  function Uid(b: Block, week: int): string {
    b.code + "-" + b.day + "-" + IntToString(week) + "-" + b.startTime + UidDomain
  }

  /** The UID reads `code-day-` first and ends in the fixed domain. */
  lemma UidShape(b: Block, week: int)
    ensures StartsWith(Uid(b, week), b.code + "-" + b.day + "-")
    ensures EndsWith(Uid(b, week), UidDomain)
  {
    var p := b.code + "-" + b.day + "-";
    var u := Uid(b, week);
    assert u == p + (IntToString(week) + "-" + b.startTime + UidDomain);
    assert u[..|p|] == p;
    assert u[|u| - |UidDomain|..] == UidDomain;
  }

  /** Two events of one session in different weeks never share a UID. */
  lemma UidSeparatesWeeks(b: Block, w1: int, w2: int)
    requires Uid(b, w1) == Uid(b, w2)
    ensures w1 == w2
  {
    var p := b.code + "-" + b.day + "-";
    var q := "-" + b.startTime + UidDomain;
    var x := IntToString(w1);
    var y := IntToString(w2);
    assert Uid(b, w1) == p + x + q;
    assert Uid(b, w2) == p + y + q;
    MiddleEqual(p, x, y, q);
    IntToStringInjective(w1, w2);
  }

  /** The UID depends on the session only through its code, day and start
      time: sessions that agree on those share UIDs week by week. */
  lemma UidKey(a: Block, b: Block, week: int)
    requires a.code == b.code && a.day == b.day && a.startTime == b.startTime
    ensures Uid(a, week) == Uid(b, week)
    ensures EndsWith(Uid(a, week), UidDomain)
  {
    UidShape(a, week);
  }

  // ---------------------------------------------------------------------
  // Text escaping (`escapeICSText`)
  // ---------------------------------------------------------------------

  /** `escapeICSText`: backslashes first, then `;`, `,` and line feeds. */
  function EscapeIcsText(s: string): (r: string)
    ensures '\n' !in r
  {
    var a := ReplaceAll(s, '\\', "\\\\");
    var b := ReplaceAll(a, ';', "\\;");
    var c := ReplaceAll(b, ',', "\\,");
    ReplaceAll(c, '\n', "\\n")
  }

  /** The escape of one character, as section 3.3.11 of RFC 5545 writes it. */
  function EscapeChar(c: char): string {
    if c == '\\' then "\\\\"
    else if c == ';' then "\\;"
    else if c == ',' then "\\,"
    else if c == '\n' then "\\n"
    else [c]
  }

  /** Escaping character by character. */
  function EscapeEach(s: string): string
    decreases |s|
  {
    if |s| == 0 then "" else EscapeChar(s[0]) + EscapeEach(s[1..])
  }

  lemma EscapeConcat(a: string, b: string)
    ensures EscapeIcsText(a + b) == EscapeIcsText(a) + EscapeIcsText(b)
  {
    ReplaceAllConcat(a, b, '\\', "\\\\");
    var a1 := ReplaceAll(a, '\\', "\\\\");
    var b1 := ReplaceAll(b, '\\', "\\\\");
    ReplaceAllConcat(a1, b1, ';', "\\;");
    var a2 := ReplaceAll(a1, ';', "\\;");
    var b2 := ReplaceAll(b1, ';', "\\;");
    ReplaceAllConcat(a2, b2, ',', "\\,");
    var a3 := ReplaceAll(a2, ',', "\\,");
    var b3 := ReplaceAll(b2, ',', "\\,");
    ReplaceAllConcat(a3, b3, '\n', "\\n");
  }

  lemma EscapeOne(c: char)
    ensures EscapeIcsText([c]) == EscapeChar(c)
  {
    assert [c][1..] == "";
    var a := ReplaceAll([c], '\\', "\\\\");
    assert a == (if c == '\\' then "\\\\" else [c]);
    var b := ReplaceAll(a, ';', "\\;");
    if c == ';' {
      assert b == "\\;";
    } else {
      assert ';' !in a;
    }
    var d := ReplaceAll(b, ',', "\\,");
    if c == ',' {
      assert b == [c];
      assert d == "\\,";
    } else {
      assert ',' !in b;
    }
    if c == '\n' {
      assert d == [c];
      assert ReplaceAll(d, '\n', "\\n") == "\\n";
    } else {
      assert '\n' !in d;
    }
  }

  /** The four chained global replacements escape each character on its
      own: escaping backslashes first means no escape is escaped twice. */
  lemma {:induction false} EscapeIsPerChar(s: string)
    ensures EscapeIcsText(s) == EscapeEach(s)
    decreases |s|
  {
    if |s| == 0 {
    } else {
      assert s == [s[0]] + s[1..];
      EscapeConcat([s[0]], s[1..]);
      EscapeOne(s[0]);
      EscapeIsPerChar(s[1..]);
    }
  }

  /** The character a backslash escape stands for. */
  function EscapedChar(c: char): Option<char> {
    if c == '\\' then Some('\\')
    else if c == ';' then Some(';')
    else if c == ',' then Some(',')
    else if c == 'n' then Some('\n')
    else None
  }

  /** Reading escaped text back: `None` for a dangling or unknown escape,
      or a `;`, `,` or line feed that was not escaped. */
  function Unescape(t: string): (r: Option<string>)
    decreases |t|
  {
    if |t| == 0 then Some("")
    else if t[0] == '\\' then
      if |t| < 2 then None
      else
        match (EscapedChar(t[1]), Unescape(t[2..]))
        case (Some(c), Some(rest)) => Some([c] + rest)
        case _ => None
    else if t[0] == ';' || t[0] == ',' || t[0] == '\n' then None
    else
      match Unescape(t[1..])
      case Some(rest) => Some([t[0]] + rest)
      case None => None
  }

  lemma {:induction false} UnescapeEscapeEach(s: string)
    ensures Unescape(EscapeEach(s)) == Some(s)
    decreases |s|
  {
    if |s| > 0 {
      UnescapeEscapeEach(s[1..]);
      UnescapeToken(s[0], EscapeEach(s[1..]), s[1..]);
      assert s == [s[0]] + s[1..];
    }
  }

  /** Unescaping reads the escape of one character back as that character. */
  lemma UnescapeToken(c: char, u: string, rest: string)
    requires Unescape(u) == Some(rest)
    ensures Unescape(EscapeChar(c) + u) == Some([c] + rest)
  {
    var t := EscapeChar(c) + u;
    if |EscapeChar(c)| == 2 {
      assert t[2..] == u;
    } else {
      assert t[1..] == u;
    }
  }

  lemma {:induction false} EscapeEachUnescape(t: string, s: string)
    requires Unescape(t) == Some(s)
    ensures EscapeEach(s) == t
    decreases |t|
  {
    if |t| > 0 {
      var n := if t[0] == '\\' then 2 else 1;
      var rest := Unescape(t[n..]).value;
      var c := if t[0] == '\\' then EscapedChar(t[1]).value else t[0];
      assert s == [c] + rest;
      EscapeEachUnescape(t[n..], rest);
      EscapeCharOfToken(t, c);
      assert s[1..] == rest;
      assert EscapeEach(s) == EscapeChar(c) + EscapeEach(rest);
      assert t == t[..n] + t[n..];
    }
  }

  /** The first token of well-escaped text is the escape of the character
      it stands for. */
  lemma EscapeCharOfToken(t: string, c: char)
    requires |t| > 0 && Unescape(t).Some?
    requires c == if t[0] == '\\' then EscapedChar(t[1]).value else t[0]
    ensures t[0] == '\\' ==> |t| >= 2 && EscapeChar(c) == t[..2]
    ensures t[0] != '\\' ==> EscapeChar(c) == t[..1]
  {
    if t[0] == '\\' {
      assert EscapedChar(t[1]).Some?;
      assert t[..2] == ['\\', t[1]];
    } else {
      assert t[..1] == [t[0]];
    }
  }

  /** Unescaping undoes the escaping, and the escaped text is exactly what
      unescapes to `s`: escaped output has no bare `;`, `,` or line feed. */
  lemma EscapeRoundTrip(s: string, t: string)
    ensures Unescape(EscapeIcsText(s)) == Some(s)
    ensures Unescape(t) == Some(s) <==> t == EscapeIcsText(s)
  {
    EscapeIsPerChar(s);
    UnescapeEscapeEach(s);
    if Unescape(t) == Some(s) {
      EscapeEachUnescape(t, s);
    }
  }

  /** Without backslashes or line feeds in the input, every backslash of the
      escaped text is followed by `;` or `,`. */
  lemma {:induction false} EscapedBackslashes(s: string)
    requires '\\' !in s && '\n' !in s
    ensures forall j :: 0 <= j < |EscapeEach(s)| && EscapeEach(s)[j] == '\\' ==>
      j + 1 < |EscapeEach(s)| && (EscapeEach(s)[j + 1] == ';' || EscapeEach(s)[j + 1] == ',')
    decreases |s|
  {
    if |s| > 0 {
      assert s[0] in s;
      assert forall x :: x in s[1..] ==> x in s;
      EscapedBackslashes(s[1..]);
      var e := EscapeChar(s[0]);
      var rest := EscapeEach(s[1..]);
      var t := EscapeEach(s);
      assert t == e + rest;
      forall j | 0 <= j < |t| && t[j] == '\\'
        ensures j + 1 < |t| && (t[j + 1] == ';' || t[j + 1] == ',')
      {
        if j >= |e| {
          assert t[j] == rest[j - |e|];
          assert t[j + 1] == rest[j + 1 - |e|];
        }
      }
    }
  }

  // ---------------------------------------------------------------------
  // Events
  // ---------------------------------------------------------------------

  /** `categoryMap`. */
  const Categories: map<string, string> := map[
    "database" := "Database",
    "digital" := "Digital Systems",
    "microcontroller" := "Microcontroller",
    "signals" := "Signals & Systems",
    "electronics" := "Electronics",
    "software" := "Software",
    "math" := "Mathematics",
    "economics" := "Economics",
    "intercultural" := "General Studies"]

  /** `categoryMap[module_type] || 'Course'`: the mapped name, and `Course`
      exactly when the module type is not one of the nine known. */
  function CategoryName(moduleType: string): (r: string)
    ensures r == "Course" <==> moduleType !in Categories
    ensures moduleType in Categories ==> r == Categories[moduleType]
  {
    if moduleType in Categories then Categories[moduleType] else "Course"
  }

  /** The DESCRIPTION text: instructors, the group when the session has
      one (not escaped), and the week number, separated by `\n` escapes. */
  function Description(b: Block, week: int): string {
    "Instructor: " + EscapeIcsText(b.instructors)
      + (if b.group != "" then "\\nGroup: " + b.group else "")
      + "\\nWeek: " + IntToString(week)
  }

  const GroupTag := "\\nGroup: "

  lemma Regroup<T>(p: seq<T>, t: seq<T>, g: seq<T>, k: seq<T>, w: seq<T>)
    ensures p + (t + g) + k + w == p + t + (g + k + w)
  {
  }

  lemma ContainsMiddle(p: string, t: string, q: string)
    ensures Contains(p + t + q, t)
  {
    assert StartsWith(t + q, t);
    assert Contains(t + q, t);
    ContainsPrepend(p, t + q, t);
    assert p + t + q == p + (t + q);
  }

  /** A Group segment appears in the description exactly when the session
      has a group, provided the instructor text holds no backslash or line
      feed (whose escapes could spell the same characters). */
  lemma DescriptionGroup(b: Block, week: int)
    requires '\\' !in b.instructors && '\n' !in b.instructors
    ensures Contains(Description(b, week), GroupTag) <==> b.group != ""
  {
    if b.group != "" {
      DescriptionWithGroup(b, week);
    } else {
      DescriptionWithoutGroup(b, week);
    }
  }

  lemma DescriptionWithGroup(b: Block, week: int)
    requires b.group != ""
    ensures Contains(Description(b, week), GroupTag)
  {
    var p := "Instructor: " + EscapeIcsText(b.instructors);
    var k, w := "\\nWeek: ", IntToString(week);
    Regroup(p, GroupTag, b.group, k, w);
    ContainsMiddle(p, GroupTag, b.group + k + w);
  }

  lemma DescriptionWithoutGroup(b: Block, week: int)
    requires '\\' !in b.instructors && '\n' !in b.instructors
    requires b.group == ""
    ensures !Contains(Description(b, week), GroupTag)
  {
    var e := EscapeIcsText(b.instructors);
    EscapeIsPerChar(b.instructors);
    EscapedBackslashes(b.instructors);
    NoGroupTag(e, IntToString(week));
    assert Description(b, week) == "Instructor: " + e + "\\nWeek: " + IntToString(week);
  }

  lemma NoGroupTag(e: string, w: string)
    requires forall j :: 0 <= j < |e| && e[j] == '\\' ==> j + 1 < |e| && (e[j + 1] == ';' || e[j + 1] == ',')
    requires '\\' !in w
    ensures !Contains("Instructor: " + e + "\\nWeek: " + w, GroupTag)
  {
    var d := "Instructor: " + e + "\\nWeek: " + w;
    forall i | 0 <= i && i + 3 <= |d|
      ensures !(d[i] == '\\' && d[i + 1] == 'n' && d[i + 2] == 'G')
    {
      NoTagAt(e, w, i);
    }
    NotContainsByPrefix(d, GroupTag);
  }

  lemma NoTagAt(e: string, w: string, i: int)
    requires forall j :: 0 <= j < |e| && e[j] == '\\' ==> j + 1 < |e| && (e[j + 1] == ';' || e[j + 1] == ',')
    requires '\\' !in w
    requires 0 <= i && i + 3 <= |"Instructor: " + e + "\\nWeek: " + w|
    ensures var d := "Instructor: " + e + "\\nWeek: " + w;
      !(d[i] == '\\' && d[i + 1] == 'n' && d[i + 2] == 'G')
  {
    var p := "Instructor: ";
    var q := "\\nWeek: ";
    var d := p + e + q + w;
    if i < |p| {
      assert d[i] == p[i];
    } else if i < |p| + |e| {
      assert d[i] == e[i - |p|];
      if i + 1 < |p| + |e| {
        assert d[i + 1] == e[i + 1 - |p|];
      }
    } else if i < |p| + |e| + |q| {
      assert d[i] == q[i - |p| - |e|];
      if i == |p| + |e| {
        assert d[i + 2] == q[2];
      }
    } else {
      assert d[i] == w[i - |p| - |e| - |q|];
    }
  }

  /** One event: a session in one of its active weeks. */
  datatype Event = Event(block: Block, week: int)

  /** The week-to-date rule that dates the events. `AsWritten` is
      `getDateFromWeek` as `generateICS` calls it, which places weeks from 41
      on in 2024. `Semester` is the corrected rule, which places them in the
      2025/2026 semester. */
  datatype DateRule = AsWritten | Semester

  /** The day an event falls on under `rule`. `generateICS` passes no year,
      so the default 2025 applies; the rule as written never reads it. */
  function EventDate(rule: DateRule, e: Event): (d: Date)
    ensures Valid(d)
  {
    match rule
    case AsWritten => DateFromWeek(e.week, e.block.day, 2025)
    case Semester => SemesterDateFromWeek(e.week, e.block.day)
  }

  /** Under either rule an event falls on the weekday its day name says. */
  lemma EventWeekday(rule: DateRule, e: Event)
    ensures Weekday(EventDate(rule, e)) == (1 + DayOffset(e.block.day)) % 7
  {
    match rule
    case AsWritten => DateFromWeekWeekday(e.week, e.block.day, 2025);
    case Semester => SemesterDateWeekday(e.week, e.block.day);
  }

  /** In a semester week the corrected rule dates an event exactly 364 days
      (52 weeks) later than the rule as written. */
  lemma EventDateShift(e: Event)
    requires 41 <= e.week <= 52 || 1 <= e.week <= 4
    ensures DayNumber(EventDate(Semester, e)) == DayNumber(EventDate(AsWritten, e)) + 364
  {
    AsWrittenYearEarly(e.week, e.block.day, 2025);
  }

  /** The VEVENT lines of one event, its VALARM nested inside. */
  function EventLines(rule: DateRule, e: Event): (r: seq<string>)
    ensures |r| == 14
  {
    Frame(EventDetails(rule, e), AlarmLines(e.block))
  }

  /** `EventLines` for a fixed rule, as a function value for `Map`. */
  function LinesOf(rule: DateRule): Event -> seq<string> {
    e => EventLines(rule, e)
  }

  /** A VEVENT around its property lines and its alarm. */
  function Frame(details: seq<string>, alarm: seq<string>): seq<string> {
    ["BEGIN:VEVENT"] + details + alarm + ["END:VEVENT"]
  }

  /** The property lines of an event. */
  function EventDetails(rule: DateRule, e: Event): (r: seq<string>)
    ensures |r| == 7
    ensures forall k :: 0 <= k < 7 ==> |r[k]| > 0 && r[k][0] != 'B'
  {
    var b := e.block;
    var date := EventDate(rule, e);
    Properties(Uid(b, e.week), FormatIcsDate(date, b.startTime), FormatIcsDate(date, b.endTime),
               EscapeIcsText(b.code + " - " + b.fullName), EscapeIcsText(b.location),
               Description(b, e.week), CategoryName(b.moduleType))
  }

  /** UID, DTSTART, DTEND, SUMMARY, LOCATION, DESCRIPTION and CATEGORIES
      lines, each opening with its property name (none starts with `B`). */
  function Properties(uid: string, start: string, end: string, summary: string, location: string,
                      description: string, category: string): (r: seq<string>)
    ensures |r| == 7
    ensures forall k :: 0 <= k < 7 ==> |r[k]| > 0 && r[k][0] != 'B'
  {
    ["UID:" + uid, "DTSTART:" + start, "DTEND:" + end, "SUMMARY:" + summary,
     "LOCATION:" + location, "DESCRIPTION:" + description, "CATEGORIES:" + category]
  }

  /** Lines 2 and 3 of an event are its DTSTART and DTEND: the stamps of
      the rule's date at the session's start and end times. */
  lemma EventStamps(rule: DateRule, e: Event)
    ensures EventLines(rule, e)[2] == "DTSTART:" + FormatIcsDate(EventDate(rule, e), e.block.startTime)
    ensures EventLines(rule, e)[3] == "DTEND:" + FormatIcsDate(EventDate(rule, e), e.block.endTime)
  {
    var d := EventDetails(rule, e);
    FrameAt(d, AlarmLines(e.block), 2);
    FrameAt(d, AlarmLines(e.block), 3);
  }

  /** Every other line of an event is the same under both rules. */
  lemma EventLinesByRule(e: Event, j: int)
    requires 0 <= j < 14 && j != 2 && j != 3
    ensures EventLines(AsWritten, e)[j] == EventLines(Semester, e)[j]
  {
    var b := e.block;
    var uid, summary, location := Uid(b, e.week), EscapeIcsText(b.code + " - " + b.fullName), EscapeIcsText(b.location);
    var description, category := Description(b, e.week), CategoryName(b.moduleType);
    var da, ds := EventDate(AsWritten, e), EventDate(Semester, e);
    var a := Properties(uid, FormatIcsDate(da, b.startTime), FormatIcsDate(da, b.endTime), summary, location, description, category);
    var s := Properties(uid, FormatIcsDate(ds, b.startTime), FormatIcsDate(ds, b.endTime), summary, location, description, category);
    assert EventDetails(AsWritten, e) == a;
    assert EventDetails(Semester, e) == s;
    var al := AlarmLines(b);
    if 1 <= j <= 7 {
      FrameAt(a, al, j);
      FrameAt(s, al, j);
      PropertiesAgree(uid, FormatIcsDate(da, b.startTime), FormatIcsDate(da, b.endTime),
                      FormatIcsDate(ds, b.startTime), FormatIcsDate(ds, b.endTime),
                      summary, location, description, category, j - 1);
    } else {
      FrameOutside(a, s, al, j);
    }
  }

  /** Property lines other than DTSTART and DTEND do not depend on the stamps. */
  lemma PropertiesAgree(uid: string, start: string, end: string, start': string, end': string,
                        summary: string, location: string, description: string, category: string, k: int)
    requires 0 <= k < 7 && k != 1 && k != 2
    ensures Properties(uid, start, end, summary, location, description, category)[k]
         == Properties(uid, start', end', summary, location, description, category)[k]
  {
  }

  /** Line `j` of a frame, for `j` inside its property lines. */
  lemma FrameAt(details: seq<string>, alarm: seq<string>, j: int)
    requires 1 <= j <= |details|
    ensures Frame(details, alarm)[j] == details[j - 1]
  {
  }

  /** Frames with equally long property lines agree outside them. */
  lemma FrameOutside(a: seq<string>, b: seq<string>, alarm: seq<string>, j: int)
    requires |a| == |b| && 0 <= j < |a| + |alarm| + 2 && !(1 <= j <= |a|)
    ensures Frame(a, alarm)[j] == Frame(b, alarm)[j]
  {
  }

  /** The VALARM of an event: a display reminder 15 minutes before. */
  function AlarmLines(b: Block): (r: seq<string>)
    ensures |r| == 5 && r[0] == "BEGIN:VALARM"
    ensures forall k :: 1 <= k < 5 ==> |r[k]| > 0 && r[k][0] != 'B'
  {
    ["BEGIN:VALARM",
     "TRIGGER:-PT15M",
     "ACTION:DISPLAY",
     "DESCRIPTION:Reminder: " + EscapeIcsText(b.code),
     "END:VALARM"]
  }

  /** The events of one session, week by week in `weeks_array` order. */
  function WeekEvents(b: Block): (r: seq<Event>)
    ensures |r| == |b.weeksArray|
    ensures forall k :: 0 <= k < |r| ==> r[k] == Event(b, b.weeksArray[k])
  {
    Map(b.weeksArray, (w: int) => Event(b, w))
  }

  /** Total number of active weeks over all sessions. */
  function TotalWeeks(blocks: seq<Block>): nat
    decreases |blocks|
  {
    if |blocks| == 0 then 0 else |blocks[0].weeksArray| + TotalWeeks(blocks[1..])
  }

  /** All events in the order `generateICS` visits them: session by session,
      and within a session week by week. */
  function Events(blocks: seq<Block>): (r: seq<Event>)
    ensures |r| == TotalWeeks(blocks)
    decreases |blocks|
  {
    if |blocks| == 0 then [] else WeekEvents(blocks[0]) + Events(blocks[1..])
  }

  /** Events of two runs of sessions come one run after the other. */
  lemma {:induction false} EventsAppend(a: seq<Block>, b: seq<Block>)
    ensures Events(a + b) == Events(a) + Events(b)
    decreases |a|
  {
    if |a| == 0 {
      assert a + b == b;
    } else {
      assert (a + b)[1..] == a[1..] + b;
      EventsAppend(a[1..], b);
    }
  }

  /** There is an event for a session and week exactly when the session is
      exported and the week is one of its active weeks. */
  lemma {:induction false} EventsMembership(blocks: seq<Block>, e: Event)
    ensures e in Events(blocks) <==> e.block in blocks && e.week in e.block.weeksArray
    decreases |blocks|
  {
    if |blocks| > 0 {
      EventsMembership(blocks[1..], e);
      assert e in WeekEvents(blocks[0]) <==> e.block == blocks[0] && e.week in e.block.weeksArray by {
        var we := WeekEvents(blocks[0]);
        if e in we {
          var k :| 0 <= k < |we| && we[k] == e;
        }
        if e.block == blocks[0] && e.week in e.block.weeksArray {
          var k :| 0 <= k < |blocks[0].weeksArray| && blocks[0].weeksArray[k] == e.week;
          assert we[k] == e;
        }
      }
      assert blocks == [blocks[0]] + blocks[1..];
    }
  }

  /** The lines of a run of events, one block of fourteen per event. */
  function EventBody(rule: DateRule, events: seq<Event>): (r: seq<string>)
    ensures |r| == 14 * |events|
  {
    FlattenUniformLength(Map(events, LinesOf(rule)), 14);
    Flatten(Map(events, LinesOf(rule)))
  }

  lemma EventBodyAppend(rule: DateRule, a: seq<Event>, b: seq<Event>)
    ensures EventBody(rule, a + b) == EventBody(rule, a) + EventBody(rule, b)
  {
    MapAppend(a, b, LinesOf(rule));
    FlattenAppend(Map(a, LinesOf(rule)), Map(b, LinesOf(rule)));
  }

  lemma EventBodyOne(rule: DateRule, e: Event)
    ensures EventBody(rule, [e]) == EventLines(rule, e)
  {
    assert Map([e], LinesOf(rule)) == [EventLines(rule, e)];
    assert Flatten([EventLines(rule, e)]) == EventLines(rule, e) + Flatten([]);
  }

  /** Line `j` of the `k`-th event's block is line `j` of that event. */
  lemma EventBodyAt(rule: DateRule, events: seq<Event>, k: int, j: int)
    requires 0 <= k < |events| && 0 <= j < 14
    ensures 14 * k + j < |EventBody(rule, events)|
    ensures EventBody(rule, events)[14 * k + j] == EventLines(rule, events[k])[j]
  {
    var f := LinesOf(rule);
    forall i | 0 <= i < |events|
      ensures |f(events[i])| == 14
    {
      assert f(events[i]) == EventLines(rule, events[i]);
    }
    FlattenMapAt(events, f, 14, k, j);
    assert f(events[k]) == EventLines(rule, events[k]);
  }

  /** Each event contributes one BEGIN:VEVENT and one BEGIN:VALARM line. */
  lemma EventBodyCount(rule: DateRule, events: seq<Event>)
    ensures multiset(EventBody(rule, events))["BEGIN:VEVENT"] == |events|
    ensures multiset(EventBody(rule, events))["BEGIN:VALARM"] == |events|
  {
    var ss := Map(events, LinesOf(rule));
    forall i | 0 <= i < |ss|
      ensures multiset(ss[i])["BEGIN:VEVENT"] == 1 && multiset(ss[i])["BEGIN:VALARM"] == 1
    {
      EventLinesCount(rule, events[i]);
    }
    FlattenCount(ss, "BEGIN:VEVENT");
    FlattenCount(ss, "BEGIN:VALARM");
  }

  // ---------------------------------------------------------------------
  // The calendar (`generateICS`)
  // ---------------------------------------------------------------------

  const HeaderLines: seq<string> := [
    "BEGIN:VCALENDAR",
    "VERSION:2.0",
    "PRODID:-//HAW Hamburg//Schedule//EN",
    "CALSCALE:GREGORIAN",
    "METHOD:PUBLISH",
    "X-WR-CALNAME:HAW Schedule",
    "X-WR-TIMEZONE:Europe/Berlin",
    "X-WR-CALDESC:HAW Hamburg Course Schedule"]

  const FooterLine := "END:VCALENDAR"

  /** The lines of the calendar document, its events dated by `rule`;
      `generateICS` itself is the rule `AsWritten`. */
  function IcsLines(rule: DateRule, blocks: seq<Block>): seq<string> {
    HeaderLines + EventBody(rule, Events(blocks)) + [FooterLine]
  }

  /** `generateICS(blocks)` (with `rule == AsWritten`): the header is pushed,
      then for each session and each of its weeks the fourteen lines of the
      event, then the footer; the lines are joined with CRLF. */
  method GenerateIcs(rule: DateRule, blocks: seq<Block>) returns (text: string, lines: seq<string>)
    ensures lines == IcsLines(rule, blocks)
    ensures text == Join(lines, "\r\n")
    ensures |lines| == 9 + 14 * TotalWeeks(blocks)
  {
    lines := HeaderLines;
    ghost var done: seq<Event> := [];
    var i := 0;
    while i < |blocks|
      invariant 0 <= i <= |blocks|
      invariant done == Events(blocks[..i])
      invariant lines == HeaderLines + EventBody(rule, done)
    {
      var b := blocks[i];
      var j := 0;
      while j < |b.weeksArray|
        invariant 0 <= j <= |b.weeksArray|
        invariant done == Events(blocks[..i]) + WeekEvents(b)[..j]
        invariant lines == HeaderLines + EventBody(rule, done)
      {
        var e := Event(b, b.weeksArray[j]);
        EventBodySnoc(rule, HeaderLines, done, e);
        lines := lines + EventLines(rule, e);
        AppendAssoc(Events(blocks[..i]), WeekEvents(b)[..j], [e]);
        done := done + [e];
        WeekEventsStep(b, j);
        j := j + 1;
      }
      assert WeekEvents(b)[..j] == WeekEvents(b);
      EventsSnoc(blocks, i);
      i := i + 1;
    }
    assert blocks[..i] == blocks;
    lines := lines + [FooterLine];
    text := Join(lines, "\r\n");
  }

  lemma WeekEventsStep(b: Block, j: int)
    requires 0 <= j < |b.weeksArray|
    ensures WeekEvents(b)[..j + 1] == WeekEvents(b)[..j] + [Event(b, b.weeksArray[j])]
  {
    var w := WeekEvents(b);
    assert w[j] == Event(b, b.weeksArray[j]);
    assert w[..j + 1] == w[..j] + [w[j]];
  }

  lemma EventsSnoc(blocks: seq<Block>, i: int)
    requires 0 <= i < |blocks|
    ensures Events(blocks[..i + 1]) == Events(blocks[..i]) + WeekEvents(blocks[i])
  {
    assert blocks[..i + 1] == blocks[..i] + [blocks[i]];
    EventsAppend(blocks[..i], [blocks[i]]);
    assert [blocks[i]][1..] == [];
  }

  /** One more event adds its fourteen lines at the end of what precedes. */
  lemma EventBodySnoc(rule: DateRule, head: seq<string>, events: seq<Event>, e: Event)
    ensures head + EventBody(rule, events + [e]) == head + EventBody(rule, events) + EventLines(rule, e)
  {
    EventBodyAppend(rule, events, [e]);
    EventBodyOne(rule, e);
    AppendAssoc(head, EventBody(rule, events), EventLines(rule, e));
  }

  /** The document opens with BEGIN:VCALENDAR, closes with END:VCALENDAR,
      and has the eight header lines, fourteen lines per event and the
      footer. */
  lemma IcsFrame(rule: DateRule, blocks: seq<Block>)
    ensures |IcsLines(rule, blocks)| == 9 + 14 * TotalWeeks(blocks)
    ensures IcsLines(rule, blocks)[0] == "BEGIN:VCALENDAR"
    ensures IcsLines(rule, blocks)[|IcsLines(rule, blocks)| - 1] == "END:VCALENDAR"
  {
  }

  /** Between the eight header lines and the footer line the document
      holds the event body. */
  lemma IcsBody(rule: DateRule, blocks: seq<Block>)
    ensures |IcsLines(rule, blocks)| == 9 + |EventBody(rule, Events(blocks))|
    ensures IcsLines(rule, blocks)[..8] == HeaderLines
    ensures IcsLines(rule, blocks)[8..|IcsLines(rule, blocks)| - 1] == EventBody(rule, Events(blocks))
  {
    ThreeParts(HeaderLines, EventBody(rule, Events(blocks)), [FooterLine]);
  }

  /** Between header and footer the events' line blocks come in order:
      line `8 + 14k + j` of the document is line `j` of the `k`-th event. */
  lemma IcsLayout(rule: DateRule, blocks: seq<Block>, k: int, j: int)
    requires 0 <= k < |Events(blocks)| && 0 <= j < 14
    ensures IcsLines(rule, blocks)[8 + 14 * k + j] == EventLines(rule, Events(blocks)[k])[j]
  {
    var lines := IcsLines(rule, blocks);
    IcsBody(rule, blocks);
    EventBodyAt(rule, Events(blocks), k, j);
    assert lines[8 + 14 * k + j] == lines[8..|lines| - 1][14 * k + j];
  }

  /** The calendar as written and the corrected one differ only in DTSTART
      and DTEND lines: a line where they differ is line 2 or 3 of an event. */
  lemma IcsRulesDiffer(blocks: seq<Block>, i: int)
    requires 0 <= i < |IcsLines(AsWritten, blocks)|
    requires IcsLines(AsWritten, blocks)[i] != IcsLines(Semester, blocks)[i]
    ensures 8 <= i < 8 + 14 * TotalWeeks(blocks)
    ensures (i - 8) % 14 == 2 || (i - 8) % 14 == 3
  {
    var events := Events(blocks);
    var x, y := EventBody(AsWritten, events), EventBody(Semester, events);
    MiddleDiffers(HeaderLines, x, y, [FooterLine], i);
    var k, j := (i - 8) / 14, (i - 8) % 14;
    assert 14 * k + j == i - 8;
    EventBodyAt(AsWritten, events, k, j);
    EventBodyAt(Semester, events, k, j);
    if j != 2 && j != 3 {
      EventLinesByRule(events[k], j);
    }
  }

  /** In the document, the `k`-th event's DTSTART and DTEND lines carry
      the stamps of its date under the rule; with `EventDateShift` the two
      rules put those dates 364 days apart in every semester week. */
  lemma IcsStamps(rule: DateRule, blocks: seq<Block>, k: int)
    requires 0 <= k < |Events(blocks)|
    ensures IcsLines(rule, blocks)[8 + 14 * k + 2]
         == "DTSTART:" + FormatIcsDate(EventDate(rule, Events(blocks)[k]), Events(blocks)[k].block.startTime)
    ensures IcsLines(rule, blocks)[8 + 14 * k + 3]
         == "DTEND:" + FormatIcsDate(EventDate(rule, Events(blocks)[k]), Events(blocks)[k].block.endTime)
  {
    IcsLayout(rule, blocks, k, 2);
    IcsLayout(rule, blocks, k, 3);
    EventStamps(rule, Events(blocks)[k]);
  }

  /** Two documents that share head and tail differ only in their middles. */
  lemma MiddleDiffers(head: seq<string>, x: seq<string>, y: seq<string>, tail: seq<string>, i: int)
    requires |x| == |y| && 0 <= i < |head + x + tail|
    requires (head + x + tail)[i] != (head + y + tail)[i]
    ensures |head| <= i < |head| + |x| && x[i - |head|] != y[i - |head|]
  {
  }

  /** With no sessions the document is the header and the footer alone. */
  lemma IcsEmpty(rule: DateRule, blocks: seq<Block>)
    requires TotalWeeks(blocks) == 0
    ensures IcsLines(rule, blocks) == HeaderLines + ["END:VCALENDAR"]
    ensures |IcsLines(rule, blocks)| == 9
  {
    assert Events(blocks) == [];
  }

  /** A line that starts differently from every line of `s` is not in `s`. */
  lemma Untagged(s: seq<string>, t: string)
    requires |t| > 0
    requires forall k :: 0 <= k < |s| ==> |s[k]| > 0 && s[k][0] != t[0]
    ensures multiset(s)[t] == 0
  {
    forall k | 0 <= k < |s|
      ensures s[k] != t
    {
    }
    assert t !in s;
  }

  /** Each event holds exactly one BEGIN:VEVENT and one BEGIN:VALARM line. */
  lemma EventLinesCount(rule: DateRule, e: Event)
    ensures multiset(EventLines(rule, e))["BEGIN:VEVENT"] == 1
    ensures multiset(EventLines(rule, e))["BEGIN:VALARM"] == 1
  {
    FrameCount(EventDetails(rule, e), AlarmLines(e.block));
  }
  lemma FrameCount(d: seq<string>, al: seq<string>)
    requires forall k :: 0 <= k < |d| ==> |d[k]| > 0 && d[k][0] != 'B'
    requires |al| > 0 && al[0] == "BEGIN:VALARM"
    requires forall k :: 1 <= k < |al| ==> |al[k]| > 0 && al[k][0] != 'B'
    ensures multiset(Frame(d, al))["BEGIN:VEVENT"] == 1
    ensures multiset(Frame(d, al))["BEGIN:VALARM"] == 1
  {
    var v := "BEGIN:VEVENT";
    var a := "BEGIN:VALARM";
    assert v != a by { assert v[7] != a[7]; }
    Untagged(d, v);
    Untagged(d, a);
    Untagged(al[1..], v);
    Untagged(al[1..], a);
    assert al == [a] + al[1..];
    assert "END:VEVENT"[0] != 'B';
    assert Frame(d, al) == [v] + d + ([a] + al[1..]) + ["END:VEVENT"];
  }

  lemma HeaderUntagged()
    ensures multiset(HeaderLines)["BEGIN:VEVENT"] == 0
    ensures multiset(HeaderLines)["BEGIN:VALARM"] == 0
  {
    assert forall k :: 0 <= k < |HeaderLines| ==> |HeaderLines[k]| != 12;
    OtherLengths(HeaderLines, "BEGIN:VEVENT");
    OtherLengths(HeaderLines, "BEGIN:VALARM");
  }

  lemma OtherLengths(s: seq<string>, t: string)
    requires forall k :: 0 <= k < |s| ==> |s[k]| != |t|
    ensures multiset(s)[t] == 0
  {
    forall k | 0 <= k < |s|
      ensures s[k] != t
    {
    }
    assert t !in s;
  }

  /** The document holds exactly one VEVENT, and one VALARM, per session
      and active week. */
  lemma IcsEventCount(rule: DateRule, blocks: seq<Block>)
    ensures multiset(IcsLines(rule, blocks))["BEGIN:VEVENT"] == TotalWeeks(blocks)
    ensures multiset(IcsLines(rule, blocks))["BEGIN:VALARM"] == TotalWeeks(blocks)
  {
    EventBodyCount(rule, Events(blocks));
    HeaderUntagged();
    IcsLineCount(rule, blocks, "BEGIN:VEVENT");
    IcsLineCount(rule, blocks, "BEGIN:VALARM");
  }

  lemma IcsLineCount(rule: DateRule, blocks: seq<Block>, t: string)
    requires |t| > 0 && t[0] == 'B'
    requires multiset(HeaderLines)[t] == 0
    requires multiset(EventBody(rule, Events(blocks)))[t] == TotalWeeks(blocks)
    ensures multiset(IcsLines(rule, blocks))[t] == TotalWeeks(blocks)
  {
    assert FooterLine[0] != t[0];
    CountThree(HeaderLines, EventBody(rule, Events(blocks)), [FooterLine], t);
  }
}

=== FILE: numerals.dfy ===
/** Decimal numerals: JavaScript's `String(n)`, `padStart(2, '0')`,
    `parseInt` and `Number` on the integer inputs the timetable code sees. */
module Numerals {
  import opened Text

  predicate IsDigit(c: char) {
    '0' <= c <= '9'
  }

  predicate AllDigits(s: string) {
    forall i :: 0 <= i < |s| ==> IsDigit(s[i])
  }

  function DigitChar(d: nat): (c: char)
    requires d < 10
    ensures IsDigit(c) && c as int - '0' as int == d
  {
    ('0' as int + d) as char
  }

  /** The value of a string of decimal digits, most significant first. */
  function DigitsValue(s: string): nat
    requires AllDigits(s)
    decreases |s|
  {
    if |s| == 0 then 0
    else 10 * DigitsValue(s[..|s| - 1]) + (s[|s| - 1] as int - '0' as int)
  }

  /** `String(n)` for a non-negative integer: the shortest decimal numeral,
      which reads back as `n`. */
  function NatToString(n: nat): (s: string)
    ensures 1 <= |s| && AllDigits(s)
    ensures DigitsValue(s) == n
    ensures |s| > 1 ==> s[0] != '0'
    ensures |s| == 1 <==> n < 10
    ensures |s| == 2 <==> 10 <= n < 100
    ensures |s| == 4 <==> 1000 <= n < 10000
    decreases n
  {
    if n < 10 then [DigitChar(n)]
    else
      var p := NatToString(n / 10);
      var s := p + [DigitChar(n % 10)];
      assert s[..|s| - 1] == p;
      s
  }

  /** `String(i)` for any integer: a minus sign before negative numbers. */
  function IntToString(i: int): (s: string)
    ensures |s| >= 1
    ensures i >= 0 ==> AllDigits(s)
    ensures i < 0 ==> s[0] == '-' && AllDigits(s[1..])
  {
    if i < 0 then "-" + NatToString(-i) else NatToString(i)
  }

  /** Different integers print differently. */
  lemma IntToStringInjective(a: int, b: int)
    requires IntToString(a) == IntToString(b)
    ensures a == b
  {
    if a < 0 && b < 0 {
      assert NatToString(-a) == IntToString(a)[1..];
      assert NatToString(-b) == IntToString(b)[1..];
    } else if a >= 0 && b >= 0 {
    }
  }

  /** `String(n).padStart(2, '0')`. */
  function PadTwo(n: nat): (s: string)
    ensures AllDigits(s)
    ensures n < 100 ==> |s| == 2 && DigitsValue(s) == n
    ensures n >= 100 ==> s == NatToString(n)
  {
    var d := NatToString(n);
    if |d| < 2 then
      var s := "0" + d;
      assert s[..1] == "0";
      s
    else d
  }

  /** The longest prefix of `s` made of decimal digits. */
  function DigitPrefix(s: string): (p: string)
    ensures StartsWith(s, p) && AllDigits(p)
    ensures |p| < |s| ==> !IsDigit(s[|p|])
    decreases |s|
  {
    if |s| > 0 && IsDigit(s[0]) then [s[0]] + DigitPrefix(s[1..]) else ""
  }

  /** `parseInt(s)` (radix 10): leading white space and one sign are
      skipped, then the longest run of digits is read; `None` is `NaN`. */
  function ParseInt(s: string): (r: Option<int>)
    ensures r.None? <==> |DigitPrefix(Unsigned(TrimStart(s)))| == 0
    ensures r.Some? && '-' !in s ==> r.value >= 0
    ensures r.Some? ==> r.value == (if TrimStart(s)[0] == '-' then -1 else 1) * DigitsValue(DigitPrefix(Unsigned(TrimStart(s))))
  {
    var t := TrimStart(s);
    assert |t| > 0 ==> t[0] == s[|s| - |t|];
    var d := DigitPrefix(Unsigned(t));
    if |d| == 0 then None
    else
      var v: int := DigitsValue(d);
      if |t| > 0 && t[0] == '-' then Some(-v) else Some(v)
  }

  /** `t` without a leading `+` or `-`. */
  function Unsigned(t: string): string {
    if |t| > 0 && (t[0] == '+' || t[0] == '-') then t[1..] else t
  }

  /** A string of digits is its own digit prefix. */
  lemma {:induction false} DigitPrefixAll(s: string)
    requires AllDigits(s)
    ensures DigitPrefix(s) == s
    decreases |s|
  {
    if |s| > 0 {
      DigitPrefixAll(s[1..]);
    }
  }

  /** `parseInt(String(n))` is `n`: numerals read back as the number printed. */
  lemma ParseIntOfNatToString(n: nat)
    ensures ParseInt(NatToString(n)) == Some(n)
  {
    var s := NatToString(n);
    assert IsDigit(s[0]);
    assert !IsSpace(s[0]);
    assert TrimStart(s) == s;
    assert Unsigned(s) == s;
    DigitPrefixAll(s);
    assert DigitPrefix(Unsigned(TrimStart(s))) == s;
  }

  /** `Number(s)` restricted to plain decimal numerals: surrounding white
      space is ignored, the empty string is 0, a run of digits is its value;
      any other text is `None`, which covers JavaScript's `NaN` but also the
      signed, fractional and exponent forms `Number` would accept. */
  function ParseNumber(s: string): (r: Option<nat>)
    ensures AllDigits(Trim(s)) <==> r.Some?
    ensures |Trim(s)| == 0 ==> r == Some(0)
    ensures r.Some? ==> r.value == DigitsValue(Trim(s))
  {
    var t := Trim(s);
    if AllDigits(t) then Some(DigitsValue(t)) else None
  }

  /** `Number(String(n).padStart(2, '0'))` is `n` for two-digit values. */
  lemma ParseNumberOfPadTwo(n: nat)
    requires n < 100
    ensures ParseNumber(PadTwo(n)) == Some(n)
  {
    var s := PadTwo(n);
    assert !IsSpace(s[0]) && !IsSpace(s[1]);
    TrimNoSpace(s);
  }
}

=== FILE: seqs.dfy ===
/** Sequence operations the timetable code performs through `Array`
    methods: `filter`, `flat`, and the first-occurrence de-duplication of
    `[...new Set(xs)]`. */
module Seqs {

  /** `a` is `b` with some elements left out, the rest kept in order. */
  ghost predicate IsSubsequence<T>(a: seq<T>, b: seq<T>)
    decreases |b|
  {
    |a| == 0 || (|b| > 0 && ((a[0] == b[0] && IsSubsequence(a[1..], b[1..])) || IsSubsequence(a, b[1..])))
  }

  /** Every element of a subsequence is an element of the sequence. */
  lemma {:induction false} SubsequenceMembers<T>(a: seq<T>, b: seq<T>, x: T)
    requires IsSubsequence(a, b) && x in a
    ensures x in b
    decreases |b|
  {
    if a[0] == b[0] && IsSubsequence(a[1..], b[1..]) {
      if x != a[0] {
        SubsequenceMembers(a[1..], b[1..], x);
      }
    } else {
      SubsequenceMembers(a, b[1..], x);
    }
  }

  /** A subsequence keeps the property "no two elements have the same image
      under `f`". */
  lemma {:induction false} SubsequenceInjective<T, K>(a: seq<T>, b: seq<T>, f: T -> K)
    requires IsSubsequence(a, b)
    requires forall i, j :: 0 <= i < j < |b| ==> f(b[i]) != f(b[j])
    ensures forall i, j :: 0 <= i < j < |a| ==> f(a[i]) != f(a[j])
    decreases |b|
  {
    if |a| > 0 {
      if a[0] == b[0] && IsSubsequence(a[1..], b[1..]) {
        SubsequenceInjective(a[1..], b[1..], f);
        forall j | 1 <= j < |a|
          ensures f(a[0]) != f(a[j])
        {
          assert a[1..][j - 1] == a[j];
          SubsequenceMembers(a[1..], b[1..], a[j]);
          var m :| 0 <= m < |b[1..]| && b[1..][m] == a[j];
          assert b[m + 1] == a[j];
        }
        forall i, j | 0 <= i < j < |a|
          ensures f(a[i]) != f(a[j])
        {
          if i > 0 {
            assert a[1..][i - 1] == a[i] && a[1..][j - 1] == a[j];
          }
        }
      } else {
        SubsequenceInjective(a, b[1..], f);
      }
    }
  }

  /** `s.filter(p)`: the elements satisfying `p`, in their original order. */
  function Filter<T(!new)>(s: seq<T>, p: T -> bool): (r: seq<T>)
    ensures |r| <= |s|
    ensures forall i :: 0 <= i < |r| ==> p(r[i])
    ensures forall x :: multiset(r)[x] == if p(x) then multiset(s)[x] else 0
    ensures IsSubsequence(r, s)
    decreases |s|
  {
    if |s| == 0 then []
    else
      var rest := Filter(s[1..], p);
      assert s == [s[0]] + s[1..];
      if p(s[0]) then
        assert ([s[0]] + rest)[1..] == rest;
        [s[0]] + rest
      else rest
  }

  /** Membership form of `Filter`'s multiplicity contract. */
  lemma FilterMembership<T(!new)>(s: seq<T>, p: T -> bool, x: T)
    ensures x in Filter(s, p) <==> x in s && p(x)
  {
    assert x in Filter(s, p) <==> multiset(Filter(s, p))[x] > 0;
    assert x in s <==> multiset(s)[x] > 0;
  }

  lemma {:induction false} FilterAppend<T(!new)>(a: seq<T>, b: seq<T>, p: T -> bool)
    ensures Filter(a + b, p) == Filter(a, p) + Filter(b, p)
    decreases |a|
  {
    if |a| > 0 {
      assert (a + b)[1..] == a[1..] + b;
      FilterAppend(a[1..], b, p);
    } else {
      assert a + b == b;
    }
  }

  /** An element that passes the filter is kept: its position in the
      result. */
  lemma {:induction false} FilterKeepsOne<T(!new)>(s: seq<T>, p: T -> bool, a: int) returns (i: nat)
    requires 0 <= a < |s| && p(s[a])
    ensures i < |Filter(s, p)| && Filter(s, p)[i] == s[a]
    decreases |s|
  {
    if a == 0 {
      i := 0;
    } else {
      assert s[1..][a - 1] == s[a];
      var k := FilterKeepsOne(s[1..], p, a - 1);
      i := StepPast(s, p, k);
    }
  }

  /** Two elements that pass the filter are kept at two positions, in
      their original order. */
  lemma {:induction false} FilterKeepsPair<T(!new)>(s: seq<T>, p: T -> bool, a: int, b: int) returns (i: nat, j: nat)
    requires 0 <= a < b < |s| && p(s[a]) && p(s[b])
    ensures i < j < |Filter(s, p)|
    ensures Filter(s, p)[i] == s[a] && Filter(s, p)[j] == s[b]
    decreases |s|
  {
    assert s[1..][b - 1] == s[b];
    if a == 0 {
      var k := FilterKeepsOne(s[1..], p, b - 1);
      i := 0;
      j := StepPast(s, p, k);
    } else {
      assert s[1..][a - 1] == s[a];
      var x, y := FilterKeepsPair(s[1..], p, a - 1, b - 1);
      i := StepPast(s, p, x);
      j := StepPast(s, p, y);
    }
  }

  /** Position `k` of the filtered tail is position `k` or `k + 1` of the
      filtered whole, as the head is dropped or kept. */
  lemma StepPast<T(!new)>(s: seq<T>, p: T -> bool, k: nat) returns (i: nat)
    requires |s| > 0 && k < |Filter(s[1..], p)|
    ensures i == (if p(s[0]) then k + 1 else k)
    ensures i < |Filter(s, p)| && Filter(s, p)[i] == Filter(s[1..], p)[k]
  {
    i := if p(s[0]) then k + 1 else k;
  }

  /** Filtering keeps everything when every element passes. */
  lemma {:induction false} FilterAll<T(!new)>(s: seq<T>, p: T -> bool)
    requires forall i :: 0 <= i < |s| ==> p(s[i])
    ensures Filter(s, p) == s
    decreases |s|
  {
    if |s| > 0 {
      FilterAll(s[1..], p);
    }
  }

  /** Filtering keeps nothing when no element passes. */
  lemma {:induction false} FilterNone<T(!new)>(s: seq<T>, p: T -> bool)
    requires forall i :: 0 <= i < |s| ==> !p(s[i])
    ensures Filter(s, p) == []
    decreases |s|
  {
    if |s| > 0 {
      FilterNone(s[1..], p);
    }
  }

  /** `s.findIndex(p)`: the first position whose element satisfies `p`,
      or -1 when none does. */
  function FindIndex<T>(s: seq<T>, p: T -> bool): (i: int)
    ensures -1 <= i < |s|
    ensures 0 <= i ==> p(s[i])
    ensures i == -1 ==> forall j :: 0 <= j < |s| ==> !p(s[j])
    ensures 0 <= i ==> forall j :: 0 <= j < i ==> !p(s[j])
    decreases |s|
  {
    if |s| == 0 then -1
    else if p(s[0]) then 0
    else
      var k := FindIndex(s[1..], p);
      assert forall j :: 1 <= j < |s| ==> s[j] == s[1..][j - 1];
      if k == -1 then -1 else k + 1
  }

  /** `s.map(f)`. */
  function Map<A, B>(s: seq<A>, f: A -> B): (r: seq<B>)
    ensures |r| == |s|
    ensures forall i :: 0 <= i < |s| ==> r[i] == f(s[i])
  {
    seq(|s|, i requires 0 <= i < |s| => f(s[i]))
  }

  /** The values of `Map(s, f)` are the images of the elements of `s`. */
  lemma MapMembership<A, B>(s: seq<A>, f: A -> B, y: B)
    ensures y in Map(s, f) <==> exists x :: x in s && f(x) == y
  {
    if y in Map(s, f) {
      var i :| 0 <= i < |s| && Map(s, f)[i] == y;
      assert s[i] in s;
    }
    if x :| x in s && f(x) == y {
      var i :| 0 <= i < |s| && s[i] == x;
      assert Map(s, f)[i] == y;
    }
  }

  /** Mapping distributes over concatenation. */
  lemma MapAppend<A, B>(a: seq<A>, b: seq<A>, f: A -> B)
    ensures Map(a + b, f) == Map(a, f) + Map(b, f)
  {
    assert forall i :: 0 <= i < |a + b| ==> Map(a + b, f)[i] == (Map(a, f) + Map(b, f))[i] by {
      forall i | 0 <= i < |a + b|
        ensures Map(a + b, f)[i] == (Map(a, f) + Map(b, f))[i]
      {
        if i < |a| {
          assert (a + b)[i] == a[i];
        } else {
          assert (a + b)[i] == b[i - |a|];
        }
      }
    }
  }

  /** `FlattenUniformAt` for the flattening of a map. */
  lemma FlattenMapAt<A, B>(xs: seq<A>, f: A -> seq<B>, n: nat, k: int, j: int)
    requires forall i :: 0 <= i < |xs| ==> |f(xs[i])| == n
    requires 0 <= k < |xs| && 0 <= j < n
    ensures n * k + j < |Flatten(Map(xs, f))| && Flatten(Map(xs, f))[n * k + j] == f(xs[k])[j]
  {
    FlattenUniformAt(Map(xs, f), n, k, j);
  }

  /** The three parts of `a + b + c` sliced back out. */
  lemma ThreeParts<T>(a: seq<T>, b: seq<T>, c: seq<T>)
    ensures (a + b + c)[..|a|] == a
    ensures (a + b + c)[|a|..|a| + |b|] == b
    ensures (a + b + c)[|a| + |b|..] == c
  {
  }

  /** Occurrences in `a + b + c` are those in the three parts. */
  lemma CountThree<T>(a: seq<T>, b: seq<T>, c: seq<T>, x: T)
    ensures multiset(a + b + c)[x] == multiset(a)[x] + multiset(b)[x] + multiset(c)[x]
  {
    assert multiset(a + b + c) == multiset(a) + multiset(b) + multiset(c);
  }

  /** Two sequences framed by the same prefix and suffix are equal when the
      framed sequences are. */
  lemma MiddleEqual<T>(a: seq<T>, x: seq<T>, y: seq<T>, c: seq<T>)
    requires a + x + c == a + y + c
    ensures x == y
  {
    ThreeParts(a, x, c);
    ThreeParts(a, y, c);
  }

  /** Concatenation is associative. */
  lemma AppendAssoc<T>(a: seq<T>, b: seq<T>, c: seq<T>)
    ensures (a + b) + c == a + (b + c)
  {
  }

  /** `ss.flat()`: the concatenation of the inner sequences, in order. */
  function Flatten<T>(ss: seq<seq<T>>): (r: seq<T>)
    ensures |ss| == 0 ==> r == []
    decreases |ss|
  {
    if |ss| == 0 then [] else ss[0] + Flatten(ss[1..])
  }

  /** An element of the flattening comes from one of the inner sequences. */
  lemma {:induction false} FlattenMembership<T>(ss: seq<seq<T>>, x: T)
    ensures x in Flatten(ss) <==> exists i :: 0 <= i < |ss| && x in ss[i]
    decreases |ss|
  {
    if |ss| > 0 {
      FlattenMembership(ss[1..], x);
      if x in Flatten(ss[1..]) {
        var i :| 0 <= i < |ss[1..]| && x in ss[1..][i];
        assert x in ss[i + 1];
      }
      if i :| 0 <= i < |ss| && x in ss[i] {
        if i > 0 {
          assert x in ss[1..][i - 1];
        }
      }
    }
  }

  /** Flattening distributes over concatenation. */
  lemma {:induction false} FlattenAppend<T>(a: seq<seq<T>>, b: seq<seq<T>>)
    ensures Flatten(a + b) == Flatten(a) + Flatten(b)
    decreases |a|
  {
    if |a| == 0 {
      assert a + b == b;
    } else {
      assert (a + b)[1..] == a[1..] + b;
      FlattenAppend(a[1..], b);
    }
  }

  /** Inner sequences of one length `n` lie end to end: `n` elements each. */
  lemma {:induction false} FlattenUniformLength<T>(ss: seq<seq<T>>, n: nat)
    requires forall i :: 0 <= i < |ss| ==> |ss[i]| == n
    ensures |Flatten(ss)| == n * |ss|
    decreases |ss|
  {
    if |ss| > 0 {
      FlattenUniformLength(ss[1..], n);
      MulStep(n, |ss|);
    }
  }

  lemma MulStep(n: int, k: int)
    ensures n * k == n * (k - 1) + n
  {
  }

  /** With inner sequences of one length `n`, element `j` of the `k`-th
      sits at `n * k + j` of the flattening. */
  lemma {:induction false} FlattenUniformAt<T>(ss: seq<seq<T>>, n: nat, k: int, j: int)
    requires forall i :: 0 <= i < |ss| ==> |ss[i]| == n
    requires 0 <= k < |ss| && 0 <= j < n
    ensures n * k + j < |Flatten(ss)| && Flatten(ss)[n * k + j] == ss[k][j]
    decreases k
  {
    var rest := Flatten(ss[1..]);
    assert Flatten(ss) == ss[0] + rest;
    FlattenUniformLength(ss[1..], n);
    MulStep(n, k);
    if k == 0 {
      assert n * k + j == j;
    } else {
      FlattenUniformAt(ss[1..], n, k - 1, j);
      var p := n * (k - 1) + j;
      assert n * k + j == p + n;
      assert Flatten(ss)[p + n] == rest[p];
    }
  }

  /** A value that occurs once in every inner sequence occurs once per inner
      sequence in the flattening. */
  lemma {:induction false} FlattenCount<T>(ss: seq<seq<T>>, x: T)
    requires forall i :: 0 <= i < |ss| ==> multiset(ss[i])[x] == 1
    ensures multiset(Flatten(ss))[x] == |ss|
    decreases |ss|
  {
    if |ss| > 0 {
      FlattenCount(ss[1..], x);
      assert multiset(Flatten(ss)) == multiset(ss[0]) + multiset(Flatten(ss[1..]));
    }
  }

  /** The position of the first occurrence of `x` in `s`. */
  function FirstIndex<T(==)>(s: seq<T>, x: T): (i: nat)
    requires x in s
    ensures i < |s| && s[i] == x
    ensures forall k :: 0 <= k < i ==> s[k] != x
    decreases |s|
  {
    if s[0] == x then 0 else 1 + FirstIndex(s[1..], x)
  }

  /** Dropping the last element leaves earlier first occurrences in place. */
  lemma {:induction false} FirstIndexPrefix<T>(s: seq<T>, x: T)
    requires |s| > 0 && x in s[..|s| - 1]
    ensures FirstIndex(s, x) == FirstIndex(s[..|s| - 1], x)
    decreases |s|
  {
    var pre := s[..|s| - 1];
    assert pre[0] == s[0];
    if s[0] != x {
      var t := s[1..];
      assert t[..|t| - 1] == pre[1..];
      assert x in pre[1..];
      FirstIndexPrefix(t, x);
    }
  }

  /** `[...new Set(s)]`: each value once, at the place it first occurs. */
  function Distinct<T(==,!new)>(s: seq<T>): (r: seq<T>)
    ensures forall x :: x in r <==> x in s
    ensures forall i, j :: 0 <= i < j < |r| ==> r[i] != r[j]
    ensures forall i, j :: 0 <= i < j < |r| ==> FirstIndex(s, r[i]) < FirstIndex(s, r[j])
    decreases |s|
  {
    if |s| == 0 then []
    else
      var pre := s[..|s| - 1];
      var init := Distinct(pre);
      assert forall x :: x in s <==> x in pre || x == s[|s| - 1] by {
        assert s == pre + [s[|s| - 1]];
      }
      forall x | x in pre
        ensures FirstIndex(s, x) == FirstIndex(pre, x) < |s| - 1
      {
        FirstIndexPrefix(s, x);
      }
      if s[|s| - 1] in init then init
      else
        assert FirstIndex(s, s[|s| - 1]) == |s| - 1;
        init + [s[|s| - 1]]
  }

  /** A non-empty sequence has exactly one distinct value iff all its elements equal the first. */
  lemma DistinctSingleton<T(!new)>(s: seq<T>)
    requires |s| > 0
    ensures |Distinct(s)| == 1 <==> forall i :: 0 <= i < |s| ==> s[i] == s[0]
  {
    var d := Distinct(s);
    assert s[0] in s;
    if |d| == 1 {
      forall i | 0 <= i < |s|
        ensures s[i] == s[0]
      {
        assert s[i] in s;
      }
    }
    if forall i :: 0 <= i < |s| ==> s[i] == s[0] {
      forall k | 0 <= k < |d|
        ensures d[k] == s[0]
      {
        assert d[k] in d;
      }
      assert s[0] in d;
    }
  }
}

=== FILE: sorting.dfy ===
/** Sorted, duplicate-free sequences: what `Array.from(new Set(xs)).sort(cmp)`
    produces, for numbers (`cmp = (a, b) => a - b`) and for strings (the
    default code-unit order of `sort()`). */
module Sorting {

  /** Strictly increasing: sorted with no value twice. */
  predicate Ascending(s: seq<int>) {
    forall i, j :: 0 <= i < j < |s| ==> s[i] < s[j]
  }

  /** `x` placed into an ascending sequence, unless it is already there. */
  function InsertInt(s: seq<int>, x: int): (r: seq<int>)
    requires Ascending(s)
    ensures Ascending(r)
    ensures forall y :: y in r <==> y in s || y == x
    decreases |s|
  {
    if |s| == 0 then [x]
    else if x < s[0] then [x] + s
    else if x == s[0] then s
    else
      var t := InsertInt(s[1..], x);
      assert forall y :: y in s <==> y == s[0] || y in s[1..];
      assert forall k :: 0 <= k < |t| ==> s[0] < t[k] by {
        forall k | 0 <= k < |t| ensures s[0] < t[k] {
          assert t[k] in t;
          if t[k] != x {
            var m :| 0 <= m < |s[1..]| && s[1..][m] == t[k];
            assert s[m + 1] == t[k];
          }
        }
      }
      var r := [s[0]] + t;
      assert forall i, j :: 0 <= i < j < |r| ==> r[i] < r[j] by {
        forall i, j | 0 <= i < j < |r| ensures r[i] < r[j] {
          assert r[j] == t[j - 1];
          if i > 0 {
            assert r[i] == t[i - 1];
          }
        }
      }
      r
  }

  /** The distinct values of `s` in increasing order. */
  function SortUniqueInts(s: seq<int>): (r: seq<int>)
    ensures Ascending(r)
    ensures forall y :: y in r <==> y in s
    decreases |s|
  {
    if |s| == 0 then []
    else
      var init := s[..|s| - 1];
      assert forall y :: y in s <==> y in init || y == s[|s| - 1] by {
        assert s == init + [s[|s| - 1]];
      }
      InsertInt(SortUniqueInts(init), s[|s| - 1])
  }

  /** An ascending sequence is determined by its set of values. */
  lemma {:induction false} AscendingUnique(a: seq<int>, b: seq<int>)
    requires Ascending(a) && Ascending(b)
    requires forall y :: y in a <==> y in b
    ensures a == b
    decreases |a|
  {
    if |a| > 0 {
      assert a[0] in a;
    }
    if |b| > 0 {
      assert b[0] in b;
    }
    if |a| > 0 && |b| > 0 {
      SameLeast(a, b);
      SameTailValues(a, b);
      AscendingUnique(a[1..], b[1..]);
      assert a == [a[0]] + a[1..] && b == [b[0]] + b[1..];
    }
  }

  /** Two ascending sequences with the same values start with the same,
      least, value. */
  lemma SameLeast(a: seq<int>, b: seq<int>)
    requires Ascending(a) && Ascending(b) && |a| > 0 && |b| > 0
    requires a[0] in b && b[0] in a
    ensures a[0] == b[0]
  {
    var i :| 0 <= i < |b| && b[i] == a[0];
    var j :| 0 <= j < |a| && a[j] == b[0];
    assert a[0] <= a[j] && b[0] <= b[i];
  }

  /** Past their common least value, two ascending sequences with the same
      values still have the same values. */
  lemma SameTailValues(a: seq<int>, b: seq<int>)
    requires Ascending(a) && Ascending(b) && |a| > 0 && |b| > 0 && a[0] == b[0]
    requires forall y :: y in a <==> y in b
    ensures forall y :: y in a[1..] <==> y in b[1..]
  {
    forall y | y in a[1..]
      ensures y in b[1..]
    {
      TailValue(a, b, y);
    }
    forall y | y in b[1..]
      ensures y in a[1..]
    {
      TailValue(b, a, y);
    }
  }

  /** A value past the head of `a` is past the head of `b` too. */
  lemma TailValue(a: seq<int>, b: seq<int>, y: int)
    requires Ascending(a) && Ascending(b) && |a| > 0 && |b| > 0 && a[0] == b[0]
    requires y in a[1..] && y in b
    ensures y in b[1..]
  {
    var i :| 0 <= i < |a[1..]| && a[1..][i] == y;
    assert a[i + 1] == y;
    var k :| 0 <= k < |b| && b[k] == y;
    assert k != 0;
    assert b[1..][k - 1] == y;
  }

  /** String order of `Array.prototype.sort()` without a comparator:
      lexicographic by character, a proper prefix first. */
  predicate LexLess(a: string, b: string)
    decreases |a|
  {
    |b| > 0 && (|a| == 0 || a[0] < b[0] || (a[0] == b[0] && LexLess(a[1..], b[1..])))
  }

  lemma {:induction false} LexLessIrreflexive(a: string)
    ensures !LexLess(a, a)
    decreases |a|
  {
    if |a| > 0 {
      LexLessIrreflexive(a[1..]);
    }
  }

  lemma {:induction false} LexLessTransitive(a: string, b: string, c: string)
    requires LexLess(a, b) && LexLess(b, c)
    ensures LexLess(a, c)
    decreases |a|
  {
    if |a| > 0 && a[0] == b[0] && b[0] == c[0] {
      LexLessTransitive(a[1..], b[1..], c[1..]);
    }
  }

  lemma {:induction false} LexLessTotal(a: string, b: string)
    requires a != b
    ensures LexLess(a, b) || LexLess(b, a)
    decreases |a|
  {
    if |a| > 0 && |b| > 0 && a[0] == b[0] {
      assert a == [a[0]] + a[1..] && b == [b[0]] + b[1..];
      LexLessTotal(a[1..], b[1..]);
    }
  }

  /** Strictly increasing in string order. */
  predicate AscendingStrings(s: seq<string>) {
    forall i, j :: 0 <= i < j < |s| ==> LexLess(s[i], s[j])
  }

  /** `x` placed into an ascending sequence of strings, unless already there. */
  function InsertString(s: seq<string>, x: string): (r: seq<string>)
    requires AscendingStrings(s)
    ensures AscendingStrings(r)
    ensures forall y :: y in r <==> y in s || y == x
    decreases |s|
  {
    if |s| == 0 then [x]
    else if LexLess(x, s[0]) then
      assert forall j :: 0 <= j < |s| ==> LexLess(x, s[j]) by {
        forall j | 0 < j < |s| {
          LexLessTransitive(x, s[0], s[j]);
        }
      }
      [x] + s
    else if x == s[0] then s
    else
      LexLessTotal(x, s[0]);
      var t := InsertString(s[1..], x);
      assert forall y :: y in s <==> y == s[0] || y in s[1..];
      forall j | 0 <= j < |t|
        ensures LexLess(s[0], t[j])
      {
        if t[j] != x {
          assert t[j] in t;
          assert t[j] in s[1..];
          var k :| 0 <= k < |s[1..]| && s[1..][k] == t[j];
          assert s[k + 1] == t[j];
        }
      }
      [s[0]] + t
  }

  /** The distinct strings of `s` in increasing order. */
  function SortUniqueStrings(s: seq<string>): (r: seq<string>)
    ensures AscendingStrings(r)
    ensures forall y :: y in r <==> y in s
    decreases |s|
  {
    if |s| == 0 then []
    else
      var init := s[..|s| - 1];
      assert forall y :: y in s <==> y in init || y == s[|s| - 1] by {
        assert s == init + [s[|s| - 1]];
      }
      InsertString(SortUniqueStrings(init), s[|s| - 1])
  }

  /** An ascending sequence of strings has no value twice. */
  lemma AscendingStringsDistinct(s: seq<string>, i: int, j: int)
    requires AscendingStrings(s)
    requires 0 <= i < |s| && 0 <= j < |s| && i != j
    ensures s[i] != s[j]
  {
    if i < j {
      LexLessIrreflexive(s[i]);
    } else {
      LexLessIrreflexive(s[j]);
    }
  }

  /** An ascending sequence of strings is determined by its set of values. */
  lemma {:induction false} AscendingStringsUnique(a: seq<string>, b: seq<string>)
    requires AscendingStrings(a) && AscendingStrings(b)
    requires forall y :: y in a <==> y in b
    ensures a == b
    decreases |a|
  {
    if |a| > 0 {
      assert a[0] in a;
    }
    if |b| > 0 {
      assert b[0] in b;
    }
    if |a| > 0 && |b| > 0 {
      SameLeastString(a, b);
      forall y | y in a[1..]
        ensures y in b[1..]
      {
        TailString(a, b, y);
      }
      forall y | y in b[1..]
        ensures y in a[1..]
      {
        TailString(b, a, y);
      }
      AscendingStringsUnique(a[1..], b[1..]);
      assert a == [a[0]] + a[1..] && b == [b[0]] + b[1..];
    }
  }

  /** Two ascending sequences of strings with the same values start with
      the same, least, value. */
  lemma SameLeastString(a: seq<string>, b: seq<string>)
    requires AscendingStrings(a) && AscendingStrings(b) && |a| > 0 && |b| > 0
    requires a[0] in b && b[0] in a
    ensures a[0] == b[0]
  {
    var i :| 0 <= i < |b| && b[i] == a[0];
    var j :| 0 <= j < |a| && a[j] == b[0];
    if i > 0 && j > 0 {
      LexLessTransitive(a[0], b[0], a[0]);
      LexLessIrreflexive(a[0]);
    }
  }

  /** A value past the head of `a` is past the (same) head of `b` too. */
  lemma TailString(a: seq<string>, b: seq<string>, y: string)
    requires AscendingStrings(a) && AscendingStrings(b) && |a| > 0 && |b| > 0 && a[0] == b[0]
    requires y in a[1..]
    requires forall z :: z in a <==> z in b
    ensures y in b[1..]
  {
    var i :| 0 <= i < |a[1..]| && a[1..][i] == y;
    assert a[i + 1] == y;
    assert y in b;
    var k :| 0 <= k < |b| && b[k] == y;
    if k == 0 {
      LexLessIrreflexive(y);
    }
    assert b[1..][k - 1] == y;
  }
}

=== FILE: text.dfy ===
/** Strings as sequences of characters, with the meaning that JavaScript's
    String methods give the operations the timetable code uses: `split`,
    `join`, `startsWith`, `includes`, `trim`, `toLowerCase` and a global
    single-character `replace`. */
module Text {

  /** An optional value; `None` stands for JavaScript's `undefined`/`NaN`. */
  datatype Option<+T> = None | Some(value: T)

  /** `s.startsWith(t)`. */
  predicate StartsWith(s: string, t: string) {
    |t| <= |s| && s[..|t|] == t
  }

  /** `s.endsWith(t)`. */
  predicate EndsWith(s: string, t: string) {
    |t| <= |s| && s[|s| - |t|..] == t
  }

  /** `s.includes(t)`: `t` starts at some position of `s`. */
  predicate Contains(s: string, t: string)
    decreases |s|
  {
    StartsWith(s, t) || (|s| > 0 && Contains(s[1..], t))
  }

  /** The recursive `Contains` agrees with "some position of `s` starts `t`". */
  lemma {:induction false} ContainsAt(s: string, t: string)
    ensures Contains(s, t) <==> exists i :: 0 <= i <= |s| && StartsWith(s[i..], t)
    decreases |s|
  {
    if |s| > 0 {
      ContainsAt(s[1..], t);
      if StartsWith(s, t) {
        assert s[0..] == s;
      } else if Contains(s[1..], t) {
        var i :| 0 <= i <= |s[1..]| && StartsWith(s[1..][i..], t);
        assert s[1..][i..] == s[i + 1..];
      }
      if i :| 0 <= i <= |s| && StartsWith(s[i..], t) {
        if i > 0 {
          assert s[1..][i - 1..] == s[i..];
        }
      }
    } else {
      if Contains(s, t) {
        assert s[0..] == s;
      }
      if i :| 0 <= i <= |s| && StartsWith(s[i..], t) {
        assert s[i..] == s;
      }
    }
  }

  /** A string in which the first three characters of `t` never occur in a
      row does not contain `t`. */
  lemma {:induction false} NotContainsByPrefix(s: string, t: string)
    requires |t| >= 3
    requires forall i :: 0 <= i && i + 3 <= |s| ==> !(s[i] == t[0] && s[i + 1] == t[1] && s[i + 2] == t[2])
    ensures !Contains(s, t)
    decreases |s|
  {
    assert !StartsWith(s, t) by {
      if |t| <= |s| {
        assert s[..|t|][0] == s[0] && s[..|t|][1] == s[1] && s[..|t|][2] == s[2];
      }
    }
    if |s| > 0 {
      var u := s[1..];
      forall i | 0 <= i && i + 3 <= |u|
        ensures !(u[i] == t[0] && u[i + 1] == t[1] && u[i + 2] == t[2])
      {
        assert u[i] == s[i + 1] && u[i + 1] == s[i + 2] && u[i + 2] == s[i + 3];
      }
      NotContainsByPrefix(u, t);
    }
  }

  /** A string in which the first two characters of `t` never occur in a
      row does not contain `t`. */
  lemma {:induction false} NotContainsByPair(s: string, t: string)
    requires |t| >= 2
    requires forall i :: 0 <= i && i + 2 <= |s| ==> !(s[i] == t[0] && s[i + 1] == t[1])
    ensures !Contains(s, t)
    decreases |s|
  {
    assert !StartsWith(s, t) by {
      if |t| <= |s| {
        assert s[..|t|][0] == s[0] && s[..|t|][1] == s[1];
      }
    }
    if |s| > 0 {
      var u := s[1..];
      forall i | 0 <= i && i + 2 <= |u|
        ensures !(u[i] == t[0] && u[i + 1] == t[1])
      {
        assert u[i] == s[i + 1] && u[i + 1] == s[i + 2];
      }
      NotContainsByPair(u, t);
    }
  }

  /** A string holds every character of any string it contains, at least
      as often. */
  lemma {:induction false} ContainsCounts(s: string, t: string)
    requires Contains(s, t)
    ensures multiset(t) <= multiset(s)
    decreases |s|
  {
    if StartsWith(s, t) {
      assert s == t + s[|t|..];
    } else {
      ContainsCounts(s[1..], t);
      assert s == [s[0]] + s[1..];
    }
  }

  /** A string with fewer copies of some character than `t` does not
      contain `t`. */
  lemma NotContainsByCount(s: string, t: string, c: char)
    requires multiset(s)[c] < multiset(t)[c]
    ensures !Contains(s, t)
  {
    if Contains(s, t) {
      ContainsCounts(s, t);
    }
  }

  /** A string that contains `t` also contains it once something is put in front. */
  lemma {:induction false} ContainsPrepend(p: string, s: string, t: string)
    requires Contains(s, t)
    ensures Contains(p + s, t)
    decreases |p|
  {
    if |p| > 0 {
      assert (p + s)[1..] == p[1..] + s;
      ContainsPrepend(p[1..], s, t);
    } else {
      assert p + s == s;
    }
  }

  /** A string contains `t` if its prefix does. */
  lemma {:induction false} ContainsAppend(s: string, q: string, t: string)
    requires Contains(s, t)
    ensures Contains(s + q, t)
    decreases |s|
  {
    if StartsWith(s, t) {
      assert (s + q)[..|t|] == s[..|t|];
    } else {
      assert (s + q)[1..] == s[1..] + q;
      ContainsAppend(s[1..], q, t);
    }
  }

  /** Containment is transitive. */
  lemma {:induction false} ContainsTrans(s: string, u: string, t: string)
    requires Contains(s, u) && Contains(u, t)
    ensures Contains(s, t)
    decreases |s|
  {
    if StartsWith(s, u) {
      assert s == u + s[|u|..];
      ContainsAppend(u, s[|u|..], t);
    } else {
      ContainsTrans(s[1..], u, t);
      assert s == [s[0]] + s[1..];
      ContainsPrepend([s[0]], s[1..], t);
    }
  }

  /** A string contains the slice `s[i..j]` of itself. */
  lemma ContainsSlice(s: string, i: int, j: int)
    requires 0 <= i <= j <= |s|
    ensures Contains(s, s[i..j])
  {
    assert StartsWith(s[i..], s[i..j]);
    ContainsAt(s, s[i..j]);
  }

  /** `parts.join(sep)`. */
  function Join(parts: seq<string>, sep: string): string
    decreases |parts|
  {
    if |parts| == 0 then ""
    else if |parts| == 1 then parts[0]
    else parts[0] + sep + Join(parts[1..], sep)
  }

  /** `s.split(sep)` for a one-character separator: the maximal
      separator-free pieces, in order; an empty string splits into `[""]`. */
  function Split(s: string, sep: char): (parts: seq<string>)
    ensures |parts| >= 1
    ensures sep in s ==> |parts| >= 2
    ensures forall i :: 0 <= i < |parts| ==> sep !in parts[i]
    decreases |s|
  {
    if |s| == 0 then [""]
    else
      var rest := Split(s[1..], sep);
      assert s == [s[0]] + s[1..];
      if s[0] == sep then [""] + rest
      else [[s[0]] + rest[0]] + rest[1..]
  }

  /** Joining the pieces of a split with the separator restores the string. */
  lemma {:induction false} JoinSplit(s: string, sep: char)
    ensures Join(Split(s, sep), [sep]) == s
    decreases |s|
  {
    if |s| > 0 {
      JoinSplit(s[1..], sep);
      var rest := Split(s[1..], sep);
      assert s == [s[0]] + s[1..];
      if s[0] == sep {
        JoinEmptyHead(rest, [sep]);
      } else {
        JoinExtendHead(s[0], rest, [sep]);
      }
    }
  }

  /** Putting an empty piece in front of a join puts a separator in front. */
  lemma JoinEmptyHead(rest: seq<string>, sep: string)
    requires |rest| >= 1
    ensures Join([""] + rest, sep) == sep + Join(rest, sep)
  {
    assert ([""] + rest)[1..] == rest;
  }

  /** Extending the first piece of a join extends the joined string. */
  lemma JoinExtendHead(c: char, rest: seq<string>, sep: string)
    requires |rest| >= 1
    ensures Join([[c] + rest[0]] + rest[1..], sep) == [c] + Join(rest, sep)
  {
    var parts := [[c] + rest[0]] + rest[1..];
    if |rest| > 1 {
      assert parts[1..] == rest[1..];
      assert Join(parts, sep) == [c] + (rest[0] + sep + Join(rest[1..], sep));
    }
  }

  /** Every piece of a split is contained in the split string. */
  lemma {:induction false} SplitPiecesContained(s: string, sep: char)
    ensures forall k :: 0 <= k < |Split(s, sep)| ==> Contains(s, Split(s, sep)[k])
    decreases |s|
  {
    var parts := Split(s, sep);
    if |s| == 0 {
      assert StartsWith(s, parts[0]);
    } else {
      var rest := Split(s[1..], sep);
      SplitPiecesContained(s[1..], sep);
      assert s == [s[0]] + s[1..];
      forall k | 0 <= k < |parts|
        ensures Contains(s, parts[k])
      {
        if s[0] == sep {
          if k == 0 {
            assert StartsWith(s, parts[0]);
          } else {
            assert parts[k] == rest[k - 1];
            ContainsPrepend([s[0]], s[1..], parts[k]);
          }
        } else if k == 0 {
          BeforeIsPrefix(s[1..], sep);
          assert s[..|parts[0]|] == [s[0]] + s[1..][..|rest[0]|];
        } else {
          assert parts[k] == rest[k];
          ContainsPrepend([s[0]], s[1..], parts[k]);
        }
      }
    }
  }

  /** A split has one more piece than there are separators. */
  lemma {:induction false} SplitCount(s: string, sep: char)
    ensures |Split(s, sep)| == 1 + multiset(s)[sep]
    decreases |s|
  {
    if |s| > 0 {
      SplitCount(s[1..], sep);
      assert s == [s[0]] + s[1..];
    }
  }

  /** `s.split(sep)[0]`: the part of `s` before its first separator. */
  function Before(s: string, sep: char): (r: string)
    ensures sep !in r
    ensures StartsWith(s, r)
    ensures |r| < |s| ==> s[|r|] == sep
  {
    var parts := Split(s, sep);
    BeforeIsPrefix(s, sep);
    parts[0]
  }

  lemma {:induction false} BeforeIsPrefix(s: string, sep: char)
    ensures StartsWith(s, Split(s, sep)[0])
    ensures |Split(s, sep)[0]| < |s| ==> s[|Split(s, sep)[0]|] == sep
    decreases |s|
  {
    if |s| > 0 {
      BeforeIsPrefix(s[1..], sep);
    }
  }

  /** A string without the separator splits into itself. */
  lemma {:induction false} SplitNoSep(s: string, sep: char)
    requires sep !in s
    ensures Split(s, sep) == [s]
    decreases |s|
  {
    if |s| > 0 {
      SplitNoSep(s[1..], sep);
      assert s == [s[0]] + s[1..];
    }
  }

  /** Splitting `a + [sep] + t` where `a` is separator-free peels off `a`. */
  lemma {:induction false} SplitCons(a: string, t: string, sep: char)
    requires sep !in a
    ensures Split(a + [sep] + t, sep) == [a] + Split(t, sep)
    decreases |a|
  {
    var s := a + [sep] + t;
    if |a| == 0 {
      assert s == [sep] + t;
      assert s[1..] == t;
    } else {
      assert s[0] == a[0] && s[0] != sep;
      assert s[1..] == a[1..] + [sep] + t;
      SplitCons(a[1..], t, sep);
      var rest := Split(s[1..], sep);
      assert rest[0] == a[1..] && rest[1..] == Split(t, sep);
      assert [a[0]] + a[1..] == a;
      assert Split(s, sep) == [[a[0]] + rest[0]] + rest[1..];
    }
  }

  /** Splitting a join gives the parts back when no part holds the separator. */
  lemma {:induction false} SplitJoin(parts: seq<string>, sep: char)
    requires |parts| >= 1
    requires forall i :: 0 <= i < |parts| ==> sep !in parts[i]
    ensures Split(Join(parts, [sep]), sep) == parts
    decreases |parts|
  {
    if |parts| == 1 {
      SplitNoSep(parts[0], sep);
    } else {
      SplitJoin(parts[1..], sep);
      assert Join(parts, [sep]) == parts[0] + [sep] + Join(parts[1..], [sep]);
      SplitCons(parts[0], Join(parts[1..], [sep]), sep);
      assert [parts[0]] + parts[1..] == parts;
    }
  }

  /** Characters JavaScript's `String.prototype.trim` removes: the white
      space and line terminator code points of ECMA-262. */
  predicate IsSpace(c: char) {
    c == ' ' || c == '\t' || c == '\n' || c == '\r' || c == '\U{000B}' || c == '\U{000C}'
    || c == '\U{00A0}' || c == '\U{1680}' || ('\U{2000}' <= c <= '\U{200A}')
    || c == '\U{2028}' || c == '\U{2029}' || c == '\U{202F}' || c == '\U{205F}'
    || c == '\U{3000}' || c == '\U{FEFF}'
  }

  function TrimStart(s: string): (r: string)
    ensures |r| <= |s| && r == s[|s| - |r|..]
    ensures forall i :: 0 <= i < |s| - |r| ==> IsSpace(s[i])
    ensures |r| > 0 ==> !IsSpace(r[0])
    decreases |s|
  {
    if |s| > 0 && IsSpace(s[0]) then TrimStart(s[1..]) else s
  }

  /** How many characters of white space `s` starts with. */
  function LeadingSpace(s: string): (n: nat)
    ensures n <= |s|
    ensures forall i :: 0 <= i < n ==> IsSpace(s[i])
    ensures n < |s| ==> !IsSpace(s[n])
    decreases |s|
  {
    if |s| > 0 && IsSpace(s[0]) then
      var n := 1 + LeadingSpace(s[1..]);
      assert forall i :: 1 <= i < n ==> s[i] == s[1..][i - 1];
      n
    else 0
  }

  /** How many characters of white space `s` ends with. */
  function TrailingSpace(s: string): (n: nat)
    ensures n <= |s|
    ensures forall i :: |s| - n <= i < |s| ==> IsSpace(s[i])
    ensures n < |s| ==> !IsSpace(s[|s| - 1 - n])
    decreases |s|
  {
    if |s| > 0 && IsSpace(s[|s| - 1]) then
      var t := s[..|s| - 1];
      var n := 1 + TrailingSpace(t);
      assert forall i :: |s| - n <= i < |s| - 1 ==> s[i] == t[i];
      n
    else 0
  }

  /** `r` is `s[i..]` cut down to `|r|` characters with only white space around it. */
  ghost predicate TrimmedAt(s: string, r: string, i: int) {
    && 0 <= i <= |s| - |r|
    && r == s[i..i + |r|]
    && (forall k :: 0 <= k < i ==> IsSpace(s[k]))
    && (forall k :: i + |r| <= k < |s| ==> IsSpace(s[k]))
  }

  /** `s.trim()`: `s` with its leading and trailing white space removed. */
  function Trim(s: string): (r: string)
    ensures exists i :: TrimmedAt(s, r, i)
    ensures |r| > 0 ==> !IsSpace(r[0]) && !IsSpace(r[|r| - 1])
  {
    var i := LeadingSpace(s);
    if i == |s| then
      assert TrimmedAt(s, "", i);
      ""
    else
      var j := |s| - TrailingSpace(s);
      assert i < j by {
        assert !IsSpace(s[i]);
      }
      var r := s[i..j];
      assert TrimmedAt(s, r, i);
      r
  }

  /** A string with no white space at either end is its own trim. */
  lemma TrimNoSpace(s: string)
    requires |s| > 0 ==> !IsSpace(s[0]) && !IsSpace(s[|s| - 1])
    ensures Trim(s) == s
  {
  }

  /** The trimmed string is contained in the original. */
  lemma TrimContained(s: string)
    ensures Contains(s, Trim(s))
  {
    var i :| TrimmedAt(s, Trim(s), i);
    ContainsSlice(s, i, i + |Trim(s)|);
  }

  /** `toLowerCase` on one character: ASCII and Latin-1 capitals. */
  function LowerChar(c: char): char {
    if 'A' <= c <= 'Z' || ('\U{00C0}' <= c <= '\U{00DE}' && c != '\U{00D7}') then
      (c as int + 32) as char
    else c
  }

  /** `s.toLowerCase()` (see `LowerChar` for the characters it changes). */
  function Lower(s: string): (r: string)
    ensures |r| == |s|
    ensures forall i :: 0 <= i < |s| ==> r[i] == LowerChar(s[i])
  {
    seq(|s|, i requires 0 <= i < |s| => LowerChar(s[i]))
  }

  /** `s.replace(/c/g, rep)`: every occurrence of the character `c` replaced by `rep`. */
  function ReplaceAll(s: string, c: char, rep: string): (r: string)
    ensures c !in rep ==> c !in r
    ensures c !in s ==> r == s
    decreases |s|
  {
    if |s| == 0 then ""
    else (if s[0] == c then rep else [s[0]]) + ReplaceAll(s[1..], c, rep)
  }

  lemma {:induction false} ReplaceAllConcat(a: string, b: string, c: char, rep: string)
    ensures ReplaceAll(a + b, c, rep) == ReplaceAll(a, c, rep) + ReplaceAll(b, c, rep)
    decreases |a|
  {
    if |a| > 0 {
      assert (a + b)[1..] == a[1..] + b;
      ReplaceAllConcat(a[1..], b, c, rep);
    } else {
      assert a + b == b;
    }
  }

  /** Lower-casing twice changes nothing more. */
  lemma LowerIdempotent(s: string)
    ensures Lower(Lower(s)) == Lower(s)
  {
  }

  /** Lower-casing keeps containment: the lower-cased string contains the
      lower-cased part. */
  lemma {:induction false} ContainsLower(s: string, t: string)
    requires Contains(s, t)
    ensures Contains(Lower(s), Lower(t))
    decreases |s|
  {
    if StartsWith(s, t) {
      assert Lower(s)[..|t|] == Lower(t);
    } else {
      ContainsLower(s[1..], t);
      assert Lower(s)[1..] == Lower(s[1..]);
    }
  }
}

=== FILE: weeks.dfy ===
/** Week specifications such as `"42-51,2-4"` and their expansion into the
    explicit list of academic weeks (`expandWeeks`). */
module Weeks {
  import opened Text
  import opened Numerals
  import opened Sorting

  /** `start, start + 1, ..., end`; empty when `start > end`. */
  function Range(start: int, end: int): (r: seq<int>)
    ensures |r| == if start <= end then end - start + 1 else 0
    ensures forall i :: 0 <= i < |r| ==> r[i] == start + i
    decreases end - start
  {
    if start > end then [] else [start] + Range(start + 1, end)
  }

  lemma RangeMembership(start: int, end: int, w: int)
    ensures w in Range(start, end) <==> start <= w <= end
  {
    if start <= w <= end {
      assert Range(start, end)[w - start] == w;
    }
  }

  /** The weeks one comma-separated token contributes. A token holding a
      `-` is a range whose first two `-`-pieces are the bounds; any other
      token is a single week. A piece that does not parse (`NaN`) makes the
      token contribute nothing. */
  function TokenWeeks(token: string): seq<int> {
    if '-' in token then
      var bounds := Split(token, '-');
      BoundsWeeks(ParseInt(Trim(bounds[0])), ParseInt(Trim(bounds[1])))
    else
      match ParseInt(Trim(token))
      case Some(w) => [w]
      case None => []
  }

  /** The loop `for (let i = start; i <= end; i++)` over parsed bounds; a
      `NaN` bound makes the loop condition false at once. */
  function BoundsWeeks(start: Option<int>, end: Option<int>): seq<int> {
    if start.Some? && end.Some? then Range(start.value, end.value) else []
  }

  /** Every week a token contributes is non-negative: no piece can carry a sign. */
  lemma TokenWeeksNonNegative(token: string, w: int)
    requires w in TokenWeeks(token)
    ensures w >= 0
  {
    if '-' in token {
      var bounds := Split(token, '-');
      TrimInside(bounds[0]);
      TrimInside(bounds[1]);
      var lo, hi := ParseInt(Trim(bounds[0])), ParseInt(Trim(bounds[1]));
      if lo.Some? && hi.Some? {
        RangeMembership(lo.value, hi.value, w);
      }
    } else {
      TrimInside(token);
    }
  }

  /** Trimming keeps only characters of the original string. */
  lemma TrimInside(s: string)
    ensures forall c :: c in Trim(s) ==> c in s
  {
    var r := Trim(s);
    var i :| TrimmedAt(s, r, i);
    WindowInside(s, r, i);
  }

  /** A window of a string holds only characters of that string. */
  lemma WindowInside(s: string, r: string, i: int)
    requires 0 <= i <= |s| - |r| && r == s[i..i + |r|]
    ensures forall c :: c in r ==> c in s
  {
    forall c | c in r
      ensures c in s
    {
      var k :| 0 <= k < |r| && r[k] == c;
      assert s[i + k] == c;
    }
  }

  /** The weeks of a list of tokens, in token order, with repetitions. */
  function TokensWeeks(tokens: seq<string>): (r: seq<int>)
    ensures forall w :: w in r ==> w >= 0
    ensures forall w :: w in r <==> exists t :: t in tokens && w in TokenWeeks(t)
    decreases |tokens|
  {
    if |tokens| == 0 then []
    else
      var head, rest := TokenWeeks(tokens[0]), TokensWeeks(tokens[1..]);
      HeadNonNegative(tokens[0], head);
      TokensCons(tokens, head, rest);
      head + rest
  }

  /** The weeks of one token are non-negative. */
  lemma HeadNonNegative(token: string, head: seq<int>)
    requires head == TokenWeeks(token)
    ensures forall w :: w in head ==> w >= 0
  {
    forall w | w in head
      ensures w >= 0
    {
      TokenWeeksNonNegative(token, w);
    }
  }

  /** The weeks of a non-empty token list are those of its first token and
      those of the rest. */
  lemma TokensCons(tokens: seq<string>, head: seq<int>, rest: seq<int>)
    requires |tokens| > 0 && head == TokenWeeks(tokens[0])
    requires forall w :: w in rest <==> exists t :: t in tokens[1..] && w in TokenWeeks(t)
    ensures forall w :: w in head + rest <==> exists t :: t in tokens && w in TokenWeeks(t)
  {
    forall w
      ensures w in head + rest <==> exists t :: t in tokens && w in TokenWeeks(t)
    {
      if w in rest {
        var t :| t in tokens[1..] && w in TokenWeeks(t);
        assert t in tokens;
      }
      if exists t :: t in tokens && w in TokenWeeks(t) {
        var t :| t in tokens && w in TokenWeeks(t);
        var i :| 0 <= i < |tokens| && tokens[i] == t;
        if i > 0 {
          assert tokens[1..][i - 1] == t;
        }
      }
    }
  }

  /** `expandWeeks(spec)`: the weeks of all tokens, each once, ascending. */
  function ExpandWeeks(spec: string): (r: seq<int>)
    ensures spec == "" ==> r == []
    ensures Ascending(r)
    ensures forall w :: w in r ==> w >= 0
    ensures forall w :: w in r <==> exists t :: t in Split(spec, ',') && w in TokenWeeks(t)
  {
    if spec == "" then [] else SortUniqueInts(TokensWeeks(Split(spec, ',')))
  }

  /** A well-formed token of a week specification. */
  datatype WeekToken = Single(week: nat) | Span(first: nat, last: nat)

  /** The weeks a well-formed token stands for. */
  predicate Denotes(t: WeekToken, w: int) {
    match t
    case Single(x) => w == x
    case Span(a, b) => a <= w <= b
  }

  /** A token written out the way the catalogue writes it: `"7"` or `"42-51"`. */
  function Render(t: WeekToken): (s: string)
    ensures ',' !in s && |s| > 0
  {
    match t
    case Single(x) => NatToString(x)
    case Span(a, b) => NatToString(a) + "-" + NatToString(b)
  }

  /** A specification written out: its tokens joined by commas. */
  function RenderSpec(ts: seq<WeekToken>): string {
    Join(seq(|ts|, i requires 0 <= i < |ts| => Render(ts[i])), ",")
  }

  /** A numeral has no white space to trim and parses back to its value. */
  lemma NumeralParses(n: nat)
    ensures '-' !in NatToString(n)
    ensures ParseInt(Trim(NatToString(n))) == Some(n)
  {
    var s := NatToString(n);
    assert IsDigit(s[0]) && IsDigit(s[|s| - 1]);
    TrimNoSpace(s);
    ParseIntOfNatToString(n);
  }

  /** A numeral token is the one week it names. */
  lemma SingleTokenWeeks(x: nat)
    ensures TokenWeeks(NatToString(x)) == [x]
  {
    NumeralParses(x);
  }

  /** A token with a `-` is read as a range between its first two pieces. */
  lemma RangeToken(token: string)
    requires '-' in token
    ensures |Split(token, '-')| >= 2
    ensures TokenWeeks(token)
         == BoundsWeeks(ParseInt(Trim(Split(token, '-')[0])), ParseInt(Trim(Split(token, '-')[1])))
  {
  }

  /** A numeral range token `a-b` is the weeks from `a` to `b`. */
  lemma SpanTokenWeeks(a: nat, b: nat)
    ensures TokenWeeks(NatToString(a) + "-" + NatToString(b)) == Range(a, b)
  {
    var sa, sb := NatToString(a), NatToString(b);
    var token := sa + "-" + sb;
    assert Join([sa, sb], "-") == token;
    SplitJoin([sa, sb], '-');
    assert '-' in token by {
      assert token[|sa|] == '-';
    }
    RangeToken(token);
    NumeralParses(a);
    NumeralParses(b);
  }

  /** Membership form of `SpanTokenWeeks`. */
  lemma SpanTokenMembership(a: nat, b: nat, w: int)
    ensures w in TokenWeeks(NatToString(a) + "-" + NatToString(b)) <==> a <= w <= b
  {
    SpanTokenWeeks(a, b);
    RangeMembership(a, b, w);
  }

  /** A written-out token contributes exactly the weeks it denotes. */
  lemma TokenWeeksOfRender(t: WeekToken, w: int)
    ensures w in TokenWeeks(Render(t)) <==> Denotes(t, w)
  {
    match t
    case Single(x) =>
      SingleTokenWeeks(x);
    case Span(a, b) =>
      SpanTokenMembership(a, b, w);
  }

  /** A reversed range such as `"9-3"` contributes no week. */
  lemma ReversedRangeIsEmpty(a: nat, b: nat)
    requires a > b
    ensures TokenWeeks(Render(Span(a, b))) == []
  {
    SpanTokenWeeks(a, b);
  }

  /** Expanding comma-joined comma-free tokens collects the weeks of each token. */
  lemma ExpandJoined(parts: seq<string>)
    requires |parts| >= 1
    requires forall i :: 0 <= i < |parts| ==> ',' !in parts[i]
    ensures forall w :: w in ExpandWeeks(Join(parts, ",")) <==> exists i :: 0 <= i < |parts| && w in TokenWeeks(parts[i])
  {
    var spec := Join(parts, ",");
    SplitJoin(parts, ',');
    PiecesCover(parts, Split(spec, ','), ExpandWeeks(spec));
  }

  /** A week covered by some piece is covered by the piece at some index. */
  lemma PiecesCover(parts: seq<string>, pieces: seq<string>, r: seq<int>)
    requires pieces == parts
    requires forall w :: w in r <==> exists t :: t in pieces && w in TokenWeeks(t)
    ensures forall w :: w in r <==> exists i :: 0 <= i < |parts| && w in TokenWeeks(parts[i])
  {
    forall w
      ensures w in r <==> exists i :: 0 <= i < |parts| && w in TokenWeeks(parts[i])
    {
      if w in r {
        var t :| t in pieces && w in TokenWeeks(t);
        var i :| 0 <= i < |parts| && parts[i] == t;
      }
      if exists i :: 0 <= i < |parts| && w in TokenWeeks(parts[i]) {
        var i :| 0 <= i < |parts| && w in TokenWeeks(parts[i]);
        assert parts[i] in pieces;
      }
    }
  }

  /** For a well-formed specification, a week is in the expansion iff some
      token is that week or a range around it. */
  lemma ExpandWeeksOfTokens(ts: seq<WeekToken>)
    ensures forall w :: w in ExpandWeeks(RenderSpec(ts)) <==> exists i :: 0 <= i < |ts| && Denotes(ts[i], w)
  {
    var parts := seq(|ts|, i requires 0 <= i < |ts| => Render(ts[i]));
    if |ts| == 0 {
      assert RenderSpec(ts) == "";
    } else {
      ExpandJoined(parts);
      forall i, w | 0 <= i < |ts|
        ensures w in TokenWeeks(parts[i]) <==> Denotes(ts[i], w)
      {
        TokenWeeksOfRender(ts[i], w);
      }
    }
  }

  /** `ws.join(",")` for a list of week numbers. */
  function WeekList(ws: seq<int>): string {
    Join(seq(|ws|, i requires 0 <= i < |ws| => IntToString(ws[i])), ",")
  }

  /** Expanding the comma-join of an expansion's output gives that output back. */
  lemma ExpandWeeksIdempotent(spec: string)
    ensures ExpandWeeks(WeekList(ExpandWeeks(spec))) == ExpandWeeks(spec)
  {
    var r := ExpandWeeks(spec);
    var ts := seq(|r|, i requires 0 <= i < |r| => assert r[i] in r; Single(r[i]));
    WeekListAsTokens(r, ts);
    ExpandWeeksOfTokens(ts);
    SingletonsCover(r, ts, ExpandWeeks(WeekList(r)));
  }

  /** A list of weeks written out is the specification of one single-week
      token per week. */
  lemma WeekListAsTokens(r: seq<int>, ts: seq<WeekToken>)
    requires |ts| == |r|
    requires forall i :: 0 <= i < |r| ==> ts[i].Single? && ts[i].week == r[i]
    ensures WeekList(r) == RenderSpec(ts)
  {
    assert seq(|r|, i requires 0 <= i < |r| => IntToString(r[i]))
        == seq(|ts|, i requires 0 <= i < |ts| => Render(ts[i]));
  }

  /** An ascending list holding exactly the weeks of the single-week tokens
      made from an ascending list is that list. */
  lemma SingletonsCover(r: seq<int>, ts: seq<WeekToken>, r2: seq<int>)
    requires Ascending(r) && Ascending(r2)
    requires |ts| == |r|
    requires forall i :: 0 <= i < |r| ==> ts[i].Single? && ts[i].week == r[i]
    requires forall w :: w in r2 <==> exists i :: 0 <= i < |ts| && Denotes(ts[i], w)
    ensures r2 == r
  {
    forall w
      ensures w in r2 <==> w in r
    {
      if w in r {
        var i :| 0 <= i < |r| && r[i] == w;
        assert Denotes(ts[i], w);
      }
    }
    AscendingUnique(r2, r);
  }

  /** The tokens `42-44` and `2` are written out as `"42-44,2"`. */
  lemma ExampleSpecText()
    ensures RenderSpec([Span(42, 44), Single(2)]) == "42-44,2"
  {
    var ts := [Span(42, 44), Single(2)];
    assert NatToString(42) == "42" && NatToString(44) == "44" && NatToString(2) == "2";
    assert Render(ts[0]) == "42-44" && Render(ts[1]) == "2";
    assert seq(|ts|, i requires 0 <= i < |ts| => Render(ts[i])) == ["42-44", "2"];
    assert Join(["42-44", "2"], ",") == "42-44,2";
  }

  /** `expandWeeks("42-44,2")` is `[2, 42, 43, 44]` (the text is the
      rendering `ExampleSpecText` spells out): ranges are expanded and the
      result is sorted numerically. */
  lemma ExpandWeeksExample()
    ensures ExpandWeeks(RenderSpec([Span(42, 44), Single(2)])) == [2, 42, 43, 44]
  {
    var ts := [Span(42, 44), Single(2)];
    ExpandWeeksOfTokens(ts);
    ExampleWeeks(ExpandWeeks(RenderSpec(ts)));
  }

  /** The ascending list of the weeks `42-44` and `2` denote. */
  lemma ExampleWeeks(r: seq<int>)
    requires Ascending(r)
    requires forall w :: w in r <==> exists i :: 0 <= i < 2 && Denotes([Span(42, 44), Single(2)][i], w)
    ensures r == [2, 42, 43, 44]
  {
    var ts := [Span(42, 44), Single(2)];
    var e := [2, 42, 43, 44];
    forall w
      ensures w in r <==> w in e
    {
      assert (exists i :: 0 <= i < |ts| && Denotes(ts[i], w)) <==> Denotes(ts[0], w) || Denotes(ts[1], w);
    }
    AscendingUnique(r, e);
  }

  /** `expandWeeks("5,5,5")` is `[5]` (`"5,5,5"` being the rendering of
      three `5` tokens): repeated weeks appear once. */
  lemma ExpandWeeksDuplicates()
    ensures ExpandWeeks(RenderSpec([Single(5), Single(5), Single(5)])) == [5]
  {
    var ts := [Single(5), Single(5), Single(5)];
    ExpandWeeksOfTokens(ts);
    RepeatedWeeks(ExpandWeeks(RenderSpec(ts)));
  }

  /** The ascending list of the week three `5` tokens denote. */
  lemma RepeatedWeeks(r: seq<int>)
    requires Ascending(r)
    requires forall w :: w in r <==> exists i :: 0 <= i < 3 && Denotes([Single(5), Single(5), Single(5)][i], w)
    ensures r == [5]
  {
    var ts := [Single(5), Single(5), Single(5)];
    forall w
      ensures w in r <==> w in [5]
    {
      assert (exists i :: 0 <= i < |ts| && Denotes(ts[i], w)) <==> Denotes(ts[0], w);
    }
    AscendingUnique(r, [5]);
  }
}
